=== FILE: README.md ===
# Variant expander: settings, translations and console model

This project models the core of a Shopify embedded app that adds "expander"
buttons to the product cards of a storefront's collection pages. Each button
unfolds the product's variants as cards of their own. The merchant sets the app
up from a console inside the Shopify admin. The model covers five parts:

- **The stored documents.** A shop's settings are a Mongoose `Shop` document:
  the normalised domain, the enum validators, the schema defaults and the
  per-product and per-collection option overrides. Per-shop translations are a
  `Localization` document: its default and supported locales, its locale
  tables, the lookup with fallback to the default locale, and the key-by-key
  merge. Both live in a small document store (`Store.Database`) with
  `findOne` and `save` semantics.
- **The translation service.** This is the built-in bundle of `en`, `fr`, `de`
  and `es` tables. It also covers lazy creation of a shop's localization
  document, reading a shop's table with all its fallbacks, and writing
  translations.
- **The HTTP routes.**
  - The public configuration endpoint the storefront reads.
  - The shop routes: read and update settings, list collections, set the
    enabled collections.
  - The localization routes: settings, default locale, adding and removing
    locales, reading and writing tables.

  Each handler is a method on the store that returns the status and body it
  would send.
- **The storefront script** (`variant-expander.js`). It detects a collection
  page and overlays the fetched configuration on its built-in one. It checks
  whether the collection is enabled, adds one button per product card, and
  expands or collapses a product on click. It also builds variant cards and
  picks each variant's image.
- **The console pages** for variant options, products, collections and
  localization. Each page is a class whose fields are the page's React state.
  Each handler is a method. Each server reply is a parameter of the method that
  receives it.

Values become datatypes and functions. State that the source changes in place
becomes a class with `modifies` frames. Such state includes the store, an open
`Localization` document, the storefront script's expanded set, and each console
page. Each loop in the source becomes a method with invariants. One example is
copying a table entry by entry. Another is filling the option-type map from the
product list.

Some behaviour of the code is easy to miss, and the model keeps it as written:

- There is no evaluator of the selection mode. The storefront activates the
  widget by one check only: the collection handle of the page against
  `enabledCollections`. The selection mode and the product and tag lists are
  stored and edited but never read by the script.
- The public configuration endpoint does not complete a stored settings group
  field by field. It substitutes a whole default object for a missing group, and
  sends a present group as stored (`PublicRoutes.NoPerFieldDefaults`).
- A settings update carrying an invalid enum value is answered with status 500
  and writes nothing. No reply names the offending field.
- Creating a shop's localization document is a read followed by a create, with
  no guard against two requests doing it at once. That race is outside the model.
- The list fields `enabledCollections`, `enabledProducts`, `enabledTags` and
  `supportedLocales` are arrays of trimmed strings (server/src/models/shop.js:54-65,
  server/src/models/localization.js:25-28). Every entry pushed or assigned is
  trimmed, while `includes(locale)`, the translations map key and
  `defaultLocale` use the locale as sent. A locale with surrounding white space
  therefore breaks the document's invariants
  (`LocalizationModel.WithTranslationsPadded`, `LocalizationRoutes.SetDefaultLocalePadded`,
  `LocalizationRoutes.AddLocalePadded`).
- The server mounts only the `/auth`, `/api/shop` and `/api/admin` routers
  (server/index.js:31-33), and those define no `/api/admin/products`,
  `/api/admin/products-with-options`, `/api/shop/selection` or
  `/api/shop/variant-options` routes. The requests at web/src/pages/Products.jsx:53
  and :134 and at web/src/pages/VariantOptions.jsx:70, :111 and :175 reach the
  404 handler (server/index.js:41-43). So the products page always takes its load
  failure path, its save always ends in its error, the variant-options page skips
  its settings and then fails on the missing product list, and its save always
  ends in its error. Each page's methods take the reply as a parameter, so both
  the path the deployed server forces and the path a server with these routes
  would take are modelled.

## Model

| member | source | states |
|---|---|---|
| `ShopModel.NormalizeDomain` | server/src/models/shop.js:4-10 | the stored domain is the given one with its leading and trailing white space removed and every ASCII capital folded, character by character; it has no white space at either end and no capital |
| `ShopModel.LowerKeepsEnds` | server/src/models/shop.js:8-9 | lower-casing a string without white space at its ends keeps both ends free of white space, so the two setters compose |
| `ShopModel.LowerOfInfix` | server/src/models/shop.js:8-9 | folding the trimmed infix of a domain folds it character by character in place |
| `ShopModel.NormalizeDomainIdempotent` | server/src/models/shop.js:4-10 | applying the `trim` and `lowercase` setters to a stored domain changes nothing |
| `ShopModel.CastList` | server/src/models/shop.js:54-65 | an assigned list keeps its length and absence, and each entry is trimmed |
| `ShopModel.CastSettings` | server/src/models/shop.js:54-65 | assigned settings have their three list fields cast, every other key as given, and pass the enum validators exactly when the uncast ones do |
| `ShopModel.CastListIdempotent` | server/src/models/shop.js:54-65 | casting a list twice equals casting it once |
| `ShopModel.CastSettingsIdempotent` | server/src/models/shop.js:54-65 | casting settings twice equals casting them once |
| `ShopModel.CastShop` | server/src/models/shop.js:4-65 | a shop after its setters: domain normalised, list entries trimmed, id and activity kept |
| `ShopModel.DefaultSettings` | server/src/models/shop.js:23-167 | the schema defaults of a new shop pass every enum validator: card style `standard`, selection mode `all`, and the documented option, viewport and style defaults |
| `ShopModel.DefaultOverride` | server/src/models/shop.js:76-103 | a new per-product or per-collection override is valid and its display mode is not `all-variants` (it is `primary-option` on `Color`) |
| `Store.FindShopByDomain` | server/src/routes/public.js:18 | a shop is found only if it is stored under the normalised domain; none is found exactly when no stored shop has that domain |
| `Store.Database.constructor` | server/src/models/shop.js:182 | a store starts from the given `Shop` and `Localization` collections |
| `Store.FindShopById` | server/src/services/translation.js:164 | a shop is found only if it is stored with that id; none is found exactly when no stored shop has it |
| `Store.FirstWith` | server/src/routes/public.js:18 | `findOne` semantics: the result satisfies the query and every earlier document does not; no result means no document satisfies it |
| `Store.ReplaceShop` | server/src/routes/shop.js:38 | saving a shop replaces the document with its id and keeps every other document and the order |
| `Store.Database.FindLocalization` | server/src/routes/localization.js:49 | `Localization.findOne({ shopId })` gives null exactly when the shop has no document, else a fresh document equal to the stored one |
| `Store.Database.SaveLocalization` | server/src/services/translation.js:176 | saving a document files its current state under its shop id and changes no other document |
| `Store.Database.SaveShop` | server/src/routes/shop.js:88 | a save succeeds exactly when the settings pass the enum validators and the normalised domain is present and unique; on success the stored document is the given one with the normalised domain, and the routes hand it over with the list entries trimmed at assignment (`ShopRoutes.PutSettings`, `ShopRoutes.PutEnabledCollections`); on failure nothing is written |
| `LocalizationModel.LocalizationRecord.GetTranslations` | server/src/models/localization.js:58-64 | the locale's own table when stored; else the default locale's table; the plain empty object exactly when neither is stored |
| `LocalizationModel.MergeTable` | server/src/models/localization.js:76-81 | after writing the entries the table has the old keys plus the entry keys; written keys hold the new text, the others keep theirs |
| `LocalizationModel.MergeIdempotent` | server/src/models/localization.js:76-81 | writing the same entries twice equals writing them once |
| `LocalizationModel.MergeEmpty` | server/src/models/localization.js:79-81 | writing no entries leaves the table unchanged |
| `LocalizationModel.MergeTwice` | server/src/models/localization.js:79-81 | two writes in a row equal one write of the combined entries, the later write winning |
| `LocalizationModel.WithTranslations` | server/src/models/localization.js:71-87 | `setTranslations`: the locale, as given, gets a table holding the entries over its old keys; other locales' tables are unchanged; when the locale as given is not in the supported list its trimmed form is appended, else the list is kept; default locale, shop id and domain are kept |
| `LocalizationModel.WithTranslationsTwice` | server/src/models/localization.js:71-87 | two `setTranslations` calls for one locale leave the tables as one call with the combined entries, the later winning; the whole document agrees when the locale has no surrounding white space |
| `LocalizationModel.WithTranslationsConsistent` | server/src/models/localization.js:71-87 | `setTranslations` with a locale free of surrounding white space keeps a document consistent: default locale supported, no duplicate locales, every entry trimmed, every table for a supported locale |
| `LocalizationModel.PushIfAbsent` | server/src/models/localization.js:84-86 | `if (!includes(locale)) push(locale)` on a trimmed array: the list is kept when the locale as given is in it, else its trimmed form is appended |
| `LocalizationModel.PushIfAbsentKeeps` | server/src/models/localization.js:84-86 | pushing a locale free of surrounding white space keeps a trimmed, duplicate-free list so |
| `LocalizationModel.WithTranslationsPadded` | server/src/models/localization.js:71-87 | for a locale with surrounding white space, `setTranslations` on a consistent document stores a table under the raw locale without supporting it, so the document is no longer consistent, and duplicates the trimmed locale when that is already supported |
| `LocalizationModel.PaddedLocale` | server/src/models/localization.js:25-28 | any locale without white space at its ends has a padded form that trims back to it and differs from it |
| `LocalizationModel.PlainEmptyReachable` | server/src/models/localization.js:58-62 | a consistent document without a table for its default locale exists, and an unknown locale then finds the plain `{}` |
| `LocalizationModel.Localization.constructor` | server/src/models/localization.js:9-45 | a document hydrated from a stored record has exactly that record's state |
| `LocalizationModel.Localization.SetTranslations` | server/src/models/localization.js:71-87 | the in-place method, entry by entry, leaves the document equal to `WithTranslations` of its old state |
| `LocalizationModel.WrittenStep` | server/src/models/localization.js:79-81 | setting one more key of the entries extends the merged table by that key, which is the loop's step |
| `TranslationService.BundleUniformKeys` | server/src/services/translation.js:8-73 | the built-in bundle has exactly `en`, `fr`, `de`, `es`, and every table defines the same keys as English |
| `TranslationService.DefaultTranslations` | server/src/services/translation.js:204-206 | a bundled locale gets its own table, any other code the English one; every result has the full key set |
| `TranslationService.DefaultEnglish` | server/src/services/translation.js:204-206 | the default table of `en` is the English table |
| `TranslationService.SupportedLocales` | server/src/services/translation.js:189-197 | four locales in the order `en`, `fr`, `de`, `es`, and a code is listed exactly when it has a built-in table |
| `TranslationService.InitialRecord` | server/src/services/translation.js:88-98 | a new document is consistent, supports only `en` as its default and holds only the English table |
| `TranslationService.ShopTranslations` | server/src/services/translation.js:116-148 | unknown shop, missing document, or neither the locale's nor the default locale's table: the built-in table for the locale; otherwise the locale's table, else the default locale's |
| `TranslationService.ShopTranslationsSource` | server/src/services/translation.js:116-148 | the served table is always either a built-in table or a table stored in some document |
| `TranslationService.GetShopTranslations` | server/src/services/translation.js:116-148 | the lookups followed by the entry-by-entry copy into a plain object return exactly `ShopTranslations` of the store |
| `TranslationService.InitializeShopLocalization` | server/src/services/translation.js:81-108 | an existing document is returned and nothing is written; otherwise the initial document is created, saved under the shop id and returned |
| `TranslationService.BaseRecord` | server/src/services/translation.js:160-172 | the starting document is the stored one; without one it is the initial one for the shop; there is none exactly when neither document nor shop exists |
| `TranslationService.UpdatedRecord` | server/src/services/translation.js:157-183 | the written document is `setTranslations` applied to the starting document; none exactly when neither document nor shop exists |
| `TranslationService.OpenForUpdate` | server/src/services/translation.js:160-172 | gives null exactly when there is no starting document; otherwise a fresh document equal to it, and the store then holds it |
| `TranslationService.UpdateShopTranslations` | server/src/services/translation.js:157-183 | succeeds exactly when a starting document exists, files the updated document under the shop id and changes no other; on failure the store is unchanged; the store stays keyed by shop id |
| `TranslationService.WriteTranslations` | server/src/services/translation.js:175-176 | `setTranslations` on the open document and then `save()`: the store holds the updated document under its shop id |
| `TranslationService.UpdatedRecordConsistent` | server/src/services/translation.js:157-183 | writing translations for a locale free of surrounding white space into a consistent or a new document leaves it consistent, with the locale supported |
| `TranslationService.UpdateTwice` | server/src/services/translation.js:157-183 | two updates of one shop's locale in a row write the table that one update with the combined entries would, the later entries winning; the whole stored document agrees when the locale has no surrounding white space |
| `TranslationService.KeyedUpdate` | server/src/services/translation.js:176 | filing a document under its own shop id keeps the store keyed by shop id |
| `PublicRoutes.FallbacksAreSchemaDefaults` | server/src/routes/public.js:43-66 | the endpoint's three fallback objects equal the shop schema's documented defaults field for field |
| `PublicRoutes.ConfigLocale` | server/src/routes/public.js:27 | the query locale when non-empty, else `en` (the shop-level default locale path is never set) |
| `PublicRoutes.BuildConfig` | server/src/routes/public.js:31-73 | selection mode defaults to `all`, the three lists to empty, each missing settings group to its whole default object; a present group is sent as stored; the localization summary is always `en`/`['en']` |
| `PublicRoutes.Resolve` | server/src/routes/public.js:9-78 | 400 exactly when the shop parameter is empty; 404 exactly when no active shop has that domain; a configuration exactly when a non-empty parameter finds an active shop, and then the configuration built from that shop and its translations |
| `PublicRoutes.DisplayFieldsVerbatim` | server/src/routes/public.js:33-38 | button texts, display flags and card style reach the storefront exactly as stored, absent ones included |
| `PublicRoutes.NoPerFieldDefaults` | server/src/routes/public.js:43-48 | a stored option-settings group is sent exactly as stored: a field it lacks stays absent and is not completed from the defaults |
| `PublicRoutes.ConfigTranslationsWithoutDocument` | server/src/routes/public.js:25-28 | a shop without a Localization document is served the built-in table of the query locale, English when there is none |
| `PublicRoutes.ConfigSelectionModeValid` | server/src/routes/public.js:39 | for valid stored settings the served selection mode is one of the four allowed modes |
| `ShopRoutes.Override` | server/src/routes/shop.js:33-36 | a key present in the request wins; an absent key keeps the stored value |
| `ShopRoutes.MergeSettings` | server/src/routes/shop.js:33-36 | each of the thirteen top-level keys is the request's value when the request has it and the stored value otherwise, whole nested objects included |
| `ShopRoutes.MergeNoChanges` | server/src/routes/shop.js:30-36 | a request without `settings` leaves the settings unchanged |
| `ShopRoutes.MergeIdempotent` | server/src/routes/shop.js:33-36 | sending the same update twice equals sending it once |
| `ShopRoutes.MergeTwice` | server/src/routes/shop.js:33-36 | two updates in a row equal one update with the second's keys taking precedence |
| `ShopRoutes.ShallowNested` | server/src/routes/shop.js:33-36 | a nested `styles` object in the request replaces the stored one whole: nested fields it does not mention are dropped |
| `ShopRoutes.GetSettings` | server/src/routes/shop.js:14-22 | the reply carries the stored settings unchanged |
| `ShopRoutes.PutSettings` | server/src/routes/shop.js:27-45 | when the merged shop passes validation, the store holds it with its list entries trimmed and the reply is those trimmed settings; otherwise 500 and the store is unchanged |
| `ShopRoutes.PutEnabledCollections` | server/src/routes/shop.js:81-95 | when the shop with the new list passes validation, the store holds the list with each entry trimmed and the reply echoes that trimmed list; otherwise 500 and the store is unchanged |
| `ShopRoutes.EnabledCollectionsIsMerge` | server/src/routes/shop.js:81-88 | replacing the enabled collections equals the settings update whose only key is `enabledCollections` |
| `ShopRoutes.ProjectCollections` | server/src/routes/shop.js:65-69 | one entry per Shopify collection, in order, carrying its id, title and handle |
| `ShopRoutes.ProjectAppend` | server/src/routes/shop.js:65-69 | the projection keeps the listing order: projecting a concatenation concatenates the projections |
| `LocalizationRoutes.LocaleOrEnglish` | server/src/routes/localization.js:123 | an absent path segment gives `en`; a present one is used as given |
| `LocalizationRoutes.DefaultTranslationsReply` | server/src/routes/localization.js:30-39 | no locale or an unbundled one is answered with the English table, a bundled one with its own table |
| `LocalizationRoutes.DocumentOfConsistent` | server/src/routes/localization.js:49-56 | in a consistent store, the document a handler opens (stored or newly created) is consistent |
| `LocalizationRoutes.SetDefaultLocale` | server/src/routes/localization.js:97-103 | the locale as sent becomes the default; when it is not in the list its trimmed form is appended, so a locale without surrounding white space is supported afterwards; tables, shop id and domain are kept |
| `LocalizationRoutes.SetDefaultLocaleConsistent` | server/src/routes/localization.js:97-103 | setting a locale free of surrounding white space as default keeps a document consistent |
| `LocalizationRoutes.SetDefaultLocaleIdempotent` | server/src/routes/localization.js:97-103 | setting the same locale, free of surrounding white space, as default twice equals setting it once |
| `LocalizationRoutes.SetDefaultLocalePadded` | server/src/routes/localization.js:97-103 | a default locale with surrounding white space is left out of the supported list, so the document is no longer consistent, and setting it again appends its trimmed form again |
| `LocalizationRoutes.AddLocale` | server/src/routes/localization.js:192-209 | an already supported locale changes nothing; otherwise the trimmed locale is pushed, then `updateShopTranslations` writes the locale's built-in table, so the list is `PushIfAbsent` of the pushed list and a locale free of white space is appended exactly once |
| `LocalizationRoutes.AddLocaleIdempotent` | server/src/routes/localization.js:192-197 | adding a locale free of surrounding white space twice equals adding it once |
| `LocalizationRoutes.AddLocaleConsistent` | server/src/routes/localization.js:192-209 | adding a locale free of surrounding white space keeps a document consistent |
| `LocalizationRoutes.AddLocalePadded` | server/src/routes/localization.js:192-209 | a new locale with surrounding white space ends up twice in its trimmed form, the document is no longer consistent, and adding it again changes the document again |
| `LocalizationRoutes.AddPaddedList` | server/src/routes/localization.js:196-209 | the list after adding such a locale is the old list with its trimmed form appended twice |
| `LocalizationRoutes.AddLocaleSeeds` | server/src/routes/localization.js:203-209 | in a consistent document a new locale's table is exactly its built-in table, with the full key set |
| `LocalizationRoutes.RemoveLocale` | server/src/routes/localization.js:246-252 | the reassigned list is every other entry, trimmed by the element setter, and equals the plain removal when the list was already trimmed; then the locale leaves the list and the tables, and every other locale keeps its membership and table |
| `LocalizationRoutes.RemoveAllTrimmed` | server/src/routes/localization.js:246-248 | removing entries from a trimmed list leaves it trimmed |
| `LocalizationRoutes.RemoveLocaleConsistent` | server/src/routes/localization.js:239-252 | removing a locale other than the default keeps a document consistent |
| `LocalizationRoutes.AddThenRemove` | server/src/routes/localization.js:172-263 | removing a locale free of surrounding white space just added to a consistent document gives back the original |
| `LocalizationRoutes.AppendWriteRemove` | server/src/routes/localization.js:246-252 | appending a locale free of white space to a trimmed list that lacks it, writing its table and removing it gives back the list and the tables |
| `LocalizationRoutes.UpdatedAfterPush` | server/src/routes/localization.js:199-209 | after the document with the trimmed locale pushed is saved, `updateShopTranslations` reads it back and writes the locale's built-in table into it |
| `LocalizationRoutes.Save` | server/src/routes/localization.js:105 | saving files the document under the shop id, changes no other document and keeps the store keyed by shop id |
| `LocalizationRoutes.OpenDocument` | server/src/routes/localization.js:87-95 | the handler holds a fresh copy of the stored document, or of the initial one, which is then stored |
| `LocalizationRoutes.GetShopSettings` | server/src/routes/localization.js:44-72 | the reply is the default and supported locales of the shop's document; a missing document is created and stored first |
| `LocalizationRoutes.PutDefaultLocale` | server/src/routes/localization.js:77-115 | an empty locale is a 400 and writes nothing; otherwise the store holds `SetDefaultLocale` of the shop's document and the reply carries its two fields |
| `LocalizationRoutes.PostSupportedLocale` | server/src/routes/localization.js:172-218 | an empty locale is a 400 and writes nothing; otherwise the store holds `AddLocale` of the shop's document and the reply lists the handler's own list after its push; for a locale free of surrounding white space that is the stored list |
| `LocalizationRoutes.AddNewLocale` | server/src/routes/localization.js:199-209 | pushing the trimmed locale and saving, then seeding through `updateShopTranslations`, leaves the document with the locale's built-in table and the trimmed locale at the end of its list |
| `LocalizationRoutes.PushLocale` | server/src/routes/localization.js:200-201 | the handler's document gains the trimmed locale at the end of its list and is saved |
| `LocalizationRoutes.DeleteSupportedLocale` | server/src/routes/localization.js:223-263 | 400 for an empty locale, 404 without a document, 400 for the default locale, each writing nothing; otherwise the store holds `RemoveLocale` of the document and the reply lists its locales |
| `LocalizationRoutes.GetTranslationsRoute` | server/src/routes/localization.js:120-136 | the reply is `ShopTranslations` of the store for the shop's domain and the requested locale, `en` when none is given |
| `LocalizationRoutes.PutTranslations` | server/src/routes/localization.js:141-167 | 400 for an empty locale or a missing translations object; 500 when there is neither document nor shop; otherwise success and the store holds the updated document; no error writes anything |
| `Storefront.IsCollectionPage` | theme-app-extension/assets/variant-expander.js:59-62 | true exactly when the path contains `/collections/` and does not contain `/products/` |
| `Storefront.CollectionHandle` | theme-app-extension/assets/variant-expander.js:86 | undefined exactly when the path lacks `/collections/`; otherwise the prefix of the text after the first `/collections/` that holds no `/` and ends at that text's end, at a `/` or at another `/collections/` |
| `Storefront.IsCollectionEnabled` | theme-app-extension/assets/variant-expander.js:84-94 | an empty list enables every collection; otherwise enabled exactly when the path has a handle and it is listed |
| `Storefront.Overlay` | theme-app-extension/assets/variant-expander.js:72-74 | for each of the seven configuration keys, a key the server sends replaces the local value and a key it omits keeps the local one |
| `Storefront.OverlayNothing` | theme-app-extension/assets/variant-expander.js:72-74 | a reply without keys leaves the configuration unchanged |
| `Storefront.OverlayIdempotent` | theme-app-extension/assets/variant-expander.js:72-74 | applying the same reply twice equals applying it once |
| `Storefront.FetchedCollectionsServed` | theme-app-extension/assets/variant-expander.js:67-78 | after a successful fetch the script's collection list is exactly the one the configuration endpoint served; an unstored button text keeps the built-in one |
| `Storefront.ProductLink` | theme-app-extension/assets/variant-expander.js:220 | the first link whose `href` contains `/products/`: every earlier link lacks it; none exactly when no link does |
| `Storefront.ProductHandle` | theme-app-extension/assets/variant-expander.js:225 | undefined exactly when the `href` lacks `/products/`; otherwise the prefix of the text after the first `/products/` that holds no `?` and ends at that text's end, at a `?` or at another `/products/` |
| `Storefront.CardHandle` | theme-app-extension/assets/variant-expander.js:219-226 | no handle without a product link; with one, the link's handle when it is non-empty and no handle when it is empty |
| `Storefront.WithButton` | theme-app-extension/assets/variant-expander.js:218-242 | links are kept; a card that already has a button or has no handle is unchanged; otherwise it gets a button carrying its handle and the configured text |
| `Storefront.AddButtonTo` | theme-app-extension/assets/variant-expander.js:218-242 | the callback, with its early returns in the script's order, gives exactly `WithButton` |
| `Storefront.WithButtonTwice` | theme-app-extension/assets/variant-expander.js:229 | adding buttons again changes nothing: a card never gets a second button |
| `Storefront.ImageOfVariant` | theme-app-extension/assets/variant-expander.js:400-402 | the first image whose variant ids include the variant; none exactly when no image lists it |
| `Storefront.VariantImage` | theme-app-extension/assets/variant-expander.js:393-410 | the featured image's source when present; else the first image listing the variant; else the first image's source when truthy, else none; any result without a featured image is the source of a product image |
| `Storefront.AddButtonFor` | theme-app-extension/assets/variant-expander.js:376-383 | the button carries the variant id, reads `Add to Cart` or `Sold Out`, and is disabled exactly when the variant is unavailable |
| `Storefront.CreateVariantCard` | theme-app-extension/assets/variant-expander.js:338-386 | class from the card style; an image exactly when images are displayed and one is found; the variant's title; a price exactly when prices are shown; an inventory line exactly when inventory is shown; the add button |
| `Storefront.ClickStep` | theme-app-extension/assets/variant-expander.js:245-330 | a click changes only its own product: an expanded one collapses exactly when its container is found, a collapsed one expands exactly when its product JSON arrives |
| `Storefront.ExpandThenCollapse` | theme-app-extension/assets/variant-expander.js:274-330 | expanding a product and then collapsing it restores the set of expanded products |
| `Storefront.FailedClickKeeps` | theme-app-extension/assets/variant-expander.js:305-307 | a failed expansion or a missing container leaves the expanded set unchanged |
| `Storefront.Expander.constructor` | theme-app-extension/assets/variant-expander.js:3-20 | the script starts from its built-in configuration with nothing expanded |
| `Storefront.Expander.FetchConfig` | theme-app-extension/assets/variant-expander.js:67-78 | a received `config` is overlaid on the current configuration; a failed request or a reply without `config` changes nothing |
| `Storefront.Expander.AddExpanderButtons` | theme-app-extension/assets/variant-expander.js:215-243 | every card of the page becomes `WithButton` of itself with the configured button text |
| `Storefront.Expander.Init` | theme-app-extension/assets/variant-expander.js:25-53 | off collection pages nothing changes; on one the configuration is fetched; buttons are added exactly when the collection is enabled, otherwise the cards are untouched |
| `Storefront.Expander.OnExpanderClick` | theme-app-extension/assets/variant-expander.js:245-330 | the expanded set follows `ClickStep`; a collapse resets the button text when the container is found; a failed expansion resets it; a successful one shows the collapse text and one variant card per variant, in order |
| `Common.OrElse` | server/src/routes/public.js:39 | JavaScript `s \|\| fallback` on a string: the value when present and non-empty, the fallback otherwise |
| `Strings.IndexFrom` | theme-app-extension/assets/variant-expander.js:86 | the first occurrence of the separator at or after a position, none when there is none |
| `Strings.IndexOf` | theme-app-extension/assets/variant-expander.js:86 | the first occurrence of a substring; none exactly when it does not occur |
| `Strings.Includes` | theme-app-extension/assets/variant-expander.js:61 | `includes` is true exactly when the substring occurs somewhere |
| `Strings.Split` | web/src/pages/Products.jsx:68 | `split` with a non-empty separator gives at least one piece |
| `Strings.JoinCons` | web/src/pages/Products.jsx:68 | joining a piece in front of others puts one separator between them |
| `Strings.SplitJoin` | web/src/pages/Products.jsx:68 | joining the pieces of a split with the separator gives back the string: no text is lost or invented |
| `Strings.Around` | web/src/pages/Products.jsx:68 | cutting out one occurrence of the separator and putting it back gives back the string |
| `Strings.JoinAround` | web/src/pages/Products.jsx:68 | a first piece, the separator and pieces joining to the rest join to the whole string |
| `Strings.SplitPiecesFree` | web/src/pages/Products.jsx:68 | no piece of a split contains the separator |
| `Strings.SplitHead` | theme-app-extension/assets/variant-expander.js:225 | the first piece of a split is the text before the first separator, or the whole string without one |
| `Strings.SplitSecond` | theme-app-extension/assets/variant-expander.js:225 | the second piece of a split starts right after the first separator |
| `Strings.SegmentAfter` | theme-app-extension/assets/variant-expander.js:86 | `split(marker)[1]?.split(stop)[0]`: undefined exactly when the marker is absent; otherwise a prefix of the text after it that ends at its end, at `stop` or at the next marker |
| `Strings.SegmentEnds` | theme-app-extension/assets/variant-expander.js:225 | the segment is a prefix of the text after the marker that stops at its end, at `stop` or at a marker |
| `Strings.TrimStartFacts` | web/src/pages/Products.jsx:69 | drops exactly the leading white space |
| `Strings.TrimEndFacts` | web/src/pages/Products.jsx:69 | drops exactly the trailing white space |
| `Strings.TrimFacts` | web/src/pages/Products.jsx:69 | `trim` gives the infix after the leading white space and before the trailing white space: both ends of the result are not white space, and it is empty exactly when the string is all white space |
| `Strings.TrimIdempotent` | web/src/pages/Products.jsx:69 | a trimmed string has nothing left to trim |
| `Strings.TrimOfTrimmed` | web/src/pages/Products.jsx:69 | a string whose ends are not white space is its own trim |
| `Strings.TrimLeadingSpace` | server/src/models/localization.js:25-28 | a leading space before a string without white space at its ends is exactly what `trim` removes |
| `Strings.TrimAll` | server/src/models/shop.js:54-65 | the element setter of an array of trimmed strings: one trimmed entry per entry, in order |
| `Strings.TrimAllTrimmed` | server/src/models/shop.js:54-65 | the entries the setter leaves need no trimming, and a list already trimmed passes unchanged |
| `Strings.LowerCharWhitespace` | server/src/models/shop.js:8-9 | case folding never makes or unmakes white space |
| `Strings.ToLower` | web/src/pages/Products.jsx:187 | same length, every character folded |
| `Strings.ToLowerIdempotent` | server/src/models/shop.js:9 | folding a folded string changes nothing |
| `Strings.IncludesIgnoringCase` | web/src/pages/Products.jsx:187 | true exactly when the folded query occurs in the folded text |
| `Strings.EmptyQueryMatches` | web/src/pages/Collections.jsx:132-134 | an empty search matches every title |
| `Strings.LessIrreflexive` | web/src/pages/Products.jsx:76 | the default sort order is irreflexive |
| `Strings.LessTransitive` | web/src/pages/Products.jsx:76 | the default sort order is transitive |
| `Strings.LessTotal` | web/src/pages/Products.jsx:76 | any two different strings are ordered one way or the other |
| `Strings.LessAsymmetric` | web/src/pages/Products.jsx:76 | the default sort order is asymmetric |
| `ListOps.RemoveAll` | web/src/pages/Products.jsx:121 | `filter(y => y !== x)` keeps exactly the other values, and changes nothing when `x` is absent |
| `ListOps.RemoveAllIsFilter` | web/src/pages/Products.jsx:121 | the removal is the `filter` keeping every value other than `x`, so the kept values keep their order and multiplicity (`ListOps.Filter`, `ListOps.FilterAppend`) |
| `ListOps.AppendIfAbsent` | web/src/pages/Products.jsx:114-118 | the value is present afterwards; the list is unchanged when it was there, else it is appended at the end |
| `ListOps.Toggle` | web/src/pages/Collections.jsx:75-83 | the toggled value is present afterwards exactly when it was absent; every other value keeps its membership |
| `ListOps.ToggleTwice` | web/src/pages/Collections.jsx:75-83 | toggling twice gives back the same members, and the very same list when the value was absent |
| `ListOps.RemoveAppended` | web/src/pages/Products.jsx:114-121 | removing a value just appended to a list without it gives back the list |
| `ListOps.RemoveAllNoDup` | web/src/pages/Products.jsx:121 | removal keeps a list free of duplicates |
| `ListOps.AppendIfAbsentNoDup` | web/src/pages/Products.jsx:114-118 | appending only when absent keeps a list free of duplicates |
| `ListOps.ToggleNoDup` | web/src/pages/Collections.jsx:75-83 | toggling keeps a list free of duplicates |
| `ListOps.Filter` | web/src/pages/Collections.jsx:132-134 | `filter` keeps exactly the elements satisfying the predicate and never lengthens the list |
| `ListOps.FilterAppend` | web/src/pages/Collections.jsx:132-134 | filtering a concatenation filters each part in turn, so kept elements stay in order |
| `ListOps.FilterSplit` | web/src/pages/Localization.jsx:306-323 | a filter and its complement together keep exactly as many elements as the list has |
| `ListOps.TotalPages` | web/src/pages/Collections.jsx:137 | `Math.ceil(n / perPage)`: the pages hold all items, and the last page is not empty |
| `ListOps.Paginate` | web/src/pages/Collections.jsx:138-139 | a page holds at most `perPage` items, is empty past the end, and item `k` of page `p` is item `(p - 1) * perPage + k` |
| `ListOps.PageOfItem` | web/src/pages/Collections.jsx:137-139 | every item lies on a page between 1 and the page count, at the position its index gives |
| `ListOps.MulMonotone` | web/src/pages/Collections.jsx:137-139 | multiplying by the page size keeps the order of page numbers |
| `CollectionsPage.FilterCollections` | web/src/pages/Collections.jsx:132-134 | the search keeps exactly the collections whose title contains the query, ignoring case, and never lengthens the list |
| `CollectionsPage.FilterKeepsOrder` | web/src/pages/Collections.jsx:132-134 | the search keeps the listing order: searching a concatenation searches each part in turn |
| `CollectionsPage.EmptySearchKeepsAll` | web/src/pages/Collections.jsx:132-134 | with an empty search every collection is shown |
| `CollectionsPage.Page.constructor` | web/src/pages/Collections.jsx:25-34 | the page starts with no collections, empty lists, an empty search, page 1 and no error |
| `CollectionsPage.Page.TotalPagesShown` | web/src/pages/Collections.jsx:137 | the page count covers all matches with ten per page, and its last page is not empty |
| `CollectionsPage.Page.Shown` | web/src/pages/Collections.jsx:137-139 | at most ten collections, each a match of the search, and entry `k` is match `(page - 1) * 10 + k`; exactly the ten matches from that position, fewer only when fewer remain, none past the last match |
| `CollectionsPage.Page.Load` | web/src/pages/Collections.jsx:37-65 | without settings the error is set and the lists are unchanged; otherwise the listing (empty when absent) and the stored enabled list (empty when absent) are shown, the page is clean and the error cleared |
| `CollectionsPage.Page.ToggleCollection` | web/src/pages/Collections.jsx:75-83 | the collection is enabled afterwards exactly when it was not; the list stays free of duplicates |
| `CollectionsPage.Page.Save` | web/src/pages/Collections.jsx:85-113 | a reply carrying a list makes it both the current and the confirmed list, clears the error and leaves the page clean; any other reply keeps both lists and sets the save error |
| `CollectionsPage.Page.Reset` | web/src/pages/Collections.jsx:115-119 | the enabled list returns to the confirmed one and the page is clean |
| `CollectionsPage.Page.ChangeSearch` | web/src/pages/Collections.jsx:121-129 | the search takes the new value (empty when cleared) and the page returns to 1 |
| `CollectionsPage.Page.NextPage` | web/src/pages/Collections.jsx:252-253 | moves one page on exactly while a later page exists, never past the page count |
| `CollectionsPage.Page.PreviousPage` | web/src/pages/Collections.jsx:250-251 | moves one page back exactly while past the first page |
| `CollectionsPage.SaveThroughServer` | web/src/pages/Collections.jsx:85-113 | when the server accepts the list the page sends, the page ends clean with the list as the server stored it (each entry trimmed) as both the current and the confirmed list; an already trimmed list comes back unchanged |
| `ProductsPage.AddTagsSpec` | web/src/pages/Products.jsx:68-71 | adding pieces to the `Set` adds exactly the non-empty ones, and a duplicate-free `Set` stays duplicate-free |
| `ProductsPage.AllPieces` | web/src/pages/Products.jsx:66-73 | one list of trimmed tag pieces per product, in listing order |
| `ProductsPage.CollectSpec` | web/src/pages/Products.jsx:65-73 | the `Set` filled from lists of pieces holds each non-empty piece of some list, nothing else, each once |
| `ProductsPage.CollectStep` | web/src/pages/Products.jsx:66-73 | one more product's pieces extend the `Set` as the outer loop's step does |
| `ProductsPage.TagsOfSpec` | web/src/pages/Products.jsx:65-73 | the vocabulary holds each non-empty trimmed piece of some product's tags, nothing else, each once |
| `ProductsPage.AddProductTags` | web/src/pages/Products.jsx:68-71 | the inner loop over one tag string adds exactly what `AddTags` of its trimmed pieces adds |
| `ProductsPage.ExtractTags` | web/src/pages/Products.jsx:65-73 | the outer loop over the products, skipping absent or empty tag strings, builds exactly `TagsOf` the products |
| `ProductsPage.Insert` | web/src/pages/Products.jsx:76 | inserting one string adds exactly that string to the multiset of elements |
| `ProductsPage.InsertFrontSorted` | web/src/pages/Products.jsx:76 | a string not above the head of a sorted list can go in front and the list stays sorted |
| `ProductsPage.InsertSorted` | web/src/pages/Products.jsx:76 | inserting into a sorted list keeps it sorted |
| `ProductsPage.SortStrings` | web/src/pages/Products.jsx:76 | `sort()` returns a permutation of its input in the default string order |
| `ProductsPage.SortKeepsMembers` | web/src/pages/Products.jsx:76 | sorting keeps exactly the same members, and keeps a duplicate-free list duplicate-free |
| `ProductsPage.AllTagsSpec` | web/src/pages/Products.jsx:64-76 | the shown vocabulary is sorted, free of duplicates, and holds exactly the non-empty trimmed tag pieces of the products |
| `ProductsPage.NoDupCount` | web/src/pages/Products.jsx:65 | a list free of duplicates holds each value at most once, as a `Set` does |
| `ProductsPage.SuggestedTags` | web/src/pages/Products.jsx:196-200 | at most ten suggestions, each a known tag not yet enabled that contains the typed text ignoring case, taken from the front of the filtered vocabulary in order; exactly ten of them, or all candidates when there are fewer |
| `ProductsPage.SuggestionsComplete` | web/src/pages/Products.jsx:196-200 | with at most ten known tags and nothing typed, every tag not yet enabled is suggested |
| `ProductsPage.MatchingProducts` | web/src/pages/Products.jsx:185-189 | a product matches exactly when its title or its tags contain the search ignoring case, and the matches keep the listing order |
| `ProductsPage.ProductPage` | web/src/pages/Products.jsx:185-194 | the current page of the search: as many products as remain from position `(page - 1) * 20` of the matches, at most twenty, and product `k` is match `(page - 1) * 20 + k` |
| `ProductsPage.Page.constructor` | web/src/pages/Products.jsx:29-44 | the page starts empty, in `specific-products` mode on both sides, with no tag typed and no error |
| `ProductsPage.Page.Load` | web/src/pages/Products.jsx:47-93 | a missing listing or settings sets the load error and changes nothing else; otherwise the products, the sorted vocabulary, the stored mode (default `specific-products`) and lists (default empty) are shown, the page is clean and the error cleared |
| `ProductsPage.Page.ToggleProduct` | web/src/pages/Products.jsx:103-111 | the enabled products become their toggle by the id; a duplicate-free list stays so |
| `ProductsPage.Page.SetTagInput` | web/src/pages/Products.jsx:43 | the tag field holds the typed value |
| `ProductsPage.Page.AddTag` | web/src/pages/Products.jsx:113-118 | a non-empty tag not yet enabled is appended and the field cleared; otherwise nothing changes; a duplicate-free list stays so |
| `ProductsPage.Page.RemoveTag` | web/src/pages/Products.jsx:120-122 | every occurrence of the tag leaves the list, the rest keep their order; a duplicate-free list stays so |
| `ProductsPage.Page.SuggestedTagClick` | web/src/pages/Products.jsx:124-128 | the tag is enabled exactly once and is no longer suggested |
| `ProductsPage.Page.ChangeSelectionMode` | web/src/pages/Products.jsx:181-183 | the mode takes the chosen value |
| `ProductsPage.Page.Save` | web/src/pages/Products.jsx:130-163 | on success the confirmed mode and lists become the current ones, the error clears and the page is clean; on failure they are kept and the save error is set |
| `ProductsPage.Page.Reset` | web/src/pages/Products.jsx:165-169 | mode and lists return to the confirmed ones and the page is clean |
| `ProductsPage.AddThenRemoveTag` | web/src/pages/Products.jsx:113-122 | adding a tag that was not enabled and removing it gives back the list |
| `VariantOptionsPage.LoadGlobal` | web/src/pages/VariantOptions.jsx:75-82 | the loaded global settings take the stored display mode and primary option, a falsy one replaced by `all-variants` / `Color`, so neither is empty |
| `VariantOptionsPage.LoadDefaults` | web/src/pages/VariantOptions.jsx:44-47 | a stored document holding the schema defaults loads as exactly the page's initial global settings |
| `VariantOptionsPage.OptionTypesOf` | web/src/pages/VariantOptions.jsx:116-121 | every product id recorded in `productOptionTypes` has at least one option type |
| `VariantOptionsPage.OptionTypesOfSpec` | web/src/pages/VariantOptions.jsx:116-121 | an id has option types iff some listed product with that id has options, and they are the options of the last such product |
| `VariantOptionsPage.CollectOptionTypes` | web/src/pages/VariantOptions.jsx:116-121 | the `forEach` loop builds exactly the option-type map of the product list |
| `VariantOptionsPage.ChangeOverride` | web/src/pages/VariantOptions.jsx:222-240 | the edited id gains an override: a new one takes the value in the edited field and `primary-option` / `Color` in the other; an existing one has only the edited field replaced; all other ids keep theirs |
| `VariantOptionsPage.NewOverrideFromDefaults` | web/src/pages/VariantOptions.jsx:226-230 | a newly created override equals the schema's default override with the edited field set |
| `VariantOptionsPage.ChangeOverrideTwice` | web/src/pages/VariantOptions.jsx:222-240 | editing the same field of the same id twice leaves only the second value |
| `VariantOptionsPage.ChangeOverrideCommutes` | web/src/pages/VariantOptions.jsx:222-240 | edits of two different ids give the same map in either order |
| `VariantOptionsPage.EffectiveMode` | web/src/pages/VariantOptions.jsx:517 | the display mode shown is the override's when it is set and non-empty, otherwise the global default |
| `VariantOptionsPage.EffectivePrimary` | web/src/pages/VariantOptions.jsx:528 | the primary option shown is the override's when it is set and non-empty, otherwise the global default |
| `VariantOptionsPage.SelectorFollowsEffectiveMode` | web/src/pages/VariantOptions.jsx:521-532 | the primary-option selector is rendered iff the shown display mode is `primary-option` or `grouped-options`, for overrides whose mode is not the empty string |
| `VariantOptionsPage.PrimaryOptionChoices` | web/src/pages/VariantOptions.jsx:348-359 | the choices are the product's own option types when it has any, otherwise the five common types; never empty |
| `VariantOptionsPage.FilterProducts` | web/src/pages/VariantOptions.jsx:284-288 | a product is kept iff its title, or its non-empty tags, contain the query ignoring case |
| `VariantOptionsPage.FilterCollections` | web/src/pages/VariantOptions.jsx:290-292 | a collection is kept iff its title contains the query ignoring case |
| `VariantOptionsPage.ProductPage` | web/src/pages/VariantOptions.jsx:296-301 | the current page of the search: as many products as remain from position `(page - 1) * 10` of the matches, at most ten, and product `k` is match `(page - 1) * 10 + k` |
| `VariantOptionsPage.Page.constructor` | web/src/pages/VariantOptions.jsx:44-61 | the page starts with `all-variants` / `Color`, no originals, no overrides, no option types and nothing expanded |
| `VariantOptionsPage.Page.Load` | web/src/pages/VariantOptions.jsx:64-134 | a settings reply sets current and original settings alike (so the page is clean), none leaves them; a product list fills the option-type map from it and clears the error; a missing list sets the load error after the settings were applied and keeps the option-type map |
| `VariantOptionsPage.Page.ChangeGlobal` | web/src/pages/VariantOptions.jsx:218-220 | only the named global field takes the new value |
| `VariantOptionsPage.Page.ChangeProductOption` | web/src/pages/VariantOptions.jsx:222-240 | the product overrides become `ChangeOverride` of the old ones |
| `VariantOptionsPage.Page.ChangeCollectionOption` | web/src/pages/VariantOptions.jsx:242-260 | the collection overrides become `ChangeOverride` of the old ones |
| `VariantOptionsPage.Page.ToggleProductExpand` | web/src/pages/VariantOptions.jsx:262-270 | an expanded product is removed from the expanded list, any other appended |
| `VariantOptionsPage.Page.ToggleCollectionExpand` | web/src/pages/VariantOptions.jsx:272-280 | an expanded collection is removed from the expanded list, any other appended |
| `VariantOptionsPage.Page.Save` | web/src/pages/VariantOptions.jsx:162-201 | a successful save makes the current settings the originals, clears the error and leaves the page clean; a failed one keeps the originals and sets the save error |
| `VariantOptionsPage.Page.Reset` | web/src/pages/VariantOptions.jsx:203-216 | the settings go back to the originals (the global ones only once loaded) and the page is clean |
| `LocalizationPage.ReplyDefault` | web/src/pages/Localization.jsx:181-190 | the default locale read from a reply: the reply's locale when it carries settings, otherwise undefined |
| `LocalizationPage.ReplySupported` | web/src/pages/Localization.jsx:220-228 | the supported list read from a reply: the reply's list when it carries one, otherwise undefined |
| `LocalizationPage.OptionOf` | web/src/pages/Localization.jsx:309-312 | a locale's option shows `name (code)` and selects the code |
| `LocalizationPage.Options` | web/src/pages/Localization.jsx:309-312 | the options list has one option per locale, in the same order |
| `LocalizationPage.OptionsPartition` | web/src/pages/Localization.jsx:306-323 | the supported and addable selects split the available locales between them: their sizes add up, and each available locale appears in the one that matches its membership in the supported list |
| `LocalizationPage.SupportedMember` | web/src/pages/Localization.jsx:306-313 | an available locale's option is in the supported select iff its code is supported |
| `LocalizationPage.AddableMember` | web/src/pages/Localization.jsx:316-323 | an available locale's option is in the add-locale select iff its code is not supported |
| `LocalizationPage.OptionsMembers` | web/src/pages/Localization.jsx:309-312 | every locale has its option in the list, and every option in the list comes from a locale with that code |
| `LocalizationPage.Page.constructor` | web/src/pages/Localization.jsx:34-49 | the page starts with `en` as default and only supported locale, no original settings, empty tables, `en` being edited and the add dialog closed |
| `LocalizationPage.Page.FetchTranslations` | web/src/pages/Localization.jsx:89-109 | fetched tables become the current, original and default tables; a request that throws before any setter runs keeps them and sets the translations error |
| `LocalizationPage.Page.Load` | web/src/pages/Localization.jsx:52-86 | a successful load makes the shop's settings both current and original, lists the available locales, edits the default locale (or `en`), loads its tables and clears the error; a failed one keeps the settings and sets the load error |
| `LocalizationPage.Page.ChangeLocale` | web/src/pages/Localization.jsx:123-126 | the chosen locale becomes the one edited; fetched tables become the current, original and default tables and the error is kept; a failed fetch sets the translations error and keeps all three tables |
| `LocalizationPage.Page.ChangeTranslation` | web/src/pages/Localization.jsx:128-133 | the key takes the new value, the table gains at most that key, and every other key keeps its value |
| `LocalizationPage.Page.ResetToDefault` | web/src/pages/Localization.jsx:286-288 | the table becomes the default table, so it is clean when the loaded table was the default one |
| `LocalizationPage.Page.SaveTranslations` | web/src/pages/Localization.jsx:135-164 | a successful save confirms the table and clears the error, leaving the page clean when the settings are; a failed one keeps the confirmed table and sets the save error |
| `LocalizationPage.Page.SaveDefaultLocale` | web/src/pages/Localization.jsx:166-201 | the settings take the reply's default and supported list, the confirmed settings only its default, and the error clears; the page stays dirty exactly when the reply's list differs from the confirmed one; a request that throws sets its own error and leaves both settings unchanged |
| `LocalizationPage.Page.ChooseLocaleToAdd` | web/src/pages/Localization.jsx:522 | the locale picked in the dialog becomes the one to add |
| `LocalizationPage.Page.ChooseDefaultLocale` | web/src/pages/Localization.jsx:357 | the chosen value becomes the shown default locale and nothing else of the settings changes; choosing the confirmed default again leaves the settings as they were, another one makes the page dirty |
| `LocalizationPage.Page.AddLocale` | web/src/pages/Localization.jsx:203-241 | with no locale chosen nothing changes; a request that throws sets its own error and leaves the settings, the dialog and the choice unchanged; otherwise the shown and confirmed settings take the reply's list, the dialog closes, the choice is cleared and so is the error |
| `LocalizationPage.Page.RemoveLocale` | web/src/pages/Localization.jsx:243-284 | removing the default locale only sets an error; a request that throws sets its own error and changes nothing else; otherwise both settings take the reply's list and the error clears, and removing the locale being edited switches the editor to the default locale and its fetched tables, or keeps the tables when that fetch fails |
| `LocalizationPage.Page.SelectOptions` | web/src/pages/Localization.jsx:306-323 | the two selects together hold one option per available locale |

## Left out

- Concurrency: the read-then-create race in localization document creation, interleaved requests, and the console's overlapping fetches. Every operation is modelled as one atomic step.
- Authentication and sessions, the Shopify Admin API client, OAuth, script-tag installation, and process start-up. The collections route's Shopify listing is a parameter.
- The `/api/shop/variant-options`, `/api/shop/selection` and `/api/admin` endpoints are not part of this model. The variant-options page receives their replies as parameters.
- `server/index.js` mounts only the auth, shop and admin routers, not the public and localization routers. The model treats the public and localization routes as reachable handlers and does not model mounting.
- Timestamps stamped by the shop schema's pre-save hook, and Mongoose's `_id`/`__v` bookkeeping. Ids are modelled as strings.
- CollectionsPage.SaveThroughServer: collection ids are typed as strings everywhere, so the model does not show what happens to numeric ids. Shopify's collection listing returns numeric ids. server/src/routes/shop.js:65-69 passes them through unchanged, and the page toggles them as numbers (web/src/pages/Collections.jsx:75-83). On the PUT, the `[{type: String, trim: true}]` cast (server/src/models/shop.js:54-57) stores and echoes them as decimal strings, which replace the page's list (web/src/pages/Collections.jsx:99-101). From then on, and after every reload, the `includes(id)` test at web/src/pages/Collections.jsx:219 compares a number with strings: no collection shows as enabled, and a click appends the number next to its string. The clause "an already trimmed list comes back unchanged" holds only for string ids.
- Mongoose's default application on nested paths, and map-key restrictions. A stored document is taken to already carry the schema defaults wherever the schema gives one.
- The query-string setter on the shop domain is assumed to run in `findOne`, as Mongoose runs setters on queries by default.
- JSON key order in the console's `JSON.stringify` dirty checks. Two settings are compared as values, so differences in key order alone are not modelled.
- Unicode case folding beyond ASCII, and the UTF-16 code-unit order of the default sort. `toLowerCase` folds only `A` to `Z`, and `sort` compares characters by code point. `trim` removes the full JavaScript white-space and line-terminator set.
- Null values sent in JSON bodies. An array sent as the `translations` body of the translations PUT route is not modelled either.
- The GET translations route's 500 branch. The service call it guards cannot throw in the model.
- The public route's 500 branch, likewise unreachable in the model.
- Floating point, the price formatter and the image URL size rewrite in the storefront script.
- The script's cart endpoints (`addToCart`, `updateCartCount`), its styles, and DOM construction beyond the structure of a card. Product JSON is a parameter.
- The storefront configuration fields other than `enabledCollections` and the display flags are carried but never read by the script.
- The console stores collection ids in `enabledCollections`, but the storefront compares them with collection handles. The model keeps both as the code has them and does not reconcile them.
- Polaris rendering, toasts, loading and saving flags, tabs, and modal layout. Only the state these depend on is modelled.
- Failed requests are `Option` parameters: `None` stands for a request that threw or failed before any setter of the handler ran, and the handler takes its `catch` branch.
- LocalizationPage.Page.FetchTranslations: a reply without a `translations` key is not modelled. There Localization.jsx:99 sets the current table to `undefined`, and the copy at :100 then throws, so the `catch` branch runs after that setter.
- VariantOptionsPage.SelectorFollowsEffectiveMode: excludes overrides whose display mode is the empty string. The Mongoose enum rejects `""`, so no stored override holds it.
- LocalizationModel.WithTranslationsConsistent: requires a locale free of surrounding white space. For any other locale the source breaks consistency, as `LocalizationModel.WithTranslationsPadded` proves.
- LocalizationRoutes.SetDefaultLocaleConsistent: requires a locale free of surrounding white space. For any other locale the source breaks consistency, as `LocalizationRoutes.SetDefaultLocalePadded` proves.
- LocalizationRoutes.SetDefaultLocaleIdempotent: requires a locale free of surrounding white space. For any other locale a second call appends the trimmed form again, as `LocalizationRoutes.SetDefaultLocalePadded` proves.
- LocalizationRoutes.AddLocaleIdempotent: requires a locale free of surrounding white space. For any other locale a second call changes the document again, as `LocalizationRoutes.AddLocalePadded` proves.
- LocalizationRoutes.AddLocaleConsistent: requires a locale free of surrounding white space. For any other locale the source breaks consistency, as `LocalizationRoutes.AddLocalePadded` proves.
- LocalizationRoutes.AddThenRemove: requires a locale free of surrounding white space, because adding any other locale leaves a document that is not consistent.
- LocalizationRoutes.AppendWriteRemove: requires a trimmed list and a locale free of surrounding white space, because the element setter rewrites any other list on removal.
- LocalizationModel.WithTranslationsTwice: the whole document is stated equal only for a locale free of surrounding white space. For a padded locale the second call appends the trimmed code again, as `LocalizationModel.WithTranslationsPadded` proves; the tables still agree.
- TranslationService.UpdateTwice: the whole stored document is stated equal only for a locale free of surrounding white space, for the reason given for `LocalizationModel.WithTranslationsTwice`; the tables still agree.
- TranslationService.UpdatedRecordConsistent: requires a locale free of surrounding white space, for the reason given for `LocalizationModel.WithTranslationsConsistent`.
- The search and page state is a class field only on the collections page. The products and variant-options pages' filtering and pagination are pure functions of the query and page number.
- LocalizationPage.Page.SelectOptions: requires a supported list. The source calls `.includes` on it and would throw on an error reply that lacks one.
- LocalizationPage.Page.SaveDefaultLocale: spreading a null original settings object is modelled as the empty settings object.
- The GET `/supported-locales` route is modelled only through `TranslationService.SupportedLocales`, which it returns unchanged.
- JavaScript prototype lookups on the bundle object, such as `defaultTranslations["constructor"]`. The bundle is a map over its four locales.

=== FILE: collections_page.dfy ===
/**
 * The console's collections page (web/src/pages/Collections.jsx): the enabled
 * collections being edited, the list last confirmed by the server, and the
 * search and page the list is shown through.
 */
module CollectionsPage {
  import opened Common
  import opened Strings
  import opened ListOps
  import opened ShopModel
  import ShopRoutes
  import Store

  const PerPage: nat := 10
  const LoadFailed := "Failed to load collections. Please try refreshing the page."
  const SaveFailed := "Failed to save enabled collections. Please try again."

  /** A collection of the GET `/collections` reply. */
  type Collection = ShopRoutes.Collection

  /** The search: collections whose title contains the query, ignoring case, in listing order. */
  function FilterCollections(collections: seq<Collection>, query: string): (r: seq<Collection>)
    ensures |r| <= |collections|
    ensures forall c :: c in r <==> c in collections && IncludesIgnoringCase(c.title, query)
  {
    Filter(collections, (c: Collection) => IncludesIgnoringCase(c.title, query))
  }

  /** The search keeps listing order: filtering a concatenation filters each part in turn. */
  lemma FilterKeepsOrder(a: seq<Collection>, b: seq<Collection>, query: string)
    ensures FilterCollections(a + b, query) == FilterCollections(a, query) + FilterCollections(b, query)
  {
    FilterAppend(a, b, (c: Collection) => IncludesIgnoringCase(c.title, query));
  }

  /** An empty search shows every collection. */
  lemma EmptySearchKeepsAll(collections: seq<Collection>)
    ensures forall c :: c in FilterCollections(collections, "") <==> c in collections
  {
    forall c | c in collections {
      EmptyQueryMatches(c.title);
    }
  }

  class Page {
    var collections: seq<Collection>
    var enabledCollections: seq<string>
    var originalEnabledCollections: seq<string>
    var searchValue: string
    var currentPage: nat
    var error: Option<string>

    /** The page as first rendered. */
    constructor ()
      ensures collections == [] && enabledCollections == [] && originalEnabledCollections == []
      ensures searchValue == "" && currentPage == 1 && error.None?
    {
      collections := [];
      enabledCollections, originalEnabledCollections := [], [];
      searchValue := "";
      currentPage := 1;
      error := None;
    }

    /** The dirty flag; the save button is enabled exactly when it is set and loading has finished. */
    predicate IsDirty()
      reads this
    {
      enabledCollections != originalEnabledCollections
    }

    /** The number of pages the search results fill. */
    function TotalPagesShown(): (pages: nat)
      reads this
      ensures pages * PerPage >= |FilterCollections(collections, searchValue)|
      ensures pages == 0 || (pages - 1) * PerPage < |FilterCollections(collections, searchValue)|
    {
      TotalPages(|FilterCollections(collections, searchValue)|, PerPage)
    }

    /**
     * The collections on the current page: the run of ten matches that starts after
     * the earlier pages' matches, shorter only on the last page.
     */
    function Shown(): (r: seq<Collection>)
      reads this
      requires currentPage >= 1
      ensures |r| <= PerPage
      ensures forall c :: c in r ==> c in collections && IncludesIgnoringCase(c.title, searchValue)
      ensures forall k :: 0 <= k < |r| ==>
        && (currentPage - 1) * PerPage + k < |FilterCollections(collections, searchValue)|
        && r[k] == FilterCollections(collections, searchValue)[(currentPage - 1) * PerPage + k]
      ensures var n := |FilterCollections(collections, searchValue)| - (currentPage - 1) * PerPage;
        |r| == if n <= 0 then 0 else if n < PerPage then n else PerPage
    {
      var items := FilterCollections(collections, searchValue);
      var r := Paginate(items, currentPage, PerPage);
      assert forall k :: 0 <= k < |r| ==> r[k] in items;
      r
    }

    /**
     * The load effect: `listing` is the collections listing and `settings` the shop's
     * settings; without settings the load fails and nothing else changes.
     */
    method Load(listing: Option<seq<Collection>>, settings: Option<Settings>)
      modifies this`collections, this`enabledCollections, this`originalEnabledCollections, this`error
      ensures settings.None? ==> (error == Some(LoadFailed) && collections == old(collections)
        && enabledCollections == old(enabledCollections) && originalEnabledCollections == old(originalEnabledCollections))
      ensures settings.Some? ==> (error.None? && collections == listing.GetOr([])
        && enabledCollections == settings.value.enabledCollections.GetOr([])
        && originalEnabledCollections == enabledCollections && !IsDirty())
    {
      if settings.None? {
        error := Some(LoadFailed);
        return;
      }
      var enabled := settings.value.enabledCollections.GetOr([]);
      collections := listing.GetOr([]);
      enabledCollections, originalEnabledCollections := enabled, enabled;
      error := None;
    }

    /** `handleToggleCollection(id)`. */
    method ToggleCollection(id: string)
      modifies this`enabledCollections
      ensures enabledCollections == Toggle(old(enabledCollections), id)
      ensures id in enabledCollections <==> id !in old(enabledCollections)
      ensures NoDup(old(enabledCollections)) ==> NoDup(enabledCollections)
    {
      if id in enabledCollections {
        enabledCollections := RemoveAll(enabledCollections, id);
      } else {
        enabledCollections := enabledCollections + [id];
      }
      if NoDup(old(enabledCollections)) {
        ToggleNoDup(old(enabledCollections), id);
      }
    }

    /**
     * `handleSave`, given the server's reply: a reply carrying a list makes it both the
     * current and the confirmed list; any other reply keeps both and sets the error.
     */
    method Save(reply: ShopRoutes.Reply)
      modifies this`enabledCollections, this`originalEnabledCollections, this`error
      ensures reply.EnabledCollectionsReply? && reply.enabledCollections.Some? ==>
        (enabledCollections == reply.enabledCollections.value && originalEnabledCollections == enabledCollections
          && error.None? && !IsDirty())
      ensures !(reply.EnabledCollectionsReply? && reply.enabledCollections.Some?) ==>
        (enabledCollections == old(enabledCollections) && originalEnabledCollections == old(originalEnabledCollections)
          && error == Some(SaveFailed))
    {
      if reply.EnabledCollectionsReply? && reply.enabledCollections.Some? {
        originalEnabledCollections := reply.enabledCollections.value;
        enabledCollections := reply.enabledCollections.value;
        error := None;
      } else {
        error := Some(SaveFailed);
      }
    }

    /** `handleReset`. */
    method Reset()
      modifies this`enabledCollections
      ensures enabledCollections == originalEnabledCollections
      ensures !IsDirty()
    {
      enabledCollections := originalEnabledCollections;
    }

    /** `handleSearchChange(value)` and, with the empty string, `handleClearSearch`: back to the first page. */
    method ChangeSearch(value: string)
      modifies this`searchValue, this`currentPage
      ensures searchValue == value && currentPage == 1
    {
      searchValue := value;
      currentPage := 1;
    }

    /** The next-page control, available while a later page exists. */
    method NextPage()
      modifies this`currentPage
      ensures old(currentPage) < TotalPagesShown() ==> currentPage == old(currentPage) + 1
      ensures old(currentPage) >= TotalPagesShown() ==> currentPage == old(currentPage)
      ensures currentPage == old(currentPage) || currentPage <= TotalPagesShown()
    {
      if currentPage < TotalPagesShown() {
        currentPage := currentPage + 1;
      }
    }

    /** The previous-page control, available past the first page. */
    method PreviousPage()
      modifies this`currentPage
      ensures old(currentPage) > 1 ==> currentPage == old(currentPage) - 1
      ensures old(currentPage) <= 1 ==> currentPage == old(currentPage)
    {
      if currentPage > 1 {
        currentPage := currentPage - 1;
      }
    }
  }

  /**
   * Saving through the page and the server: when the server accepts the list the
   * page sent, the page ends up clean with the list as the server stored it, each
   * entry trimmed; a list of handles without surrounding white space comes back
   * as it was sent.
   */
  method SaveThroughServer(page: Page, db: Store.Database, shop: Shop)
    modifies page`enabledCollections, page`originalEnabledCollections, page`error, db`shops
    ensures Store.CanSave(old(db.shops), shop.(settings := shop.settings.(enabledCollections := Some(Strings.TrimAll(old(page.enabledCollections)))))) ==>
      page.originalEnabledCollections == Strings.TrimAll(old(page.enabledCollections))
      && page.enabledCollections == Strings.TrimAll(old(page.enabledCollections))
      && !page.IsDirty() && page.error.None?
    ensures Strings.Trimmed(old(page.enabledCollections)) ==> Strings.TrimAll(old(page.enabledCollections)) == old(page.enabledCollections)
  {
    Strings.TrimAllTrimmed(page.enabledCollections);
    var reply := ShopRoutes.PutEnabledCollections(db, shop, Some(page.enabledCollections));
    page.Save(reply);
  }
}

=== FILE: common.dfy ===
/**
 * Values shared by every part of the model: the optional value that stands for a
 * JavaScript property that may be `undefined`, and the JavaScript `x || fallback`
 * idiom applied to such a property.
 */
module Common {

  /** `None` is a property that is absent (`undefined`); `Some(v)` one that is present. */
  datatype Option<+T> = None | Some(value: T) {

    /** The value if present, otherwise `default` (JavaScript `x ?? default`). */
    function GetOr(default: T): T {
      match this
      case Some(v) => v
      case None => default
    }
  }

  /** A string property JavaScript treats as true: present and not the empty string. */
  predicate Truthy(s: Option<string>) {
    s.Some? && s.value != ""
  }

  /**
   * JavaScript `s || fallback` on a string property: both `undefined` and the empty
   * string are falsy and give way to the fallback.
   */
  function OrElse(s: Option<string>, fallback: string): (r: string)
    ensures Truthy(s) ==> r == s.value
    ensures !Truthy(s) ==> r == fallback
  {
    if s.Some? && s.value != "" then s.value else fallback
  }
}

=== FILE: list_ops.dfy ===
/**
 * The array idioms the console pages share: `prev.filter(x => x !== id)`,
 * the include-or-append toggle, `[...prev, x]` guarded by `includes`, the
 * order-keeping `filter`, and the `Math.ceil` / `slice` pagination arithmetic.
 */
module ListOps {

  /** No value occurs twice. */
  predicate NoDup<T(==,!new)>(s: seq<T>) {
    forall i, j :: 0 <= i < j < |s| ==> s[i] != s[j]
  }

  /** `s.filter(y => y !== x)`: every occurrence of `x` removed, the rest in order. */
  function RemoveAll<T(==,!new)>(s: seq<T>, x: T): (r: seq<T>)
    ensures forall y :: y in r <==> y in s && y != x
    ensures x !in s ==> r == s
    ensures |r| <= |s|
  {
    if s == [] then []
    else (if s[0] == x then [] else [s[0]]) + RemoveAll(s[1..], x)
  }

  /**
   * `filter(y => y !== x)` is a `filter`: the kept values stay in their order and
   * keep their multiplicity, as `Filter` states of every filter.
   */
  lemma {:induction false} RemoveAllIsFilter<T(!new)>(s: seq<T>, x: T)
    ensures RemoveAll(s, x) == Filter(s, (y: T) => y != x)
  {
    if s != [] {
      RemoveAllIsFilter(s[1..], x);
    }
  }

  /** `s.includes(x) ? s : [...s, x]`. */
  function AppendIfAbsent<T(==,!new)>(s: seq<T>, x: T): (r: seq<T>)
    ensures x in r
    ensures forall y :: y in r <==> y in s || y == x
    ensures x in s ==> r == s
    ensures x !in s ==> r == s + [x]
  {
    if x in s then s else s + [x]
  }

  /** The membership toggle: `s.includes(x) ? s.filter(y => y !== x) : [...s, x]`. */
  function Toggle<T(==,!new)>(s: seq<T>, x: T): (r: seq<T>)
    ensures x in r <==> x !in s
    ensures forall y :: y != x ==> (y in r <==> y in s)
  {
    if x in s then RemoveAll(s, x) else s + [x]
  }

  /** Toggling the same value twice gives back the same members, and the very same list when it was absent. */
  lemma ToggleTwice<T(!new)>(s: seq<T>, x: T)
    ensures forall y :: y in Toggle(Toggle(s, x), x) <==> y in s
    ensures x !in s ==> Toggle(Toggle(s, x), x) == s
  {
    if x !in s {
      RemoveAppended(s, x);
    }
  }

  /** Removing a value that was just appended to a list without it restores the list. */
  lemma {:induction false} RemoveAppended<T(!new)>(s: seq<T>, x: T)
    requires x !in s
    ensures RemoveAll(s + [x], x) == s
    decreases |s|
  {
    if s == [] {
      assert [x][1..] == [];
    } else {
      assert (s + [x])[1..] == s[1..] + [x];
      RemoveAppended(s[1..], x);
      assert s == [s[0]] + s[1..];
    }
  }

  /** Removal keeps a list duplicate-free. */
  lemma {:induction false} RemoveAllNoDup<T(!new)>(s: seq<T>, x: T)
    requires NoDup(s)
    ensures NoDup(RemoveAll(s, x))
    decreases |s|
  {
    if s != [] {
      assert NoDup(s[1..]) by {
        forall i, j | 0 <= i < j < |s[1..]| ensures s[1..][i] != s[1..][j] {
          assert s[1..][i] == s[i + 1] && s[1..][j] == s[j + 1];
        }
      }
      RemoveAllNoDup(s[1..], x);
      var tail := RemoveAll(s[1..], x);
      assert s[0] !in s[1..];
      assert s[0] !in tail;
    }
  }

  /** Appending only when absent keeps a list duplicate-free. */
  lemma AppendIfAbsentNoDup<T(!new)>(s: seq<T>, x: T)
    requires NoDup(s)
    ensures NoDup(AppendIfAbsent(s, x))
  {
  }

  /** Toggling keeps a list duplicate-free. */
  lemma ToggleNoDup<T(!new)>(s: seq<T>, x: T)
    requires NoDup(s)
    ensures NoDup(Toggle(s, x))
  {
    if x in s {
      RemoveAllNoDup(s, x);
    }
  }

  /** `s.filter(p)`: the elements satisfying `p`, in their original order. */
  function Filter<T(!new)>(s: seq<T>, p: T -> bool): (r: seq<T>)
    ensures |r| <= |s|
    ensures forall y :: y in r <==> y in s && p(y)
  {
    if s == [] then []
    else (if p(s[0]) then [s[0]] else []) + Filter(s[1..], p)
  }

  /** Filtering distributes over concatenation, so the kept elements stay in order. */
  lemma {:induction false} FilterAppend<T(!new)>(a: seq<T>, b: seq<T>, p: T -> bool)
    ensures Filter(a + b, p) == Filter(a, p) + Filter(b, p)
    decreases |a|
  {
    if a == [] {
      assert a + b == b;
    } else {
      assert (a + b)[1..] == a[1..] + b;
      FilterAppend(a[1..], b, p);
    }
  }

  /** A filter and its complement split a list between them. */
  lemma {:induction false} FilterSplit<T(!new)>(s: seq<T>, p: T -> bool, q: T -> bool)
    requires forall x :: q(x) == !p(x)
    ensures |Filter(s, p)| + |Filter(s, q)| == |s|
    decreases |s|
  {
    if s != [] {
      FilterSplit(s[1..], p, q);
    }
  }

  /** `Math.ceil(n / perPage)`. */
  function TotalPages(n: nat, perPage: nat): (pages: nat)
    requires perPage > 0
    ensures pages * perPage >= n
    ensures pages == 0 || (pages - 1) * perPage < n
  {
    (n + perPage - 1) / perPage
  }

  /**
   * `items.slice((page - 1) * perPage, (page - 1) * perPage + perPage)`, with the
   * clamping `slice` does at the end of the array.
   */
  function Paginate<T>(items: seq<T>, page: nat, perPage: nat): (r: seq<T>)
    requires page >= 1
    ensures |r| <= perPage
    ensures (page - 1) * perPage >= |items| ==> r == []
    ensures (page - 1) * perPage < |items| ==>
      |r| == (if |items| - (page - 1) * perPage < perPage then |items| - (page - 1) * perPage else perPage)
    ensures forall k :: 0 <= k < |r| ==> r[k] == items[(page - 1) * perPage + k]
  {
    var start := (page - 1) * perPage;
    if start >= |items| then []
    else if start + perPage >= |items| then items[start..]
    else items[start..start + perPage]
  }

  /**
   * Every item lies on exactly one page within `TotalPages`: item `i` is entry
   * `i % perPage` of page `i / perPage + 1`.
   */
  lemma PageOfItem<T>(items: seq<T>, perPage: nat, i: nat)
    requires perPage > 0 && i < |items|
    ensures 1 <= i / perPage + 1 <= TotalPages(|items|, perPage)
    ensures i % perPage < |Paginate(items, i / perPage + 1, perPage)|
    ensures Paginate(items, i / perPage + 1, perPage)[i % perPage] == items[i]
  {
    var q, m := i / perPage, i % perPage;
    assert i == q * perPage + m && m < perPage;
    var pages := TotalPages(|items|, perPage);
    if pages <= q {
      MulMonotone(q, pages, perPage);
      assert false;
    }
    assert Paginate(items, q + 1, perPage)[m] == items[q * perPage + m];
  }

  lemma MulMonotone(a: nat, b: nat, c: nat)
    requires a >= b
    ensures a * c >= b * c
  {
    assert a * c == b * c + (a - b) * c;
  }
}

=== FILE: localization_model.dfy ===
/**
 * The per-shop translation document (server/src/models/localization.js): a map
 * from locale to a table of translation strings, a default locale and the
 * ordered list of supported locales, with the lookup that falls back to the
 * default locale and the key-by-key merge that writes a table.
 *
 * `supportedLocales` is an array of `{ type: String, trim: true }`: a locale
 * pushed onto it is stored trimmed, while `includes` and the translation map
 * see the locale exactly as given.
 */
module LocalizationModel {
  import opened Common
  import opened ListOps
  import Strings

  /** One locale's translations: key to text. */
  type Table = map<string, string>

  /** The stored state of one Localization document. */
  datatype LocalizationRecord = LocalizationRecord(
    shopId: string,
    shopDomain: string,
    defaultLocale: string,
    supportedLocales: seq<string>,
    translations: map<string, Table>)
  {
    /**
     * `getTranslations(locale)`: the locale's own table, else the default locale's
     * table, else the plain empty object `{}` (which is not a table).
     */
    function GetTranslations(locale: string): (r: Lookup)
      ensures locale in translations ==> r == Found(translations[locale])
      ensures locale !in translations && defaultLocale in translations ==> r == Found(translations[defaultLocale])
      ensures r.PlainEmpty? <==> locale !in translations && defaultLocale !in translations
    {
      if locale !in translations then
        if defaultLocale in translations then Found(translations[defaultLocale]) else PlainEmpty
      else Found(translations[locale])
    }
  }

  /**
   * What `getTranslations` hands back: a stored table (a `Map`), or the plain
   * object `{}` from `|| {}`, which has no `forEach`.
   */
  datatype Lookup = Found(table: Table) | PlainEmpty

  /** `base` after `patch.set(key, value)` for every entry of `patch`. */
  function MergeTable(base: Table, patch: Table): (r: Table)
    ensures r.Keys == base.Keys + patch.Keys
    ensures forall k :: k in patch ==> r[k] == patch[k]
    ensures forall k :: k in base && k !in patch ==> r[k] == base[k]
  {
    map k | k in base.Keys + patch.Keys :: if k in patch then patch[k] else base[k]
  }

  /** Writing the same entries twice is the same as writing them once. */
  lemma MergeIdempotent(base: Table, patch: Table)
    ensures MergeTable(MergeTable(base, patch), patch) == MergeTable(base, patch)
  {
  }

  /** Writing no entries leaves a table as it is. */
  lemma MergeEmpty(base: Table)
    ensures MergeTable(base, map[]) == base
  {
  }

  /** Two writes in a row equal one write of their combined entries, the later write winning. */
  lemma MergeTwice(base: Table, p: Table, q: Table)
    ensures MergeTable(MergeTable(base, p), q) == MergeTable(base, MergeTable(p, q))
  {
  }

  /** The table `setTranslations` starts from: the stored one, or a new empty one. */
  function TableOrEmpty(rec: LocalizationRecord, locale: string): Table {
    if locale in rec.translations then rec.translations[locale] else map[]
  }

  /** The supported list after `if (!list.includes(locale)) list.push(locale)`: the pushed copy is trimmed. */
  function PushIfAbsent(supported: seq<string>, locale: string): (r: seq<string>)
    ensures locale in supported ==> r == supported
    ensures locale !in supported ==> r == supported + [Strings.Trim(locale)]
  {
    if locale in supported then supported else supported + [Strings.Trim(locale)]
  }

  /** For a locale without surrounding white space, the push keeps a trimmed list without duplicates. */
  lemma PushIfAbsentKeeps(supported: seq<string>, locale: string)
    requires Strings.Trim(locale) == locale
    requires NoDup(supported) && Strings.Trimmed(supported)
    ensures NoDup(PushIfAbsent(supported, locale)) && Strings.Trimmed(PushIfAbsent(supported, locale))
  {
    AppendIfAbsentNoDup(supported, locale);
    assert PushIfAbsent(supported, locale) == AppendIfAbsent(supported, locale);
  }

  /**
   * The record after `setTranslations(locale, entries)`: the table stored under the
   * locale as given, merged with the entries, and the trimmed locale pushed onto the
   * supported list when the list does not include the locale as given.
   */
  function WithTranslations(rec: LocalizationRecord, locale: string, entries: Table): (r: LocalizationRecord)
    ensures locale in r.translations
    ensures forall k :: k in entries ==> k in r.translations[locale] && r.translations[locale][k] == entries[k]
    ensures forall k :: k in TableOrEmpty(rec, locale) && k !in entries ==>
      k in r.translations[locale] && r.translations[locale][k] == rec.translations[locale][k]
    ensures r.translations[locale].Keys == TableOrEmpty(rec, locale).Keys + entries.Keys
    ensures forall l :: l != locale ==> (l in r.translations <==> l in rec.translations)
    ensures forall l :: l != locale && l in rec.translations ==> r.translations[l] == rec.translations[l]
    ensures r.supportedLocales == (if locale in rec.supportedLocales then rec.supportedLocales else rec.supportedLocales + [Strings.Trim(locale)])
    ensures r.defaultLocale == rec.defaultLocale && r.shopId == rec.shopId && r.shopDomain == rec.shopDomain
  {
    rec.(translations := rec.translations[locale := MergeTable(TableOrEmpty(rec, locale), entries)],
         supportedLocales := PushIfAbsent(rec.supportedLocales, locale))
  }

  /**
   * What every handler keeps true of a document: the default locale is supported,
   * no locale is listed twice, every listed locale is trimmed (as the element setter
   * stores it), and every stored table belongs to a supported locale.
   */
  predicate Consistent(rec: LocalizationRecord) {
    && rec.defaultLocale in rec.supportedLocales
    && NoDup(rec.supportedLocales)
    && Strings.Trimmed(rec.supportedLocales)
    && forall l :: l in rec.translations ==> l in rec.supportedLocales
  }

  /**
   * Two `setTranslations` calls for one locale leave its table as one call with the
   * combined entries would, the later entries winning; the whole document agrees
   * too when the locale has no surrounding white space (a padded locale is pushed
   * again by the second call, as `WithTranslationsPadded` shows).
   */
  lemma WithTranslationsTwice(rec: LocalizationRecord, locale: string, p: Table, q: Table)
    ensures WithTranslations(WithTranslations(rec, locale, p), locale, q).translations
         == WithTranslations(rec, locale, MergeTable(p, q)).translations
    ensures Strings.Trim(locale) == locale ==>
      WithTranslations(WithTranslations(rec, locale, p), locale, q) == WithTranslations(rec, locale, MergeTable(p, q))
  {
    var once := WithTranslations(rec, locale, p);
    assert TableOrEmpty(once, locale) == MergeTable(TableOrEmpty(rec, locale), p);
    MergeTwice(TableOrEmpty(rec, locale), p, q);
  }

  /** `setTranslations` keeps a document consistent when the locale has no surrounding white space. */
  lemma WithTranslationsConsistent(rec: LocalizationRecord, locale: string, entries: Table)
    requires Consistent(rec) && Strings.Trim(locale) == locale
    ensures Consistent(WithTranslations(rec, locale, entries))
  {
    PushIfAbsentKeeps(rec.supportedLocales, locale);
  }

  /**
   * With white space around the locale, `setTranslations` breaks a consistent
   * document: the table is stored under a key the supported list does not hold,
   * and when the trimmed locale is already listed it is listed twice.
   */
  lemma WithTranslationsPadded(rec: LocalizationRecord, locale: string, entries: Table)
    requires Consistent(rec) && Strings.Trim(locale) != locale
    ensures var r := WithTranslations(rec, locale, entries);
      && locale in r.translations && locale !in r.supportedLocales
      && !Consistent(r)
      && (Strings.Trim(locale) in rec.supportedLocales ==> !NoDup(r.supportedLocales))
  {
    var r := WithTranslations(rec, locale, entries);
    var sl := rec.supportedLocales;
    assert r.supportedLocales == sl + [Strings.Trim(locale)];
    if Strings.Trim(locale) in sl {
      var j :| 0 <= j < |sl| && sl[j] == Strings.Trim(locale);
      assert r.supportedLocales[j] == r.supportedLocales[|sl|];
    }
  }

  /** A locale written with one leading space is one `trim` changes. */
  lemma PaddedLocale(locale: string)
    requires locale != [] && !Strings.IsWhitespace(locale[0]) && !Strings.IsWhitespace(locale[|locale| - 1])
    ensures Strings.Trim([' '] + locale) == locale != [' '] + locale
  {
    Strings.TrimLeadingSpace(locale);
  }

  /** A new document supporting only `en`, with only an `en` table, is consistent. */
  lemma EnglishOnlyConsistent(shopId: string, shopDomain: string, table: Table)
    ensures var rec := LocalizationRecord(shopId, shopDomain, "en", ["en"], map["en" := table]);
      Consistent(rec) && rec.translations.Keys == {"en"} && rec.translations["en"] == table
  {
    Strings.TrimOfTrimmed("en");
  }

  /** A consistent document can still lack a table for its default locale; then unknown locales find `{}`. */
  lemma PlainEmptyReachable()
    ensures var rec := LocalizationRecord("s", "s.example", "it", ["en", "it"], map["en" := map[]]);
      Consistent(rec) && rec.GetTranslations("fr") == PlainEmpty
  {
    var rec := LocalizationRecord("s", "s.example", "it", ["en", "it"], map["en" := map[]]);
    assert rec.supportedLocales[0] != rec.supportedLocales[1];
    Strings.TrimOfTrimmed("en");
    Strings.TrimOfTrimmed("it");
  }

  /**
   * A Localization document in memory, as a handler holds it between `findOne`
   * and `save`.
   */
  class Localization {
    var shopId: string
    var shopDomain: string
    var defaultLocale: string
    var supportedLocales: seq<string>
    var translations: map<string, Table>

    /** The document's current state as a value. */
    function Record(): LocalizationRecord
      reads this
    {
      LocalizationRecord(shopId, shopDomain, defaultLocale, supportedLocales, translations)
    }

    /** Hydrates a document from its stored state. */
    constructor (rec: LocalizationRecord)
      ensures Record() == rec
    {
      shopId, shopDomain, defaultLocale := rec.shopId, rec.shopDomain, rec.defaultLocale;
      supportedLocales, translations := rec.supportedLocales, rec.translations;
    }

    /**
     * `setTranslations(locale, entries)`: create the locale's table if absent, set
     * each entry into it, and push the locale (trimmed by the element setter) onto
     * the supported list if the list does not include it.
     */
    method SetTranslations(locale: string, entries: Table)
      modifies this
      ensures Record() == WithTranslations(old(Record()), locale, entries)
    {
      if locale !in translations {
        translations := translations[locale := map[]];
      }
      // `localeTranslations` in the source: the locale's table, written key by key.
      ghost var before := translations;
      var table := translations[locale];
      ghost var base := table;
      assert base == TableOrEmpty(old(Record()), locale);
      var pending := entries.Keys;
      assert table == MergeTable(base, Written(entries, pending));
      while pending != {}
        invariant pending <= entries.Keys
        invariant table == MergeTable(base, Written(entries, pending))
        invariant Record() == old(Record()).(translations := before)
        decreases pending
      {
        var key :| key in pending;
        WrittenStep(base, entries, pending, key);
        table := table[key := entries[key]];
        pending := pending - {key};
      }
      assert Written(entries, {}) == entries;
      assert table == MergeTable(base, entries);
      translations := translations[locale := table];
      assert translations == old(translations)[locale := MergeTable(base, entries)];
      if locale !in supportedLocales {
        supportedLocales := supportedLocales + [Strings.Trim(locale)];
      }
    }
  }

  /** Setting one more pending key extends the written entries by that key. */
  lemma WrittenStep(base: Table, entries: Table, pending: set<string>, key: string)
    requires key in pending && pending <= entries.Keys
    ensures MergeTable(base, Written(entries, pending - {key}))
         == MergeTable(base, Written(entries, pending))[key := entries[key]]
  {
  }

  /** The entries of `entries` already written while `pending` keys are still to go. */
  ghost function Written(entries: Table, pending: set<string>): Table {
    map k | k in entries && k !in pending :: entries[k]
  }
}

=== FILE: localization_page.dfy ===
/**
 * The console's localization page (web/src/pages/Localization.jsx): the shop's
 * default and supported locales as last read or written, the translation table
 * being edited for the current locale, the built-in table it can be reset to,
 * and the two select-option lists built from the available locales.
 *
 * Server replies arrive as the handlers' parameters; a reply field the server
 * did not send is `None`, as `data.supportedLocales` is `undefined` in an error
 * reply, which the page does not check. A request that throws (a rejected
 * `fetch` or a body that is not JSON) is a `None` reply and reaches the
 * handler's `catch`.
 */
module LocalizationPage {
  import opened Common
  import opened ListOps
  import opened LocalizationModel
  import opened TranslationService
  import LocalizationRoutes

  const LoadFailed := "Failed to load localization settings. Please try refreshing the page."
  const TranslationsLoadFailed := "Failed to load translations. Please try refreshing the page."
  const SaveFailed := "Failed to save translations. Please try again."
  const CannotRemoveDefault := "Cannot remove default locale. Set a different default locale first."
  const SaveDefaultFailed := "Failed to save default locale. Please try again."
  const AddFailed := "Failed to add locale. Please try again."
  const RemoveFailed := "Failed to remove locale. Please try again."

  /** `localizationSettings`: the two fields the page shows and sends. */
  datatype LocaleSettings = LocaleSettings(defaultLocale: Option<string>, supportedLocales: Option<seq<string>>)

  /** The object a spread of `null` produces. */
  const NoSettings := LocaleSettings(None, None)

  /** `{ ...prev }` where `prev` may be `null`. */
  function Spread(prev: Option<LocaleSettings>): LocaleSettings {
    prev.GetOr(NoSettings)
  }

  /** The translations of a locale and its built-in table, as `fetchTranslations` receives them. */
  datatype FetchedTables = FetchedTables(translations: Table, defaults: Table)

  /** `data.defaultLocale` of a reply. */
  function ReplyDefault(reply: LocalizationRoutes.Reply): (d: Option<string>)
    ensures reply.LocaleSettingsReply? ==> d == Some(reply.defaultLocale)
    ensures !reply.LocaleSettingsReply? ==> d.None?
  {
    if reply.LocaleSettingsReply? then Some(reply.defaultLocale) else None
  }

  /** `data.supportedLocales` of a reply. */
  function ReplySupported(reply: LocalizationRoutes.Reply): (s: Option<seq<string>>)
    ensures reply.LocaleSettingsReply? || reply.SupportedReply? ==> s == Some(reply.supportedLocales)
    ensures !(reply.LocaleSettingsReply? || reply.SupportedReply?) ==> s.None?
  {
    if reply.LocaleSettingsReply? || reply.SupportedReply? then Some(reply.supportedLocales) else None
  }

  // ---------------------------------------------------------------------------
  // The locale selects

  /** An option of a locale select. */
  datatype LocaleOption = LocaleOption(text: string, value: string)

  /** `${locale.name} (${locale.code})`. */
  function OptionOf(info: LocaleInfo): (o: LocaleOption)
    ensures o.value == info.code
    ensures o.text == info.name + " (" + info.code + ")"
  {
    LocaleOption(info.name + " (" + info.code + ")", info.code)
  }

  /** `.map(locale => ({ label, value }))`, the label held as `text`. */
  function Options(infos: seq<LocaleInfo>): (r: seq<LocaleOption>)
    ensures |r| == |infos|
    ensures forall i :: 0 <= i < |infos| ==> r[i] == OptionOf(infos[i])
  {
    if infos == [] then [] else [OptionOf(infos[0])] + Options(infos[1..])
  }

  /** `getSupportedLocaleOptions()`: the available locales the shop supports, in listing order. */
  function SupportedOptions(available: seq<LocaleInfo>, supported: seq<string>): seq<LocaleOption> {
    Options(Filter(available, (l: LocaleInfo) => l.code in supported))
  }

  /** `getAvailableLocaleOptions()`: the available locales the shop does not support yet. */
  function AddableOptions(available: seq<LocaleInfo>, supported: seq<string>): seq<LocaleOption> {
    Options(Filter(available, (l: LocaleInfo) => l.code !in supported))
  }

  /**
   * The two selects partition the available locales: each one appears in exactly
   * one of them, according to whether the shop supports it, and together they
   * hold as many options as there are available locales.
   */
  lemma OptionsPartition(available: seq<LocaleInfo>, supported: seq<string>)
    ensures |SupportedOptions(available, supported)| + |AddableOptions(available, supported)| == |available|
    ensures forall info :: info in available && info.code in supported ==>
      OptionOf(info) in SupportedOptions(available, supported) && OptionOf(info) !in AddableOptions(available, supported)
    ensures forall info :: info in available && info.code !in supported ==>
      OptionOf(info) in AddableOptions(available, supported) && OptionOf(info) !in SupportedOptions(available, supported)
  {
    FilterSplit(available, (l: LocaleInfo) => l.code in supported, (l: LocaleInfo) => l.code !in supported);
    forall info | info in available
      ensures OptionOf(info) in SupportedOptions(available, supported) <==> info.code in supported
      ensures OptionOf(info) in AddableOptions(available, supported) <==> info.code !in supported
    {
      SupportedMember(available, supported, info);
      AddableMember(available, supported, info);
    }
  }

  /** An available locale is among the supported options exactly when the shop supports it. */
  lemma SupportedMember(available: seq<LocaleInfo>, supported: seq<string>, info: LocaleInfo)
    requires info in available
    ensures OptionOf(info) in SupportedOptions(available, supported) <==> info.code in supported
  {
    var kept := Filter(available, (l: LocaleInfo) => l.code in supported);
    OptionsMembers(kept, info);
  }

  /** An available locale is among the addable options exactly when the shop does not support it. */
  lemma AddableMember(available: seq<LocaleInfo>, supported: seq<string>, info: LocaleInfo)
    requires info in available
    ensures OptionOf(info) in AddableOptions(available, supported) <==> info.code !in supported
  {
    var rest := Filter(available, (l: LocaleInfo) => l.code !in supported);
    OptionsMembers(rest, info);
  }

  /** A locale's option is in a list of options exactly when a locale with its code is listed. */
  lemma OptionsMembers(infos: seq<LocaleInfo>, info: LocaleInfo)
    ensures info in infos ==> OptionOf(info) in Options(infos)
    ensures OptionOf(info) in Options(infos) ==> exists x :: x in infos && x.code == info.code
  {
    var r := Options(infos);
    if info in infos {
      var j :| 0 <= j < |infos| && infos[j] == info;
      assert r[j] == OptionOf(info);
    }
    if OptionOf(info) in r {
      var j :| 0 <= j < |r| && r[j] == OptionOf(info);
      assert infos[j] in infos && infos[j].code == r[j].value;
    }
  }

  // ---------------------------------------------------------------------------
  // The page

  class Page {
    var settings: LocaleSettings
    var originalSettings: Option<LocaleSettings>
    var availableLocales: seq<LocaleInfo>
    var translations: Table
    var defaultTranslations: Table
    var originalTranslations: Table
    var currentLocale: Option<string>
    var localeToAdd: string
    var addLocaleModalOpen: bool
    var error: Option<string>

    /** The page as first rendered. */
    constructor ()
      ensures settings == LocaleSettings(Some("en"), Some(["en"])) && originalSettings.None?
      ensures availableLocales == [] && translations == map[] && defaultTranslations == map[] && originalTranslations == map[]
      ensures currentLocale == Some("en") && localeToAdd == "" && !addLocaleModalOpen && error.None?
    {
      settings := LocaleSettings(Some("en"), Some(["en"]));
      originalSettings := None;
      availableLocales := [];
      translations, defaultTranslations, originalTranslations := map[], map[], map[];
      currentLocale := Some("en");
      localeToAdd := "";
      addLocaleModalOpen := false;
      error := None;
    }

    /** The dirty flag: the settings differ from the last ones read or written, or the table from the last one loaded or saved. */
    predicate IsDirty()
      reads this
    {
      Some(settings) != originalSettings || translations != originalTranslations
    }

    /** `fetchTranslations(locale)` given what the two requests returned; a failure sets the error and nothing else. */
    method FetchTranslations(fetched: Option<FetchedTables>)
      modifies this`translations, this`originalTranslations, this`defaultTranslations, this`error
      ensures fetched.Some? ==> (translations == fetched.value.translations && originalTranslations == translations
        && defaultTranslations == fetched.value.defaults && error == old(error))
      ensures fetched.None? ==> (translations == old(translations) && originalTranslations == old(originalTranslations)
        && defaultTranslations == old(defaultTranslations) && error == Some(TranslationsLoadFailed))
    {
      if fetched.None? {
        error := Some(TranslationsLoadFailed);
        return;
      }
      translations := fetched.value.translations;
      originalTranslations := fetched.value.translations;
      defaultTranslations := fetched.value.defaults;
    }

    /**
     * The load effect: the shop's settings, the available locales, and the tables of
     * the default locale. The final `setError(null)` also clears a translations error.
     */
    method Load(settingsData: Option<LocaleSettings>, locales: seq<LocaleInfo>, fetched: Option<FetchedTables>)
      modifies this`settings, this`originalSettings, this`availableLocales, this`currentLocale
      modifies this`translations, this`originalTranslations, this`defaultTranslations, this`error
      ensures settingsData.None? ==> (error == Some(LoadFailed) && settings == old(settings)
        && originalSettings == old(originalSettings) && currentLocale == old(currentLocale)
        && availableLocales == old(availableLocales) && defaultTranslations == old(defaultTranslations)
        && translations == old(translations) && originalTranslations == old(originalTranslations))
      ensures settingsData.Some? ==> (settings == settingsData.value && originalSettings == Some(settings)
        && availableLocales == locales && currentLocale == Some(OrElse(settings.defaultLocale, "en")) && error.None?)
      ensures settingsData.Some? && fetched.Some? ==>
        translations == fetched.value.translations && defaultTranslations == fetched.value.defaults && !IsDirty()
      ensures settingsData.Some? && fetched.None? ==>
        translations == old(translations) && originalTranslations == old(originalTranslations)
    {
      if settingsData.None? {
        error := Some(LoadFailed);
        return;
      }
      settings := settingsData.value;
      originalSettings := settingsData;
      availableLocales := locales;
      var defaultLocale := OrElse(settingsData.value.defaultLocale, "en");
      currentLocale := Some(defaultLocale);
      FetchTranslations(fetched);
      error := None;
    }

    /**
     * The default-language select's `onChange`: the chosen locale becomes the
     * unsaved default, every other setting kept; choosing another locale than the
     * saved one marks the page dirty, and choosing the current one changes nothing.
     */
    method ChooseDefaultLocale(value: string)
      modifies this`settings
      ensures settings == old(settings).(defaultLocale := Some(value))
      ensures settings.supportedLocales == old(settings).supportedLocales
      ensures originalSettings.Some? && originalSettings.value.defaultLocale != Some(value) ==> IsDirty()
      ensures old(settings).defaultLocale == Some(value) ==> settings == old(settings)
    {
      settings := settings.(defaultLocale := Some(value));
    }

    /** `handleLocaleChange(locale)`: the editor switches locale and loads its tables. */
    method ChangeLocale(locale: string, fetched: Option<FetchedTables>)
      modifies this`currentLocale, this`translations, this`originalTranslations, this`defaultTranslations, this`error
      ensures currentLocale == Some(locale)
      ensures fetched.Some? ==> (translations == fetched.value.translations && originalTranslations == translations
        && defaultTranslations == fetched.value.defaults && error == old(error))
      ensures fetched.None? ==> (translations == old(translations) && originalTranslations == old(originalTranslations)
        && defaultTranslations == old(defaultTranslations) && error == Some(TranslationsLoadFailed))
    {
      currentLocale := Some(locale);
      FetchTranslations(fetched);
    }

    /** `handleTranslationChange(key, value)`: one key set, every other key kept. */
    method ChangeTranslation(key: string, value: string)
      modifies this`translations
      ensures key in translations && translations[key] == value
      ensures translations.Keys == old(translations).Keys + {key}
      ensures forall k :: k in old(translations) && k != key ==> translations[k] == old(translations)[k]
    {
      translations := translations[key := value];
    }

    /** `handleResetToDefault`: the edited table is replaced wholesale by the built-in one. */
    method ResetToDefault()
      modifies this`translations
      ensures translations == defaultTranslations
      ensures originalTranslations == defaultTranslations ==> translations == originalTranslations
    {
      translations := defaultTranslations;
    }

    /** `handleSaveTranslations`, given whether the server reported success. */
    method SaveTranslations(success: bool)
      modifies this`originalTranslations, this`error
      ensures success ==> originalTranslations == translations && error.None?
      ensures success && Some(settings) == originalSettings ==> !IsDirty()
      ensures !success ==> originalTranslations == old(originalTranslations) && error == Some(SaveFailed)
    {
      if success {
        originalTranslations := translations;
        error := None;
      } else {
        error := Some(SaveFailed);
      }
    }

    /**
     * `handleSaveDefaultLocale`, given the server's reply: the shown settings take
     * both fields of the reply, the confirmed ones only its default locale. A
     * request that throws sets the error and leaves both settings as they were.
     */
    method SaveDefaultLocale(reply: Option<LocalizationRoutes.Reply>)
      modifies this`settings, this`originalSettings, this`error
      ensures reply.None? ==> (error == Some(SaveDefaultFailed)
        && settings == old(settings) && originalSettings == old(originalSettings))
      ensures reply.Some? ==> (settings == LocaleSettings(ReplyDefault(reply.value), ReplySupported(reply.value))
        && originalSettings == Some(Spread(old(originalSettings)).(defaultLocale := ReplyDefault(reply.value)))
        && error.None?)
      ensures reply.Some? && ReplySupported(reply.value) == Spread(old(originalSettings)).supportedLocales ==>
        Some(settings) == originalSettings
      ensures reply.Some? && ReplySupported(reply.value) != Spread(old(originalSettings)).supportedLocales ==> IsDirty()
    {
      if reply.None? {
        error := Some(SaveDefaultFailed);
        return;
      }
      var d := ReplyDefault(reply.value);
      var s := ReplySupported(reply.value);
      settings := settings.(defaultLocale := d, supportedLocales := s);
      originalSettings := Some(Spread(originalSettings).(defaultLocale := d));
      error := None;
    }

    /** Choosing the locale to add. */
    method ChooseLocaleToAdd(locale: string)
      modifies this`localeToAdd
      ensures localeToAdd == locale
    {
      localeToAdd := locale;
    }

    /**
     * `handleAddLocale`, given the server's reply: nothing happens without a chosen
     * locale; otherwise both the shown and the confirmed settings take the reply's list.
     * A request that throws sets the error and leaves the settings, the dialog and
     * the chosen locale as they were.
     */
    method AddLocale(reply: Option<LocalizationRoutes.Reply>)
      modifies this`settings, this`originalSettings, this`localeToAdd, this`addLocaleModalOpen, this`error
      ensures old(localeToAdd) == "" ==> (settings == old(settings) && originalSettings == old(originalSettings)
        && localeToAdd == old(localeToAdd) && addLocaleModalOpen == old(addLocaleModalOpen) && error == old(error))
      ensures old(localeToAdd) != "" && reply.None? ==> (error == Some(AddFailed)
        && settings == old(settings) && originalSettings == old(originalSettings)
        && localeToAdd == old(localeToAdd) && addLocaleModalOpen == old(addLocaleModalOpen))
      ensures old(localeToAdd) != "" && reply.Some? ==> (settings == old(settings).(supportedLocales := ReplySupported(reply.value))
        && originalSettings == Some(Spread(old(originalSettings)).(supportedLocales := ReplySupported(reply.value)))
        && localeToAdd == "" && !addLocaleModalOpen && error.None?)
    {
      if localeToAdd == "" {
        return;
      }
      if reply.None? {
        error := Some(AddFailed);
        return;
      }
      var s := ReplySupported(reply.value);
      settings := settings.(supportedLocales := s);
      originalSettings := Some(Spread(originalSettings).(supportedLocales := s));
      addLocaleModalOpen := false;
      localeToAdd := "";
      error := None;
    }

    /**
     * `handleRemoveLocale(locale)`, given the server's reply and, when the removed
     * locale was being edited, the tables of the default locale the editor switches to.
     * Removing the default locale is refused before any request. A request that
     * throws sets the error and changes nothing else; a failed re-fetch of the tables
     * is caught inside `fetchTranslations`, whose error the final `setError(null)` clears.
     */
    method RemoveLocale(locale: string, reply: Option<LocalizationRoutes.Reply>, fetched: Option<FetchedTables>)
      modifies this`settings, this`originalSettings, this`currentLocale, this`error
      modifies this`translations, this`originalTranslations, this`defaultTranslations
      ensures old(settings).defaultLocale == Some(locale) ==> (error == Some(CannotRemoveDefault)
        && settings == old(settings) && originalSettings == old(originalSettings)
        && currentLocale == old(currentLocale) && translations == old(translations))
      ensures old(settings).defaultLocale != Some(locale) && reply.None? ==> (error == Some(RemoveFailed)
        && settings == old(settings) && originalSettings == old(originalSettings)
        && currentLocale == old(currentLocale) && translations == old(translations)
        && originalTranslations == old(originalTranslations) && defaultTranslations == old(defaultTranslations))
      ensures old(settings).defaultLocale != Some(locale) && reply.Some? ==> (
        && settings == old(settings).(supportedLocales := ReplySupported(reply.value))
        && originalSettings == Some(Spread(old(originalSettings)).(supportedLocales := ReplySupported(reply.value)))
        && error.None?)
      ensures old(settings).defaultLocale != Some(locale) && reply.Some? && old(currentLocale) == Some(locale) ==>
        && currentLocale == settings.defaultLocale
        && (fetched.Some? ==> translations == fetched.value.translations && defaultTranslations == fetched.value.defaults)
        && (fetched.None? ==> (translations == old(translations) && originalTranslations == old(originalTranslations)
          && defaultTranslations == old(defaultTranslations)))
      ensures old(currentLocale) != Some(locale) ==> currentLocale == old(currentLocale) && translations == old(translations)
    {
      if settings.defaultLocale == Some(locale) {
        error := Some(CannotRemoveDefault);
        return;
      }
      if reply.None? {
        error := Some(RemoveFailed);
        return;
      }
      var s := ReplySupported(reply.value);
      var defaultLocale := settings.defaultLocale;
      settings := settings.(supportedLocales := s);
      originalSettings := Some(Spread(originalSettings).(supportedLocales := s));
      if currentLocale == Some(locale) {
        currentLocale := defaultLocale;
        FetchTranslations(fetched);
      }
      error := None;
    }

    /** The two selects of the page, once the settings hold a list. */
    function SelectOptions(): (r: (seq<LocaleOption>, seq<LocaleOption>))
      reads this
      requires settings.supportedLocales.Some?
      ensures |r.0| + |r.1| == |availableLocales|
    {
      OptionsPartition(availableLocales, settings.supportedLocales.value);
      (SupportedOptions(availableLocales, settings.supportedLocales.value),
       AddableOptions(availableLocales, settings.supportedLocales.value))
    }
  }
}

=== FILE: localization_routes.dfy ===
/**
 * The localization API (server/src/routes/localization.js): the argument checks
 * of each handler, and the handlers that change a shop's Localization document —
 * set the default locale, add a supported locale seeded from the built-in
 * bundle, remove a supported locale, write translations.
 *
 * `shop` is the shop the authentication middleware attached to the request.
 * Each handler's effect on the store is stated as a pure transition of the
 * shop's document; the lemmas after the transitions are what the handlers keep
 * true. The supported list trims what is pushed onto it or assigned to it, while
 * the handlers compare and key tables by the locale as the request gives it, so
 * several lemmas hold only for locales without surrounding white space; the
 * `...Padded` lemmas show what happens otherwise.
 */
module LocalizationRoutes {
  import opened Common
  import opened ListOps
  import opened ShopModel
  import opened LocalizationModel
  import opened Store
  import opened TranslationService
  import Strings

  const LocaleRequired := "Locale is required"
  const TranslationsRequired := "Valid translations object is required"
  const SettingsNotFound := "Localization settings not found"
  const CannotRemoveDefault := "Cannot remove default locale. Set a different default locale first."
  const UpdateFailed := "Failed to update translations"

  /** The JSON bodies the handlers send, with the HTTP status of an error. */
  datatype Reply =
    | LocaleSettingsReply(defaultLocale: string, supportedLocales: seq<string>)
    | SupportedReply(supportedLocales: seq<string>)
    | TranslationsReply(translations: Table)
    | SuccessReply
    | ErrorReply(status: int, error: string)

  /** `const { locale = 'en' } = req.params`: the default applies only when the segment is absent. */
  function LocaleOrEnglish(param: Option<string>): (l: string)
    ensures param.None? ==> l == "en"
    ensures param.Some? ==> l == param.value
  {
    param.GetOr("en")
  }

  /** GET `/default-translations/:locale?`: the built-in table of the requested locale, English when none is given. */
  function DefaultTranslationsReply(param: Option<string>): (r: Reply)
    ensures param.None? ==> r == TranslationsReply(English)
    ensures param.Some? && param.value in Bundle ==> r == TranslationsReply(Bundle[param.value])
    ensures param.Some? && param.value !in Bundle ==> r == TranslationsReply(English)
  {
    DefaultEnglish();
    TranslationsReply(DefaultTranslations(LocaleOrEnglish(param)))
  }

  /** The document a shop handler works on: the stored one, or the initial one it creates. */
  function DocumentOf(locs: map<string, LocalizationRecord>, shop: Shop): LocalizationRecord {
    if shop.id in locs then locs[shop.id] else InitialRecord(shop.id, shop.shopDomain)
  }

  /** Every stored document is consistent. */
  predicate AllConsistent(locs: map<string, LocalizationRecord>) {
    forall id :: id in locs ==> Consistent(locs[id])
  }

  /** A handler reaches a consistent document whenever the store is consistent. */
  lemma DocumentOfConsistent(locs: map<string, LocalizationRecord>, shop: Shop)
    requires AllConsistent(locs)
    ensures Consistent(DocumentOf(locs, shop))
  {
  }

  // ---------------------------------------------------------------------------
  // The document transitions

  /**
   * PUT `/shop/default-locale`: the locale, as given, becomes the default, and
   * unless the list includes it the trimmed locale is pushed onto the supported list.
   */
  function SetDefaultLocale(rec: LocalizationRecord, locale: string): (r: LocalizationRecord)
    ensures r.defaultLocale == locale
    ensures locale in rec.supportedLocales ==> r.supportedLocales == rec.supportedLocales
    ensures locale !in rec.supportedLocales ==> r.supportedLocales == rec.supportedLocales + [Strings.Trim(locale)]
    ensures Strings.Trim(locale) == locale ==> locale in r.supportedLocales
    ensures r.translations == rec.translations && r.shopId == rec.shopId && r.shopDomain == rec.shopDomain
  {
    rec.(defaultLocale := locale, supportedLocales := PushIfAbsent(rec.supportedLocales, locale))
  }

  /** Setting a default locale without surrounding white space keeps a document consistent. */
  lemma SetDefaultLocaleConsistent(rec: LocalizationRecord, locale: string)
    requires Consistent(rec) && Strings.Trim(locale) == locale
    ensures Consistent(SetDefaultLocale(rec, locale))
  {
    PushIfAbsentKeeps(rec.supportedLocales, locale);
  }

  /** Setting the same default twice is the same as setting it once, for a locale the list can hold as given. */
  lemma SetDefaultLocaleIdempotent(rec: LocalizationRecord, locale: string)
    requires Strings.Trim(locale) == locale
    ensures SetDefaultLocale(SetDefaultLocale(rec, locale), locale) == SetDefaultLocale(rec, locale)
  {
  }

  /**
   * With white space around the locale, the default is stored untrimmed while the
   * list receives the trimmed copy: the document is no longer consistent, and each
   * repeat of the request pushes one more copy.
   */
  lemma SetDefaultLocalePadded(rec: LocalizationRecord, locale: string)
    requires Consistent(rec) && Strings.Trim(locale) != locale
    ensures var r := SetDefaultLocale(rec, locale);
      && locale !in r.supportedLocales && !Consistent(r)
      && |SetDefaultLocale(r, locale).supportedLocales| == |r.supportedLocales| + 1
  {
    var r := SetDefaultLocale(rec, locale);
    assert r.supportedLocales == rec.supportedLocales + [Strings.Trim(locale)];
  }

  /**
   * POST `/shop/supported-locales`: a locale the list includes changes nothing; for
   * any other, the trimmed locale is pushed and then `setTranslations` merges the
   * built-in table for the locale as given (the English one for a code outside the
   * bundle) into the table stored under it.
   */
  function AddLocale(rec: LocalizationRecord, locale: string): (r: LocalizationRecord)
    ensures locale in rec.supportedLocales ==> r == rec
    ensures locale !in rec.supportedLocales ==>
      && r.supportedLocales == PushIfAbsent(rec.supportedLocales + [Strings.Trim(locale)], locale)
      && r.translations == rec.translations[locale := MergeTable(TableOrEmpty(rec, locale), DefaultTranslations(locale))]
    ensures locale !in rec.supportedLocales && Strings.Trim(locale) == locale ==>
      r.supportedLocales == rec.supportedLocales + [locale]
    ensures r.defaultLocale == rec.defaultLocale && r.shopId == rec.shopId && r.shopDomain == rec.shopDomain
  {
    if locale in rec.supportedLocales then rec
    else WithTranslations(rec.(supportedLocales := rec.supportedLocales + [Strings.Trim(locale)]), locale, DefaultTranslations(locale))
  }

  /** Adding a locale without surrounding white space twice is the same as adding it once. */
  lemma AddLocaleIdempotent(rec: LocalizationRecord, locale: string)
    requires Strings.Trim(locale) == locale
    ensures AddLocale(AddLocale(rec, locale), locale) == AddLocale(rec, locale)
  {
  }

  /** Adding a locale without surrounding white space keeps a document consistent. */
  lemma AddLocaleConsistent(rec: LocalizationRecord, locale: string)
    requires Consistent(rec) && Strings.Trim(locale) == locale
    ensures Consistent(AddLocale(rec, locale))
  {
    if locale !in rec.supportedLocales {
      PushIfAbsentKeeps(rec.supportedLocales, locale);
    }
  }

  /**
   * With white space around the locale, the push and the `setTranslations` that
   * follows each append the trimmed locale, and the table is keyed by the padded
   * one: the document is no longer consistent, and repeating the request adds the
   * locale again.
   */
  lemma AddLocalePadded(rec: LocalizationRecord, locale: string)
    requires Consistent(rec) && Strings.Trim(locale) != locale
    ensures var r := AddLocale(rec, locale);
      && r.supportedLocales == rec.supportedLocales + [Strings.Trim(locale), Strings.Trim(locale)]
      && !Consistent(r)
      && AddLocale(r, locale) != r
  {
    var r := AddLocale(rec, locale);
    AddPaddedList(rec, locale);
    assert r.supportedLocales[|rec.supportedLocales|] == r.supportedLocales[|rec.supportedLocales| + 1];
    assert |AddLocale(r, locale).supportedLocales| == |r.supportedLocales| + 2;
  }

  /** The list `AddLocalePadded` speaks of: two trimmed copies appended, and the padded locale not among them. */
  lemma AddPaddedList(rec: LocalizationRecord, locale: string)
    requires Consistent(rec) && Strings.Trim(locale) != locale
    ensures var r := AddLocale(rec, locale);
      && r.supportedLocales == rec.supportedLocales + [Strings.Trim(locale), Strings.Trim(locale)]
      && locale !in r.supportedLocales && locale in r.translations
  {
    var pushed := rec.supportedLocales + [Strings.Trim(locale)];
    assert locale !in pushed;
    assert AddLocale(rec, locale).supportedLocales == pushed + [Strings.Trim(locale)];
  }

  /** In a consistent document a newly added locale gets exactly the built-in table for it. */
  lemma AddLocaleSeeds(rec: LocalizationRecord, locale: string)
    requires Consistent(rec) && locale !in rec.supportedLocales
    ensures AddLocale(rec, locale).translations[locale] == DefaultTranslations(locale)
    ensures AddLocale(rec, locale).translations[locale].Keys == TranslationKeys
  {
    var d := DefaultTranslations(locale);
    assert locale !in rec.translations;
    assert TableOrEmpty(rec, locale) == map[];
    assert MergeTable(map[], d).Keys == d.Keys;
    assert MergeTable(map[], d) == d;
  }

  /**
   * DELETE `/shop/supported-locales/:locale`: every occurrence of the locale leaves
   * the supported list, which the assignment casts back to trimmed strings, and its
   * table is deleted.
   */
  function RemoveLocale(rec: LocalizationRecord, locale: string): (r: LocalizationRecord)
    ensures r.supportedLocales == Strings.TrimAll(RemoveAll(rec.supportedLocales, locale))
    ensures Strings.Trimmed(r.supportedLocales)
    ensures Strings.Trimmed(rec.supportedLocales) ==> r.supportedLocales == RemoveAll(rec.supportedLocales, locale)
    ensures Strings.Trimmed(rec.supportedLocales) ==>
      && locale !in r.supportedLocales
      && forall l :: l != locale ==> (l in r.supportedLocales <==> l in rec.supportedLocales)
    ensures locale !in r.translations
    ensures forall l :: l != locale ==> (l in r.translations <==> l in rec.translations)
    ensures forall l :: l != locale && l in rec.translations ==> r.translations[l] == rec.translations[l]
    ensures r.defaultLocale == rec.defaultLocale && r.shopId == rec.shopId && r.shopDomain == rec.shopDomain
  {
    assert Strings.Trimmed(rec.supportedLocales) ==> Strings.Trimmed(RemoveAll(rec.supportedLocales, locale)) by {
      if Strings.Trimmed(rec.supportedLocales) {
        RemoveAllTrimmed(rec.supportedLocales, locale);
      }
    }
    Strings.TrimAllTrimmed(RemoveAll(rec.supportedLocales, locale));
    rec.(supportedLocales := Strings.TrimAll(RemoveAll(rec.supportedLocales, locale)),
         translations := rec.translations - {locale})
  }

  /** Filtering a trimmed list leaves it trimmed. */
  lemma RemoveAllTrimmed(s: seq<string>, x: string)
    requires Strings.Trimmed(s)
    ensures Strings.Trimmed(RemoveAll(s, x))
  {
    var r := RemoveAll(s, x);
    forall k | 0 <= k < |r|
      ensures Strings.Trim(r[k]) == r[k]
    {
      assert r[k] in s;
    }
  }

  /** Removing a locale other than the default keeps a document consistent. */
  lemma RemoveLocaleConsistent(rec: LocalizationRecord, locale: string)
    requires Consistent(rec) && locale != rec.defaultLocale
    ensures Consistent(RemoveLocale(rec, locale))
  {
    RemoveAllNoDup(rec.supportedLocales, locale);
  }

  /** Removing a locale that was just added restores the document, for a locale without surrounding white space. */
  lemma AddThenRemove(rec: LocalizationRecord, locale: string)
    requires Consistent(rec) && locale !in rec.supportedLocales && Strings.Trim(locale) == locale
    ensures RemoveLocale(AddLocale(rec, locale), locale) == rec
  {
    assert locale !in rec.translations;
    AppendWriteRemove(rec, locale, DefaultTranslations(locale));
  }

  /**
   * Appending a trimmed locale a trimmed document lacks, writing its table, then
   * removing it gives back the document.
   */
  lemma AppendWriteRemove(rec: LocalizationRecord, locale: string, entries: Table)
    requires Strings.Trimmed(rec.supportedLocales) && Strings.Trim(locale) == locale
    requires locale !in rec.supportedLocales && locale !in rec.translations
    ensures RemoveLocale(WithTranslations(rec.(supportedLocales := rec.supportedLocales + [locale]), locale, entries), locale) == rec
  {
    var added := WithTranslations(rec.(supportedLocales := rec.supportedLocales + [locale]), locale, entries);
    RemoveAppended(rec.supportedLocales, locale);
    assert added.supportedLocales == rec.supportedLocales + [locale];
    assert Strings.Trimmed(added.supportedLocales);
    assert added.translations - {locale} == rec.translations;
  }

  /**
   * After the push is saved, `updateShopTranslations` reads back the pushed
   * document and writes the locale's seed table: the added-locale document.
   */
  lemma UpdatedAfterPush(shops: seq<Shop>, locs: map<string, LocalizationRecord>, shopId: string, before: LocalizationRecord, locale: string)
    requires locale !in before.supportedLocales
    requires shopId in locs && locs[shopId] == before.(supportedLocales := before.supportedLocales + [Strings.Trim(locale)])
    ensures UpdatedRecord(shops, locs, shopId, locale, DefaultTranslations(locale)) == Some(AddLocale(before, locale))
  {
  }

  // ---------------------------------------------------------------------------
  // The handlers

  /** Writes the document back and keeps the store keyed by shop id. */
  method Save(db: Database, doc: Localization, shopId: string)
    requires Keyed(db.localizations) && doc.shopId == shopId
    modifies db`localizations
    ensures Keyed(db.localizations)
    ensures db.localizations == old(db.localizations)[shopId := doc.Record()]
  {
    db.SaveLocalization(doc);
    KeyedUpdate(old(db.localizations), shopId, doc.Record());
  }

  /** `findOne`, falling back to `initializeShopLocalization`: the handler's document in memory. */
  method OpenDocument(db: Database, shop: Shop) returns (doc: Localization)
    requires Keyed(db.localizations)
    modifies db`localizations
    ensures Keyed(db.localizations)
    ensures fresh(doc) && doc.Record() == DocumentOf(old(db.localizations), shop)
    ensures db.localizations == old(db.localizations)[shop.id := DocumentOf(old(db.localizations), shop)]
  {
    var found := db.FindLocalization(shop.id);
    if found != null {
      doc := found;
      assert db.localizations[shop.id := doc.Record()] == db.localizations;
    } else {
      doc := InitializeShopLocalization(db, shop.id, shop.shopDomain);
      KeyedUpdate(old(db.localizations), shop.id, doc.Record());
    }
  }

  /** GET `/shop/settings`: the document's default and supported locales, creating the document if needed. */
  method GetShopSettings(db: Database, shop: Shop) returns (reply: Reply)
    requires Keyed(db.localizations)
    modifies db`localizations
    ensures Keyed(db.localizations)
    ensures var rec := DocumentOf(old(db.localizations), shop);
      && db.localizations == old(db.localizations)[shop.id := rec]
      && reply == LocaleSettingsReply(rec.defaultLocale, rec.supportedLocales)
  {
    var doc := OpenDocument(db, shop);
    reply := LocaleSettingsReply(doc.defaultLocale, doc.supportedLocales);
  }

  /** PUT `/shop/default-locale`. */
  method PutDefaultLocale(db: Database, shop: Shop, locale: Option<string>) returns (reply: Reply)
    requires Keyed(db.localizations)
    modifies db`localizations
    ensures Keyed(db.localizations)
    ensures !Truthy(locale) ==> reply == ErrorReply(400, LocaleRequired) && db.localizations == old(db.localizations)
    ensures Truthy(locale) ==>
      var rec := SetDefaultLocale(DocumentOf(old(db.localizations), shop), locale.value);
      && db.localizations == old(db.localizations)[shop.id := rec]
      && reply == LocaleSettingsReply(rec.defaultLocale, rec.supportedLocales)
  {
    if !Truthy(locale) {
      return ErrorReply(400, LocaleRequired);
    }
    var l := locale.value;
    var doc := OpenDocument(db, shop);
    ghost var before := doc.Record();
    doc.defaultLocale := l;
    if l !in doc.supportedLocales {
      doc.supportedLocales := doc.supportedLocales + [Strings.Trim(l)];
    }
    assert doc.supportedLocales == PushIfAbsent(before.supportedLocales, l);
    assert doc.Record() == SetDefaultLocale(before, l);
    Save(db, doc, shop.id);
    Refile(old(db.localizations), shop.id, before, doc.Record());
    reply := LocaleSettingsReply(doc.defaultLocale, doc.supportedLocales);
  }

  /**
   * POST `/shop/supported-locales`. A new locale is pushed and saved, then its
   * table is written through `updateShopTranslations`, which reads the saved
   * document back; the reply lists the locales of the handler's own copy, which
   * the second write does not touch.
   */
  method PostSupportedLocale(db: Database, shop: Shop, locale: Option<string>) returns (reply: Reply)
    requires Keyed(db.localizations)
    modifies db`localizations
    ensures Keyed(db.localizations)
    ensures !Truthy(locale) ==> reply == ErrorReply(400, LocaleRequired) && db.localizations == old(db.localizations)
    ensures Truthy(locale) ==>
      var before := DocumentOf(old(db.localizations), shop);
      var rec := AddLocale(before, locale.value);
      && db.localizations == old(db.localizations)[shop.id := rec]
      && reply == SupportedReply(PushIfAbsent(before.supportedLocales, locale.value))
    ensures Truthy(locale) && Strings.Trim(locale.value) == locale.value ==>
      reply == SupportedReply(AddLocale(DocumentOf(old(db.localizations), shop), locale.value).supportedLocales)
  {
    if !Truthy(locale) {
      return ErrorReply(400, LocaleRequired);
    }
    var l := locale.value;
    var doc := OpenDocument(db, shop);
    ghost var before := doc.Record();
    if l in doc.supportedLocales {
      return SupportedReply(doc.supportedLocales);
    }
    AddNewLocale(db, doc, shop.id, l);
    Refile(old(db.localizations), shop.id, before, AddLocale(before, l));
    reply := SupportedReply(doc.supportedLocales);
  }

  /** The new-locale branch of POST `/shop/supported-locales`: push and save, then seed the table. */
  method AddNewLocale(db: Database, doc: Localization, shopId: string, locale: string)
    requires Keyed(db.localizations) && doc.shopId == shopId && locale !in doc.supportedLocales
    modifies doc`supportedLocales, db`localizations
    ensures Keyed(db.localizations)
    ensures doc.supportedLocales == old(doc.supportedLocales) + [Strings.Trim(locale)]
    ensures db.localizations == old(db.localizations)[shopId := AddLocale(old(doc.Record()), locale)]
  {
    ghost var before := doc.Record();
    PushLocale(db, doc, shopId, locale);
    ghost var pushed := doc.Record();
    UpdatedAfterPush(db.shops, db.localizations, shopId, before, locale);
    ghost var mid := db.localizations;
    var ok := UpdateShopTranslations(db, shopId, locale, DefaultTranslations(locale));
    assert db.localizations == mid[shopId := AddLocale(before, locale)];
    Refile(old(db.localizations), shopId, pushed, AddLocale(before, locale));
  }

  /** `supportedLocales.push(locale)` on the handler's document, which stores the trimmed locale, then `save()`. */
  method PushLocale(db: Database, doc: Localization, shopId: string, locale: string)
    requires Keyed(db.localizations) && doc.shopId == shopId
    modifies doc`supportedLocales, db`localizations
    ensures Keyed(db.localizations)
    ensures doc.Record() == old(doc.Record()).(supportedLocales := old(doc.supportedLocales) + [Strings.Trim(locale)])
    ensures db.localizations == old(db.localizations)[shopId := doc.Record()]
  {
    doc.supportedLocales := doc.supportedLocales + [Strings.Trim(locale)];
    Save(db, doc, shopId);
  }

  /** DELETE `/shop/supported-locales/:locale`. */
  method DeleteSupportedLocale(db: Database, shop: Shop, locale: string) returns (reply: Reply)
    requires Keyed(db.localizations)
    modifies db`localizations
    ensures Keyed(db.localizations)
    ensures locale == "" ==> reply == ErrorReply(400, LocaleRequired)
    ensures locale != "" && shop.id !in old(db.localizations) ==> reply == ErrorReply(404, SettingsNotFound)
    ensures locale != "" && shop.id in old(db.localizations) && old(db.localizations)[shop.id].defaultLocale == locale ==>
      reply == ErrorReply(400, CannotRemoveDefault)
    ensures reply.ErrorReply? ==> db.localizations == old(db.localizations)
    ensures locale != "" && shop.id in old(db.localizations) && old(db.localizations)[shop.id].defaultLocale != locale ==>
      var rec := RemoveLocale(old(db.localizations)[shop.id], locale);
      && db.localizations == old(db.localizations)[shop.id := rec]
      && reply == SupportedReply(rec.supportedLocales)
  {
    if locale == "" {
      return ErrorReply(400, LocaleRequired);
    }
    var doc := db.FindLocalization(shop.id);
    if doc == null {
      return ErrorReply(404, SettingsNotFound);
    }
    if doc.defaultLocale == locale {
      return ErrorReply(400, CannotRemoveDefault);
    }
    ghost var before := doc.Record();
    doc.supportedLocales := Strings.TrimAll(RemoveAll(doc.supportedLocales, locale));
    if locale in doc.translations {
      doc.translations := doc.translations - {locale};
    } else {
      assert doc.translations - {locale} == doc.translations;
    }
    assert doc.Record() == RemoveLocale(before, locale);
    Save(db, doc, shop.id);
    reply := SupportedReply(doc.supportedLocales);
  }

  /** GET `/shop/translations/:locale?`: the shop's translations for the locale, English when none is given. */
  method GetTranslationsRoute(db: Database, shop: Shop, param: Option<string>) returns (reply: Reply)
    ensures reply == TranslationsReply(ShopTranslations(db.shops, db.localizations, shop.shopDomain, LocaleOrEnglish(param)))
  {
    var t := GetShopTranslations(db, shop.shopDomain, LocaleOrEnglish(param));
    reply := TranslationsReply(t);
  }

  /**
   * PUT `/shop/translations/:locale`: `translations` is `None` when the body has no
   * object under that key. A failed update (no document and no shop) is the 500.
   */
  method PutTranslations(db: Database, shop: Shop, locale: string, translations: Option<Table>) returns (reply: Reply)
    requires Keyed(db.localizations)
    modifies db`localizations
    ensures Keyed(db.localizations)
    ensures locale == "" ==> reply == ErrorReply(400, LocaleRequired)
    ensures locale != "" && translations.None? ==> reply == ErrorReply(400, TranslationsRequired)
    ensures reply.ErrorReply? ==> db.localizations == old(db.localizations)
    ensures locale != "" && translations.Some? ==>
      var r := UpdatedRecord(old(db.shops), old(db.localizations), shop.id, locale, translations.value);
      && (r.None? ==> reply == ErrorReply(500, UpdateFailed))
      && (r.Some? ==> reply == SuccessReply && db.localizations == old(db.localizations)[shop.id := r.value])
  {
    if locale == "" {
      return ErrorReply(400, LocaleRequired);
    }
    if translations.None? {
      return ErrorReply(400, TranslationsRequired);
    }
    var ok := UpdateShopTranslations(db, shop.id, locale, translations.value);
    reply := if ok then SuccessReply else ErrorReply(500, UpdateFailed);
  }
}

=== FILE: products_page.dfy ===
/**
 * The console's product-selection page (web/src/pages/Products.jsx): the
 * selection mode, the enabled products and tags, the tag vocabulary gathered
 * from the products' comma-separated tag strings, the suggestions offered
 * while typing a tag, and the dirty/save/reset bookkeeping.
 */
module ProductsPage {
  import opened Common
  import opened Strings
  import opened ListOps
  import opened ShopModel

  const PerPage: nat := 20
  const MaxSuggestions: nat := 10
  const LoadFailed := "Failed to load products. Please try refreshing the page."
  const SaveFailed := "Failed to save selection settings. Please try again."

  /** A product as the products listing gives it; `tags` is Shopify's comma-separated string. */
  datatype ProductItem = ProductItem(id: string, title: string, tags: Option<string>)

  // ---------------------------------------------------------------------------
  // The tag vocabulary

  /** The trimmed comma-separated pieces of a product's tags; none when the tags are absent or empty. */
  function ProductTags(p: ProductItem): seq<string> {
    if Truthy(p.tags) then TrimAll(Split(p.tags.value, ",")) else []
  }

  /** The `Set` after adding the non-empty pieces one by one; a `Set` keeps insertion order. */
  function AddTags(acc: seq<string>, pieces: seq<string>): seq<string>
    decreases |pieces|
  {
    if pieces == [] then acc
    else
      var n := |pieces| - 1;
      var before := AddTags(acc, pieces[..n]);
      if pieces[n] != "" then AppendIfAbsent(before, pieces[n]) else before
  }

  /** Adding pieces adds exactly the non-empty ones, each at most once. */
  lemma {:induction false} AddTagsSpec(acc: seq<string>, pieces: seq<string>)
    ensures forall t :: t in AddTags(acc, pieces) <==> t in acc || (t != "" && t in pieces)
    ensures NoDup(acc) ==> NoDup(AddTags(acc, pieces))
    decreases |pieces|
  {
    if pieces != [] {
      var n := |pieces| - 1;
      AddTagsSpec(acc, pieces[..n]);
      assert pieces == pieces[..n] + [pieces[n]];
      if NoDup(acc) && pieces[n] != "" {
        AppendIfAbsentNoDup(AddTags(acc, pieces[..n]), pieces[n]);
      }
    }
  }

  /** The tag pieces of every product, in listing order. */
  function AllPieces(products: seq<ProductItem>): (r: seq<seq<string>>)
    ensures |r| == |products|
    ensures forall i :: 0 <= i < |products| ==> r[i] == ProductTags(products[i])
  {
    seq(|products|, i requires 0 <= i < |products| => ProductTags(products[i]))
  }

  /** The `Set` filled from lists of pieces taken in order. */
  function Collect(lists: seq<seq<string>>): seq<string>
    decreases |lists|
  {
    if lists == [] then []
    else AddTags(Collect(lists[..|lists| - 1]), lists[|lists| - 1])
  }

  lemma {:induction false} CollectSpec(lists: seq<seq<string>>)
    ensures NoDup(Collect(lists))
    ensures forall t :: t in Collect(lists) <==> t != "" && exists i :: 0 <= i < |lists| && t in lists[i]
    decreases |lists|
  {
    if lists != [] {
      var n := |lists| - 1;
      var init := lists[..n];
      CollectSpec(init);
      AddTagsSpec(Collect(init), lists[n]);
      forall t ensures t in Collect(lists) <==> t != "" && exists i :: 0 <= i < |lists| && t in lists[i] {
        if t != "" && exists i :: 0 <= i < |lists| && t in lists[i] {
          var i :| 0 <= i < |lists| && t in lists[i];
          if i < n {
            assert init[i] == lists[i];
          }
        }
        if t in Collect(init) {
          var i :| 0 <= i < n && t in init[i];
          assert lists[i] == init[i];
        }
      }
    }
  }

  /** One more list of pieces added to the `Set`. */
  lemma CollectStep(lists: seq<seq<string>>, i: nat)
    requires i < |lists|
    ensures Collect(lists[..i + 1]) == AddTags(Collect(lists[..i]), lists[i])
  {
    assert lists[..i + 1][..i] == lists[..i];
  }

  /** The tags collected from the products, in the order the `Set` keeps them. */
  function TagsOf(products: seq<ProductItem>): seq<string> {
    Collect(AllPieces(products))
  }

  /**
   * The vocabulary holds each non-empty trimmed piece of some product's tags,
   * nothing else, and each only once.
   */
  lemma TagsOfSpec(products: seq<ProductItem>)
    ensures NoDup(TagsOf(products))
    ensures forall t :: t in TagsOf(products) <==>
      t != "" && exists i :: 0 <= i < |products| && t in ProductTags(products[i])
  {
    var lists := AllPieces(products);
    CollectSpec(lists);
    forall t ensures t in TagsOf(products) <==>
      t != "" && exists i :: 0 <= i < |products| && t in ProductTags(products[i])
    {
      if exists i :: 0 <= i < |products| && t in ProductTags(products[i]) {
        var i :| 0 <= i < |products| && t in ProductTags(products[i]);
        assert t in lists[i];
      }
    }
  }

  /** The inner loop: one product's tag string split, trimmed and added to the `Set`. */
  method AddProductTags(tags: seq<string>, tagString: string) returns (r: seq<string>)
    ensures r == AddTags(tags, TrimAll(Split(tagString, ",")))
  {
    var pieces := Split(tagString, ",");
    ghost var trimmedPieces := TrimAll(pieces);
    r := tags;
    var j := 0;
    while j < |pieces|
      invariant 0 <= j <= |pieces|
      invariant r == AddTags(tags, trimmedPieces[..j])
    {
      assert trimmedPieces[..j + 1][..j] == trimmedPieces[..j];
      var trimmed := Trim(pieces[j]);
      if trimmed != "" && trimmed !in r {
        r := r + [trimmed];
      }
      j := j + 1;
    }
    assert trimmedPieces[..j] == trimmedPieces;
  }

  /** The outer loop over the products: the whole `Set` of tags. */
  method ExtractTags(products: seq<ProductItem>) returns (tags: seq<string>)
    ensures tags == TagsOf(products)
  {
    ghost var lists := AllPieces(products);
    tags := [];
    var i := 0;
    while i < |products|
      invariant 0 <= i <= |products|
      invariant tags == Collect(lists[..i])
    {
      var product := products[i];
      CollectStep(lists, i);
      if product.tags.Some? && product.tags.value != "" {
        tags := AddProductTags(tags, product.tags.value);
      }
      i := i + 1;
    }
    assert lists[..i] == lists;
  }

  // ---------------------------------------------------------------------------
  // `Array.prototype.sort` without a comparator

  /** Non-decreasing in the default sort order. */
  predicate Sorted(s: seq<string>) {
    forall i, j :: 0 <= i < j < |s| ==> !Less(s[j], s[i])
  }

  /** `x` placed before the first element not below it. */
  function Insert(x: string, s: seq<string>): (r: seq<string>)
    ensures multiset(r) == multiset(s) + multiset{x}
    decreases |s|
  {
    if s == [] then [x]
    else if !Less(s[0], x) then [x] + s
    else
      assert s == [s[0]] + s[1..];
      [s[0]] + Insert(x, s[1..])
  }

  /** An element not above the head of a sorted list can go in front of it. */
  lemma InsertFrontSorted(x: string, s: seq<string>)
    requires Sorted(s) && s != [] && !Less(s[0], x)
    ensures Sorted([x] + s)
  {
    forall j | 0 < j < |s| ensures !Less(s[j], x) {
      if Less(s[j], x) {
        if x != s[0] {
          LessTotal(x, s[0]);
          LessTransitive(s[j], x, s[0]);
        }
        assert false;
      }
    }
  }

  lemma {:induction false} InsertSorted(x: string, s: seq<string>)
    requires Sorted(s)
    ensures Sorted(Insert(x, s))
    decreases |s|
  {
    if s == [] {
    } else if !Less(s[0], x) {
      InsertFrontSorted(x, s);
    } else {
      var tail := s[1..];
      InsertSorted(x, tail);
      var r := Insert(x, tail);
      LessAsymmetric(s[0], x);
      forall y | y in r ensures !Less(y, s[0]) {
        assert y in multiset(r);
        if y != x {
          assert y in tail;
          var j :| 0 <= j < |tail| && tail[j] == y;
          assert s[j + 1] == y;
        }
      }
      forall i, j | 0 <= i < j < |[s[0]] + r| ensures !Less(([s[0]] + r)[j], ([s[0]] + r)[i]) {
        if i == 0 {
          assert ([s[0]] + r)[j] == r[j - 1];
          assert r[j - 1] in r;
        } else {
          assert ([s[0]] + r)[j] == r[j - 1] && ([s[0]] + r)[i] == r[i - 1];
        }
      }
    }
  }

  /** The result of `sort()`: an ordered permutation of the input. */
  function SortStrings(s: seq<string>): (r: seq<string>)
    ensures multiset(r) == multiset(s)
    ensures Sorted(r)
    decreases |s|
  {
    if s == [] then []
    else
      var rest := SortStrings(s[1..]);
      InsertSorted(s[0], rest);
      assert s == [s[0]] + s[1..];
      Insert(s[0], rest)
  }

  /** Sorting keeps the members and, with them, the absence of duplicates. */
  lemma SortKeepsMembers(s: seq<string>)
    ensures forall t :: t in SortStrings(s) <==> t in s
    ensures NoDup(s) ==> NoDup(SortStrings(s))
  {
    var r := SortStrings(s);
    forall t ensures t in r <==> t in s {
      assert t in r <==> t in multiset(r);
    }
    if NoDup(s) {
      forall i, j | 0 <= i < j < |r| ensures r[i] != r[j] {
        if r[i] == r[j] {
          assert multiset(r)[r[i]] >= 2 by {
            assert r == r[..i] + [r[i]] + r[i + 1..j] + [r[j]] + r[j + 1..];
          }
          NoDupCount(s, r[i]);
          assert false;
        }
      }
    }
  }

  /** The vocabulary after sorting: ordered, duplicate-free, and the same tags. */
  lemma AllTagsSpec(products: seq<ProductItem>)
    ensures Sorted(SortStrings(TagsOf(products)))
    ensures NoDup(SortStrings(TagsOf(products)))
    ensures forall t :: t in SortStrings(TagsOf(products)) <==>
      t != "" && exists i :: 0 <= i < |products| && t in ProductTags(products[i])
  {
    TagsOfSpec(products);
    SortKeepsMembers(TagsOf(products));
  }

  /** A duplicate-free list holds each value at most once. */
  lemma {:induction false} NoDupCount(s: seq<string>, x: string)
    requires NoDup(s)
    ensures multiset(s)[x] <= 1
    decreases |s|
  {
    if s != [] {
      assert s == [s[0]] + s[1..];
      assert NoDup(s[1..]) by {
        forall i, j | 0 <= i < j < |s[1..]| ensures s[1..][i] != s[1..][j] {
          assert s[1..][i] == s[i + 1] && s[1..][j] == s[j + 1];
        }
      }
      NoDupCount(s[1..], x);
      if s[0] == x {
        assert x !in s[1..];
      }
    }
  }

  // ---------------------------------------------------------------------------
  // Suggestions and search

  /**
   * `suggestedTags`: the first ten known tags that are not yet enabled and
   * contain what is typed.
   */
  function SuggestedTags(allTags: seq<string>, enabledTags: seq<string>, input: string): (r: seq<string>)
    ensures |r| <= MaxSuggestions
    ensures forall t :: t in r ==> t in allTags && t !in enabledTags && IncludesIgnoringCase(t, input)
    ensures r <= Filter(Filter(allTags, (t: string) => t !in enabledTags), (t: string) => IncludesIgnoringCase(t, input))
    ensures var c := Filter(Filter(allTags, (t: string) => t !in enabledTags), (t: string) => IncludesIgnoringCase(t, input));
      |r| == if |c| < MaxSuggestions then |c| else MaxSuggestions
  {
    var candidates := Filter(Filter(allTags, (t: string) => t !in enabledTags), (t: string) => IncludesIgnoringCase(t, input));
    var r := candidates[..if |candidates| < MaxSuggestions then |candidates| else MaxSuggestions];
    assert forall k :: 0 <= k < |r| ==> r[k] in candidates;
    r
  }

  /** With fewer than ten candidates and nothing typed, every tag not yet enabled is suggested. */
  lemma SuggestionsComplete(allTags: seq<string>, enabledTags: seq<string>, t: string)
    requires |allTags| <= MaxSuggestions
    requires t in allTags && t !in enabledTags
    ensures t in SuggestedTags(allTags, enabledTags, "")
  {
    EmptyQueryMatches(t);
    var c := Filter(Filter(allTags, (u: string) => u !in enabledTags), (u: string) => IncludesIgnoringCase(u, ""));
    assert c[..|c|] == c;
  }

  /** The product search: the title, or the tags when present, contain the query. */
  predicate ProductMatches(p: ProductItem, query: string) {
    IncludesIgnoringCase(p.title, query) || (Truthy(p.tags) && IncludesIgnoringCase(p.tags.value, query))
  }

  /** The search results: the matching products, in listing order. */
  function MatchingProducts(products: seq<ProductItem>, query: string): (r: seq<ProductItem>)
    ensures forall p :: p in r <==> p in products && ProductMatches(p, query)
  {
    Filter(products, (p: ProductItem) => ProductMatches(p, query))
  }

  /**
   * The current page of the search results: the run of twenty matches that starts
   * after the earlier pages' matches, shorter only on the last page.
   */
  function ProductPage(products: seq<ProductItem>, query: string, page: nat): (r: seq<ProductItem>)
    requires page >= 1
    ensures |r| <= PerPage
    ensures forall p :: p in r ==> p in products && ProductMatches(p, query)
    ensures forall k :: 0 <= k < |r| ==>
      && (page - 1) * PerPage + k < |MatchingProducts(products, query)|
      && r[k] == MatchingProducts(products, query)[(page - 1) * PerPage + k]
    ensures var n := |MatchingProducts(products, query)| - (page - 1) * PerPage;
      |r| == if n <= 0 then 0 else if n < PerPage then n else PerPage
  {
    var items := MatchingProducts(products, query);
    var r := Paginate(items, page, PerPage);
    assert forall k :: 0 <= k < |r| ==> r[k] in items;
    r
  }

  // ---------------------------------------------------------------------------
  // The page

  class Page {
    var products: seq<ProductItem>
    var allTags: seq<string>
    var selectionMode: string
    var originalSelectionMode: string
    var enabledProducts: seq<string>
    var originalEnabledProducts: seq<string>
    var enabledTags: seq<string>
    var originalEnabledTags: seq<string>
    var tagInput: string
    var error: Option<string>

    /** The page as first rendered. */
    constructor ()
      ensures products == [] && allTags == [] && tagInput == "" && error.None?
      ensures selectionMode == "specific-products" && originalSelectionMode == "specific-products"
      ensures enabledProducts == [] && originalEnabledProducts == [] && enabledTags == [] && originalEnabledTags == []
    {
      products, allTags := [], [];
      selectionMode, originalSelectionMode := "specific-products", "specific-products";
      enabledProducts, originalEnabledProducts := [], [];
      enabledTags, originalEnabledTags := [], [];
      tagInput := "";
      error := None;
    }

    /** The unsaved-changes flag; the save button is enabled exactly when it is set and loading has finished. */
    predicate IsDirty()
      reads this
    {
      enabledProducts != originalEnabledProducts || enabledTags != originalEnabledTags || selectionMode != originalSelectionMode
    }

    /**
     * The load effect: `listing` is the products listing and `settings` the shop's
     * settings; either missing is the load error, and nothing else changes.
     */
    method Load(listing: Option<seq<ProductItem>>, settings: Option<Settings>)
      modifies this`products, this`allTags, this`selectionMode, this`originalSelectionMode, this`error
      modifies this`enabledProducts, this`originalEnabledProducts, this`enabledTags, this`originalEnabledTags
      ensures listing.None? || settings.None? ==>
        && error == Some(LoadFailed)
        && products == old(products) && allTags == old(allTags)
        && selectionMode == old(selectionMode) && originalSelectionMode == old(originalSelectionMode)
        && enabledProducts == old(enabledProducts) && originalEnabledProducts == old(originalEnabledProducts)
        && enabledTags == old(enabledTags) && originalEnabledTags == old(originalEnabledTags)
      ensures listing.Some? && settings.Some? ==>
        && error.None? && products == listing.value
        && allTags == SortStrings(TagsOf(listing.value))
        && selectionMode == OrElse(settings.value.selectionMode, "specific-products")
        && enabledProducts == settings.value.enabledProducts.GetOr([])
        && enabledTags == settings.value.enabledTags.GetOr([])
        && !IsDirty()
    {
      if listing.None? || settings.None? {
        error := Some(LoadFailed);
        return;
      }
      var s := settings.value;
      var enabled := s.enabledProducts.GetOr([]);
      var tagList := s.enabledTags.GetOr([]);
      var mode := OrElse(s.selectionMode, "specific-products");
      var tags := ExtractTags(listing.value);
      var sorted := SortStrings(tags);
      products := listing.value;
      allTags := sorted;
      enabledProducts, originalEnabledProducts := enabled, enabled;
      enabledTags, originalEnabledTags := tagList, tagList;
      selectionMode, originalSelectionMode := mode, mode;
      error := None;
    }

    /** `handleToggleProduct(id)`. */
    method ToggleProduct(id: string)
      modifies this`enabledProducts
      ensures enabledProducts == Toggle(old(enabledProducts), id)
      ensures NoDup(old(enabledProducts)) ==> NoDup(enabledProducts)
    {
      if id in enabledProducts {
        enabledProducts := RemoveAll(enabledProducts, id);
      } else {
        enabledProducts := enabledProducts + [id];
      }
      if NoDup(old(enabledProducts)) {
        ToggleNoDup(old(enabledProducts), id);
      }
    }

    /** Typing in the tag field. */
    method SetTagInput(value: string)
      modifies this`tagInput
      ensures tagInput == value
    {
      tagInput := value;
    }

    /** `handleAddTag`: a non-empty tag not yet enabled is appended and the field cleared; otherwise nothing happens. */
    method AddTag()
      modifies this`enabledTags, this`tagInput
      ensures old(tagInput) != "" && old(tagInput) !in old(enabledTags) ==>
        enabledTags == old(enabledTags) + [old(tagInput)] && tagInput == ""
      ensures old(tagInput) == "" || old(tagInput) in old(enabledTags) ==>
        enabledTags == old(enabledTags) && tagInput == old(tagInput)
      ensures NoDup(old(enabledTags)) ==> NoDup(enabledTags)
    {
      if tagInput != "" && tagInput !in enabledTags {
        enabledTags := enabledTags + [tagInput];
        tagInput := "";
      }
    }

    /** `handleRemoveTag(tag)`. */
    method RemoveTag(tag: string)
      modifies this`enabledTags
      ensures enabledTags == RemoveAll(old(enabledTags), tag)
      ensures tag !in enabledTags
      ensures NoDup(old(enabledTags)) ==> NoDup(enabledTags)
    {
      enabledTags := RemoveAll(enabledTags, tag);
      if NoDup(old(enabledTags)) {
        RemoveAllNoDup(old(enabledTags), tag);
      }
    }

    /** `handleSuggestedTagClick(tag)`: the tag is enabled, once. */
    method SuggestedTagClick(tag: string)
      modifies this`enabledTags
      ensures enabledTags == AppendIfAbsent(old(enabledTags), tag)
      ensures tag !in SuggestedTags(allTags, enabledTags, tagInput)
      ensures NoDup(old(enabledTags)) ==> NoDup(enabledTags)
    {
      if tag !in enabledTags {
        enabledTags := enabledTags + [tag];
      }
    }

    /** `handleSelectionModeChange(value)`. */
    method ChangeSelectionMode(value: string)
      modifies this`selectionMode
      ensures selectionMode == value
    {
      selectionMode := value;
    }

    /** `handleSave`: `success` is the server's answer. */
    method Save(success: bool)
      modifies this`originalSelectionMode, this`originalEnabledProducts, this`originalEnabledTags, this`error
      ensures success ==> (originalSelectionMode == selectionMode && originalEnabledProducts == enabledProducts
        && originalEnabledTags == enabledTags && error.None? && !IsDirty())
      ensures !success ==> (originalSelectionMode == old(originalSelectionMode) && originalEnabledProducts == old(originalEnabledProducts)
        && originalEnabledTags == old(originalEnabledTags) && error == Some(SaveFailed))
    {
      if success {
        originalSelectionMode := selectionMode;
        originalEnabledProducts := enabledProducts;
        originalEnabledTags := enabledTags;
        error := None;
      } else {
        error := Some(SaveFailed);
      }
    }

    /** `handleReset`. */
    method Reset()
      modifies this`selectionMode, this`enabledProducts, this`enabledTags
      ensures selectionMode == originalSelectionMode && enabledProducts == originalEnabledProducts
      ensures enabledTags == originalEnabledTags
      ensures !IsDirty()
    {
      selectionMode := originalSelectionMode;
      enabledProducts := originalEnabledProducts;
      enabledTags := originalEnabledTags;
    }
  }

  /** Adding a fresh tag and removing it again gives back the enabled tags. */
  lemma AddThenRemoveTag(enabledTags: seq<string>, tag: string)
    requires tag !in enabledTags
    ensures RemoveAll(enabledTags + [tag], tag) == enabledTags
  {
    RemoveAppended(enabledTags, tag);
  }
}

=== FILE: public_routes.dfy ===
/**
 * The storefront's configuration endpoint (server/src/routes/public.js, GET
 * `/config`): one sparse shop document in, one fully defaulted configuration out.
 *
 * A settings group the document lacks is replaced by a whole default object; a
 * group it holds is passed on as stored, however sparse. The locale fallback and
 * the localization summary read paths the shop schema does not define
 * (`optionSettings.defaultLocale`, `settings.localization`), so they always take
 * their last alternative: `'en'` and `['en']`.
 */
module PublicRoutes {
  import opened Common
  import opened ShopModel
  import opened LocalizationModel
  import opened Store
  import opened TranslationService

  const ShopRequired := "Shop parameter is required"
  const ShopNotFound := "Shop not found or inactive"

  /** The `config` object the endpoint sends. */
  datatype PublicConfig = PublicConfig(
    buttonText: Option<string>,
    collapseButtonText: Option<string>,
    displayImages: Option<bool>,
    showPrice: Option<bool>,
    showInventory: Option<bool>,
    cardStyle: Option<string>,
    selectionMode: string,
    enabledCollections: seq<string>,
    enabledProducts: seq<string>,
    enabledTags: seq<string>,
    optionSettings: OptionSettings,
    viewportSettings: ViewportSettings,
    styles: Styles,
    translations: Table,
    defaultLocale: string,
    supportedLocales: seq<string>)

  datatype ConfigReply = Config(config: PublicConfig) | ConfigError(status: int, error: string)

  /** The object literal used when a shop has no `optionSettings`. */
  const FallbackOptionSettings := OptionSettings(Some("all-variants"), Some("Color"), Some(map[]), Some(map[]))

  /** The object literal used when a shop has no `viewportSettings`. */
  const FallbackViewport :=
    ViewportSettings(Some(true), Some(true), Some(true), Some("horizontal-scroll"), Some("grid"), Some(1), Some(2), Some(3))

  /** The object literal used when a shop has no `styles`. */
  const FallbackStyles := Styles(Some("#2c6ecb"), Some("#ffffff"), Some("200px"), Some("10px"), Some("#eeeeee"), Some("4px"))

  /** The endpoint's fallback objects are the shop schema's documented defaults, field for field. */
  lemma FallbacksAreSchemaDefaults()
    ensures FallbackOptionSettings == DefaultSettings().optionSettings.value
    ensures FallbackViewport == DefaultSettings().viewportSettings.value
    ensures FallbackStyles == DefaultSettings().styles.value
  {
  }

  /**
   * The locale the translations are read for: the query's if non-empty, else the
   * shop's `optionSettings.defaultLocale` — a path the schema does not define, so
   * always absent — else `'en'`.
   */
  function ConfigLocale(query: Option<string>): (l: string)
    ensures Truthy(query) ==> l == query.value
    ensures !Truthy(query) ==> l == "en"
  {
    var optionDefaultLocale: Option<string> := None;
    OrElse(query, OrElse(optionDefaultLocale, "en"))
  }

  /** The configuration built from an active shop's settings and the translations read for it. */
  function BuildConfig(s: Settings, translations: Table): (c: PublicConfig)
    ensures c.selectionMode == OrElse(s.selectionMode, "all")
    ensures s.enabledCollections.Some? ==> c.enabledCollections == s.enabledCollections.value
    ensures s.enabledCollections.None? ==> c.enabledCollections == []
    ensures c.enabledProducts == s.enabledProducts.GetOr([]) && c.enabledTags == s.enabledTags.GetOr([])
    ensures s.optionSettings.Some? ==> c.optionSettings == s.optionSettings.value
    ensures s.optionSettings.None? ==> c.optionSettings == DefaultOptionSettings()
    ensures s.viewportSettings.Some? ==> c.viewportSettings == s.viewportSettings.value
    ensures s.viewportSettings.None? ==> c.viewportSettings == DefaultViewport()
    ensures s.styles.Some? ==> c.styles == s.styles.value
    ensures s.styles.None? ==> c.styles == DefaultStyles()
    ensures c.translations == translations
    ensures c.defaultLocale == "en" && c.supportedLocales == ["en"]
  {
    FallbacksAreSchemaDefaults();
    // `settings.localization` is not a path of the shop schema.
    var localizationDefault: Option<string> := None;
    var localizationSupported: Option<seq<string>> := None;
    PublicConfig(
      s.buttonText, s.collapseButtonText, s.displayImages, s.showPrice, s.showInventory, s.cardStyle,
      OrElse(s.selectionMode, "all"),
      s.enabledCollections.GetOr([]), s.enabledProducts.GetOr([]), s.enabledTags.GetOr([]),
      s.optionSettings.GetOr(FallbackOptionSettings),
      s.viewportSettings.GetOr(FallbackViewport),
      s.styles.GetOr(FallbackStyles),
      translations,
      OrElse(localizationDefault, "en"),
      localizationSupported.GetOr(["en"]))
  }

  /** GET `/config?shop=…&locale=…` over the stored shops and Localization documents. */
  function Resolve(shops: seq<Shop>, locs: map<string, LocalizationRecord>, shopParam: Option<string>, localeParam: Option<string>): (r: ConfigReply)
    ensures r == ConfigError(400, ShopRequired) <==> !Truthy(shopParam)
    ensures r.Config? <==>
      Truthy(shopParam) && FindShopByDomain(shops, shopParam.value).Some? && FindShopByDomain(shops, shopParam.value).value.isActive
    ensures Truthy(shopParam) ==>
      var found := FindShopByDomain(shops, shopParam.value);
      (r == ConfigError(404, ShopNotFound) <==> found.None? || !found.value.isActive)
    ensures r.Config? ==>
      && Truthy(shopParam)
      && var found := FindShopByDomain(shops, shopParam.value);
      && found.Some? && found.value.isActive
      && r.config == BuildConfig(found.value.settings,
                                 ShopTranslations(shops, locs, shopParam.value, ConfigLocale(localeParam)))
  {
    if !Truthy(shopParam) then ConfigError(400, ShopRequired)
    else
      match FindShopByDomain(shops, shopParam.value)
      case None => ConfigError(404, ShopNotFound)
      case Some(shop) =>
        if !shop.isActive then ConfigError(404, ShopNotFound)
        else Config(BuildConfig(shop.settings, ShopTranslations(shops, locs, shopParam.value, ConfigLocale(localeParam))))
  }

  /** Display fields reach the storefront exactly as stored, absent ones included. */
  lemma DisplayFieldsVerbatim(shops: seq<Shop>, locs: map<string, LocalizationRecord>, shopParam: Option<string>, localeParam: Option<string>)
    requires Resolve(shops, locs, shopParam, localeParam).Config?
    ensures var c := Resolve(shops, locs, shopParam, localeParam).config;
      var s := FindShopByDomain(shops, shopParam.value).value.settings;
      && c.buttonText == s.buttonText && c.collapseButtonText == s.collapseButtonText
      && c.displayImages == s.displayImages && c.showPrice == s.showPrice
      && c.showInventory == s.showInventory && c.cardStyle == s.cardStyle
  {
  }

  /**
   * The defaulting is whole-object: a stored group that lacks a field is sent
   * without it, not completed from the defaults.
   */
  lemma NoPerFieldDefaults(s: Settings, t: Table)
    requires s.optionSettings.Some?
    ensures BuildConfig(s, t).optionSettings == s.optionSettings.value
    ensures s.optionSettings.value.defaultDisplayMode.None? ==> BuildConfig(s, t).optionSettings.defaultDisplayMode.None?
    ensures s.optionSettings.value.productSpecificOptions.None? ==> BuildConfig(s, t).optionSettings.productSpecificOptions.None?
  {
  }

  /**
   * The translations served for a shop that has no Localization document are the
   * built-in table of the query locale, English when the query has none.
   */
  lemma ConfigTranslationsWithoutDocument(shops: seq<Shop>, locs: map<string, LocalizationRecord>, shopParam: Option<string>, localeParam: Option<string>)
    requires Resolve(shops, locs, shopParam, localeParam).Config?
    requires FindShopByDomain(shops, shopParam.value).value.id !in locs
    ensures Truthy(localeParam) ==>
      Resolve(shops, locs, shopParam, localeParam).config.translations == DefaultTranslations(localeParam.value)
    ensures !Truthy(localeParam) ==>
      Resolve(shops, locs, shopParam, localeParam).config.translations == English
  {
    DefaultEnglish();
  }

  /** A resolved configuration always carries a valid selection mode when the stored settings are valid. */
  lemma ConfigSelectionModeValid(shops: seq<Shop>, locs: map<string, LocalizationRecord>, shopParam: Option<string>, localeParam: Option<string>)
    requires Resolve(shops, locs, shopParam, localeParam).Config?
    requires ValidSettings(FindShopByDomain(shops, shopParam.value).value.settings)
    ensures Resolve(shops, locs, shopParam, localeParam).config.selectionMode in SelectionModes
  {
  }
}

=== FILE: shop_model.dfy ===
/**
 * The shop document (server/src/models/shop.js): the settings record with its
 * closed value sets and per-field defaults, and the normalisation and validity
 * rules the schema applies when a shop is saved.
 *
 * Every settings field is optional: `None` is a path the stored document does
 * not hold (JavaScript `undefined`), which is what the public resolver and the
 * settings merge distinguish.
 */
module ShopModel {
  import opened Common
  import Strings

  const CardStyles: set<string> := {"compact", "standard", "detailed", "match-original"}
  const SelectionModes: set<string> := {"all", "specific-collections", "specific-products", "tags"}
  const DisplayModes: set<string> := {"all-variants", "primary-option", "grouped-options"}
  const MobileDisplayModes: set<string> := {"horizontal-scroll", "dropdown", "modal", "grid"}
  const TabletDisplayModes: set<string> := {"grid", "horizontal-scroll"}

  /** One entry of `productSpecificOptions` / `collectionSpecificOptions`. */
  datatype OptionOverride = OptionOverride(displayMode: Option<string>, primaryOption: Option<string>)

  datatype OptionSettings = OptionSettings(
    defaultDisplayMode: Option<string>,
    defaultPrimaryOption: Option<string>,
    productSpecificOptions: Option<map<string, OptionOverride>>,
    collectionSpecificOptions: Option<map<string, OptionOverride>>)

  datatype ViewportSettings = ViewportSettings(
    enableOnMobile: Option<bool>,
    enableOnTablet: Option<bool>,
    enableOnDesktop: Option<bool>,
    mobileDisplayMode: Option<string>,
    tabletDisplayMode: Option<string>,
    mobileColumnsCount: Option<int>,
    tabletColumnsCount: Option<int>,
    desktopColumnsCount: Option<int>)

  datatype Styles = Styles(
    addToCartButtonColor: Option<string>,
    addToCartButtonTextColor: Option<string>,
    cardWidth: Option<string>,
    cardPadding: Option<string>,
    borderColor: Option<string>,
    borderRadius: Option<string>)

  /** `shop.settings`: the top-level keys a settings update replaces one by one. */
  datatype Settings = Settings(
    buttonText: Option<string>,
    collapseButtonText: Option<string>,
    displayImages: Option<bool>,
    showPrice: Option<bool>,
    showInventory: Option<bool>,
    cardStyle: Option<string>,
    selectionMode: Option<string>,
    enabledCollections: Option<seq<string>>,
    enabledProducts: Option<seq<string>>,
    enabledTags: Option<seq<string>>,
    optionSettings: Option<OptionSettings>,
    viewportSettings: Option<ViewportSettings>,
    styles: Option<Styles>)

  /** A shop document; `id` is its `_id`. Credentials and timestamps are not part of this model. */
  datatype Shop = Shop(id: string, shopDomain: string, isActive: bool, settings: Settings)

  /** A value that is either absent or one of the allowed values, as a Mongoose `enum` validator checks. */
  predicate InEnum(v: Option<string>, allowed: set<string>) {
    v.None? || v.value in allowed
  }

  predicate ValidOverride(o: OptionOverride) {
    InEnum(o.displayMode, DisplayModes)
  }

  predicate ValidOptionSettings(o: OptionSettings) {
    && InEnum(o.defaultDisplayMode, DisplayModes)
    && (o.productSpecificOptions.Some? ==>
          forall id :: id in o.productSpecificOptions.value ==> ValidOverride(o.productSpecificOptions.value[id]))
    && (o.collectionSpecificOptions.Some? ==>
          forall id :: id in o.collectionSpecificOptions.value ==> ValidOverride(o.collectionSpecificOptions.value[id]))
  }

  predicate ValidViewport(v: ViewportSettings) {
    InEnum(v.mobileDisplayMode, MobileDisplayModes) && InEnum(v.tabletDisplayMode, TabletDisplayModes)
  }

  /** The schema's enum validators over the whole settings record. */
  predicate ValidSettings(s: Settings) {
    && InEnum(s.cardStyle, CardStyles)
    && InEnum(s.selectionMode, SelectionModes)
    && (s.optionSettings.Some? ==> ValidOptionSettings(s.optionSettings.value))
    && (s.viewportSettings.Some? ==> ValidViewport(s.viewportSettings.value))
  }

  /**
   * `r` is the infix of `d` that starts at `i`, each character folded to lower
   * case, with only white space before and after it in `d`.
   */
  predicate IsFoldedInfix(d: string, r: string, i: nat) {
    && i + |r| <= |d|
    && (forall k :: 0 <= k < |r| ==> r[k] == Strings.LowerChar(d[i + k]))
    && (forall k :: 0 <= k < i ==> Strings.IsWhitespace(d[k]))
    && (forall k :: i + |r| <= k < |d| ==> Strings.IsWhitespace(d[k]))
  }

  /**
   * The `trim` and `lowercase` setters on `shopDomain`: the domain's characters
   * after the leading white space and before the trailing white space, each
   * folded to lower case.
   */
  function NormalizeDomain(d: string): (r: string)
    ensures IsFoldedInfix(d, r, |d| - |Strings.TrimStart(d)|)
    ensures r == [] || (!Strings.IsWhitespace(r[0]) && !Strings.IsWhitespace(r[|r| - 1]))
    ensures forall k :: 0 <= k < |r| ==> !('A' <= r[k] <= 'Z')
  {
    var t := Strings.Trim(d);
    Strings.TrimFacts(d);
    LowerOfInfix(d, t, |d| - |Strings.TrimStart(d)|);
    LowerKeepsEnds(t);
    Strings.ToLower(t)
  }

  /** Folding the infix of `d` at `i` folds the characters of `d` from `i` on. */
  lemma LowerOfInfix(d: string, t: string, i: nat)
    requires Strings.IsTrimOf(d, t, i)
    ensures IsFoldedInfix(d, Strings.ToLower(t), i)
  {
    forall k | 0 <= k < |t|
      ensures t[k] == d[i + k]
    {
    }
  }

  /** Lower-casing keeps non-white-space characters at both ends of a string. */
  lemma LowerKeepsEnds(t: string)
    requires t == [] || (!Strings.IsWhitespace(t[0]) && !Strings.IsWhitespace(t[|t| - 1]))
    ensures var n := Strings.ToLower(t);
      n == [] || (!Strings.IsWhitespace(n[0]) && !Strings.IsWhitespace(n[|n| - 1]))
  {
    if t != [] {
      Strings.LowerCharWhitespace(t[0]);
      Strings.LowerCharWhitespace(t[|t| - 1]);
    }
  }

  /** Normalising a normalised domain changes nothing, so re-saving a shop keeps its domain. */
  lemma NormalizeDomainIdempotent(d: string)
    ensures NormalizeDomain(NormalizeDomain(d)) == NormalizeDomain(d)
  {
    var t := Strings.Trim(d);
    var n := Strings.ToLower(t);
    assert n == NormalizeDomain(d);
    LowerKeepsEnds(t);
    Strings.TrimOfTrimmed(n);
    Strings.ToLowerIdempotent(t);
  }

  /** An optional list after the element setter: each entry trimmed. */
  function CastList(l: Option<seq<string>>): (r: Option<seq<string>>)
    ensures r.None? <==> l.None?
    ensures l.Some? ==> |r.value| == |l.value| && Strings.Trimmed(r.value)
    ensures l.Some? ==> forall k :: 0 <= k < |l.value| ==> r.value[k] == Strings.Trim(l.value[k])
  {
    if l.None? then None
    else
      Strings.TrimAllTrimmed(l.value);
      Some(Strings.TrimAll(l.value))
  }

  /**
   * The settings as the document holds them once assigned: `enabledCollections`,
   * `enabledProducts` and `enabledTags` are arrays of `{ type: String, trim: true }`,
   * so every entry is trimmed; every other key is kept as given.
   */
  function CastSettings(s: Settings): (r: Settings)
    ensures r.enabledCollections == CastList(s.enabledCollections)
    ensures r.enabledProducts == CastList(s.enabledProducts)
    ensures r.enabledTags == CastList(s.enabledTags)
    ensures r.(enabledCollections := s.enabledCollections, enabledProducts := s.enabledProducts, enabledTags := s.enabledTags) == s
    ensures ValidSettings(r) <==> ValidSettings(s)
  {
    s.(enabledCollections := CastList(s.enabledCollections),
       enabledProducts := CastList(s.enabledProducts),
       enabledTags := CastList(s.enabledTags))
  }

  /** Lists that are already trimmed pass the setter unchanged, so casting twice is casting once. */
  lemma CastSettingsIdempotent(s: Settings)
    ensures CastSettings(CastSettings(s)) == CastSettings(s)
  {
    CastListIdempotent(s.enabledCollections);
    CastListIdempotent(s.enabledProducts);
    CastListIdempotent(s.enabledTags);
  }

  lemma CastListIdempotent(l: Option<seq<string>>)
    ensures CastList(CastList(l)) == CastList(l)
  {
    if l.Some? {
      Strings.TrimAllTrimmed(CastList(l).value);
    }
  }

  /** A shop document after its setters run: the domain normalised, the list entries trimmed. */
  function CastShop(s: Shop): (r: Shop)
    ensures r.shopDomain == NormalizeDomain(s.shopDomain) && r.settings == CastSettings(s.settings)
    ensures r.id == s.id && r.isActive == s.isActive
  {
    s.(shopDomain := NormalizeDomain(s.shopDomain), settings := CastSettings(s.settings))
  }

  /** The documented global option defaults (`all-variants`, `Color`, no overrides). */
  function DefaultOptionSettings(): OptionSettings {
    OptionSettings(Some("all-variants"), Some("Color"), Some(map[]), Some(map[]))
  }

  function DefaultViewport(): ViewportSettings {
    ViewportSettings(Some(true), Some(true), Some(true), Some("horizontal-scroll"), Some("grid"), Some(1), Some(2), Some(3))
  }

  function DefaultStyles(): Styles {
    Styles(Some("#2c6ecb"), Some("#ffffff"), Some("200px"), Some("10px"), Some("#eeeeee"), Some("4px"))
  }

  /** The settings a new shop document receives from the schema defaults. */
  function DefaultSettings(): (s: Settings)
    ensures ValidSettings(s)
    ensures s.cardStyle == Some("standard") && s.selectionMode == Some("all")
    ensures s.optionSettings == Some(DefaultOptionSettings())
    ensures s.viewportSettings == Some(DefaultViewport())
    ensures s.styles == Some(DefaultStyles())
  {
    Settings(
      Some("Show all variants"), Some("Hide variants"), Some(true), Some(true), Some(false),
      Some("standard"), Some("all"), Some([]), Some([]), Some([]),
      Some(DefaultOptionSettings()), Some(DefaultViewport()), Some(DefaultStyles()))
  }

  /** The default for a new per-product or per-collection override: `primary-option` on `Color`. */
  function DefaultOverride(): (o: OptionOverride)
    ensures ValidOverride(o)
    ensures o.displayMode.Some? && o.displayMode.value in DisplayModes - {"all-variants"}
  {
    OptionOverride(Some("primary-option"), Some("Color"))
  }
}

=== FILE: shop_routes.dfy ===
/**
 * The authenticated shop API (server/src/routes/shop.js): reading the settings,
 * the shallow settings update, replacing the enabled-collections list, and the
 * projection of the collections listed by Shopify.
 *
 * `shop` is the shop document the authentication middleware attached to the
 * request; the handlers change it and save it through the store.
 */
module ShopRoutes {
  import opened Common
  import opened ShopModel
  import opened Store

  const SettingsUpdateFailed := "Failed to update shop settings"
  const CollectionsUpdateFailed := "Failed to update enabled collections"

  datatype Reply =
    | SettingsReply(settings: Settings)
    | EnabledCollectionsReply(enabledCollections: Option<seq<string>>)
    | ErrorReply(status: int, error: string)

  /** A field of the request: the request's value when it has the key, the stored one otherwise. */
  function Override<T>(stored: Option<T>, patch: Option<T>): (r: Option<T>)
    ensures patch.Some? ==> r == patch
    ensures patch.None? ==> r == stored
  {
    if patch.Some? then patch else stored
  }

  /** The request body with no `settings` key spreads as the empty object. */
  const NoChanges := Settings(None, None, None, None, None, None, None, None, None, None, None, None, None)

  /**
   * `{ ...shop.settings, ...settings }`: every top-level key of the request replaces
   * the stored one, whole nested objects included; keys the request lacks keep
   * their stored values.
   */
  function MergeSettings(stored: Settings, patch: Settings): (r: Settings)
    ensures r.buttonText == Override(stored.buttonText, patch.buttonText)
    ensures r.collapseButtonText == Override(stored.collapseButtonText, patch.collapseButtonText)
    ensures r.displayImages == Override(stored.displayImages, patch.displayImages)
    ensures r.showPrice == Override(stored.showPrice, patch.showPrice)
    ensures r.showInventory == Override(stored.showInventory, patch.showInventory)
    ensures r.cardStyle == Override(stored.cardStyle, patch.cardStyle)
    ensures r.selectionMode == Override(stored.selectionMode, patch.selectionMode)
    ensures r.enabledCollections == Override(stored.enabledCollections, patch.enabledCollections)
    ensures r.enabledProducts == Override(stored.enabledProducts, patch.enabledProducts)
    ensures r.enabledTags == Override(stored.enabledTags, patch.enabledTags)
    ensures r.optionSettings == Override(stored.optionSettings, patch.optionSettings)
    ensures r.viewportSettings == Override(stored.viewportSettings, patch.viewportSettings)
    ensures r.styles == Override(stored.styles, patch.styles)
  {
    Settings(
      Override(stored.buttonText, patch.buttonText),
      Override(stored.collapseButtonText, patch.collapseButtonText),
      Override(stored.displayImages, patch.displayImages),
      Override(stored.showPrice, patch.showPrice),
      Override(stored.showInventory, patch.showInventory),
      Override(stored.cardStyle, patch.cardStyle),
      Override(stored.selectionMode, patch.selectionMode),
      Override(stored.enabledCollections, patch.enabledCollections),
      Override(stored.enabledProducts, patch.enabledProducts),
      Override(stored.enabledTags, patch.enabledTags),
      Override(stored.optionSettings, patch.optionSettings),
      Override(stored.viewportSettings, patch.viewportSettings),
      Override(stored.styles, patch.styles))
  }

  /** An update without keys leaves the settings as they are. */
  lemma MergeNoChanges(stored: Settings)
    ensures MergeSettings(stored, NoChanges) == stored
  {
  }

  /** Sending the same update twice is the same as sending it once. */
  lemma MergeIdempotent(stored: Settings, patch: Settings)
    ensures MergeSettings(MergeSettings(stored, patch), patch) == MergeSettings(stored, patch)
  {
  }

  /** Two updates in a row equal one update with the second's keys taking precedence. */
  lemma MergeTwice(stored: Settings, p: Settings, q: Settings)
    ensures MergeSettings(MergeSettings(stored, p), q) == MergeSettings(stored, MergeSettings(p, q))
  {
  }

  /**
   * The spread is shallow: a request holding a sparse nested object drops the
   * stored nested fields it does not mention.
   */
  lemma ShallowNested(stored: Settings, patch: Settings)
    requires patch.styles.Some?
    ensures MergeSettings(stored, patch).styles == patch.styles
    ensures patch.styles.value.borderRadius.None? ==> MergeSettings(stored, patch).styles.value.borderRadius.None?
    ensures patch.viewportSettings.Some? && patch.viewportSettings.value.mobileColumnsCount.None? ==>
      MergeSettings(stored, patch).viewportSettings.value.mobileColumnsCount.None?
  {
  }

  /** GET `/settings`: the stored settings as they are. */
  function GetSettings(shop: Shop): (r: Reply)
    ensures r.SettingsReply? && r.settings == shop.settings
  {
    SettingsReply(shop.settings)
  }

  /**
   * PUT `/settings`: merges the request into the shop's settings, which the
   * assignment casts (the three lists trimmed element by element), and saves;
   * the reply is the cast settings. A save the schema rejects is the 500 and
   * writes nothing.
   */
  method PutSettings(db: Database, shop: Shop, settings: Option<Settings>) returns (reply: Reply)
    modifies db`shops
    ensures var updated := shop.(settings := CastSettings(MergeSettings(shop.settings, settings.GetOr(NoChanges))));
      && (CanSave(old(db.shops), updated) ==>
            reply == SettingsReply(CastSettings(MergeSettings(shop.settings, settings.GetOr(NoChanges))))
            && db.shops == ReplaceShop(old(db.shops), updated.(shopDomain := NormalizeDomain(updated.shopDomain))))
      && (!CanSave(old(db.shops), updated) ==> reply == ErrorReply(500, SettingsUpdateFailed) && db.shops == old(db.shops))
  {
    var updated := shop.(settings := CastSettings(MergeSettings(shop.settings, settings.GetOr(NoChanges))));
    var ok, saved := db.SaveShop(updated);
    if ok {
      reply := SettingsReply(saved.settings);
    } else {
      reply := ErrorReply(500, SettingsUpdateFailed);
    }
  }

  /**
   * PUT `/collections/enabled`: the list in the request (absent included) replaces
   * the stored one, each entry trimmed by the assignment; the reply is the list as
   * the document then holds it.
   */
  method PutEnabledCollections(db: Database, shop: Shop, enabledCollections: Option<seq<string>>) returns (reply: Reply)
    modifies db`shops
    ensures var updated := shop.(settings := shop.settings.(enabledCollections := CastList(enabledCollections)));
      && (CanSave(old(db.shops), updated) ==>
            reply == EnabledCollectionsReply(CastList(enabledCollections))
            && db.shops == ReplaceShop(old(db.shops), updated.(shopDomain := NormalizeDomain(updated.shopDomain))))
      && (!CanSave(old(db.shops), updated) ==> reply == ErrorReply(500, CollectionsUpdateFailed) && db.shops == old(db.shops))
  {
    var updated := shop.(settings := shop.settings.(enabledCollections := CastList(enabledCollections)));
    var ok, saved := db.SaveShop(updated);
    if ok {
      reply := EnabledCollectionsReply(saved.settings.enabledCollections);
    } else {
      reply := ErrorReply(500, CollectionsUpdateFailed);
    }
  }

  /** Replacing the enabled collections is the settings update whose only key is `enabledCollections`. */
  lemma EnabledCollectionsIsMerge(s: Settings, list: seq<string>)
    ensures s.(enabledCollections := Some(list)) == MergeSettings(s, NoChanges.(enabledCollections := Some(list)))
  {
  }

  /** A collection as Shopify's REST API lists it; only three fields reach the console. */
  datatype ShopifyCollection = ShopifyCollection(id: string, title: string, handle: string, bodyHtml: string, sortOrder: string)

  /** An entry of the GET `/collections` reply. */
  datatype Collection = Collection(id: string, title: string, handle: string)

  /** `custom_collections.map(c => ({ id, title, handle }))`. */
  function ProjectCollections(cs: seq<ShopifyCollection>): (r: seq<Collection>)
    ensures |r| == |cs|
    ensures forall i :: 0 <= i < |cs| ==> r[i].id == cs[i].id && r[i].title == cs[i].title && r[i].handle == cs[i].handle
  {
    if cs == [] then []
    else [Collection(cs[0].id, cs[0].title, cs[0].handle)] + ProjectCollections(cs[1..])
  }

  /** The projection of a concatenation is the concatenation of the projections: order is kept. */
  lemma {:induction false} ProjectAppend(a: seq<ShopifyCollection>, b: seq<ShopifyCollection>)
    ensures ProjectCollections(a + b) == ProjectCollections(a) + ProjectCollections(b)
    decreases |a|
  {
    if a == [] {
      assert a + b == b;
    } else {
      assert (a + b)[1..] == a[1..] + b;
      ProjectAppend(a[1..], b);
    }
  }
}

=== FILE: store.dfy ===
/**
 * The two MongoDB collections the core reads and writes, held in memory: the
 * shops in insertion order (`findOne` returns the first match) and the
 * Localization documents keyed by the owning shop's id.
 */
module Store {
  import opened Common
  import opened ShopModel
  import opened LocalizationModel

  /** `Shop.findOne({ shopDomain })`: the first shop whose stored domain equals the normalised query. */
  function FindShopByDomain(shops: seq<Shop>, domain: string): (r: Option<Shop>)
    ensures r.Some? ==> r.value in shops && r.value.shopDomain == NormalizeDomain(domain)
    ensures r.None? ==> forall i :: 0 <= i < |shops| ==> shops[i].shopDomain != NormalizeDomain(domain)
  {
    FirstWith(shops, (s: Shop) => s.shopDomain == NormalizeDomain(domain))
  }

  /** `Shop.findById(id)`. */
  function FindShopById(shops: seq<Shop>, id: string): (r: Option<Shop>)
    ensures r.Some? ==> r.value in shops && r.value.id == id
    ensures r.None? ==> forall i :: 0 <= i < |shops| ==> shops[i].id != id
  {
    FirstWith(shops, (s: Shop) => s.id == id)
  }

  /** The first element satisfying `p`. */
  function FirstWith(shops: seq<Shop>, p: Shop -> bool): (r: Option<Shop>)
    ensures r.Some? ==> r.value in shops && p(r.value)
    ensures r.None? ==> forall i :: 0 <= i < |shops| ==> !p(shops[i])
    ensures r.Some? ==> exists i :: 0 <= i < |shops| && shops[i] == r.value && forall j :: 0 <= j < i ==> !p(shops[j])
  {
    if shops == [] then None
    else if p(shops[0]) then Some(shops[0])
    else
      var r := FirstWith(shops[1..], p);
      assert r.Some? ==> exists i :: 1 <= i < |shops| && shops[i] == r.value && forall j :: 0 <= j < i ==> !p(shops[j]) by {
        if r.Some? {
          var i :| 0 <= i < |shops[1..]| && shops[1..][i] == r.value && forall j :: 0 <= j < i ==> !p(shops[1..][j]);
          assert shops[i + 1] == r.value;
          assert forall j :: 0 <= j < i + 1 ==> !p(shops[j]) by {
            forall j | 0 <= j < i + 1 ensures !p(shops[j]) {
              if j > 0 { assert shops[j] == shops[1..][j - 1]; }
            }
          }
        }
      }
      r
  }

  /** The shops with the document of id `s.id` replaced by `s`. */
  function ReplaceShop(shops: seq<Shop>, s: Shop): (r: seq<Shop>)
    ensures |r| == |shops|
    ensures forall i :: 0 <= i < |shops| ==> r[i] == if shops[i].id == s.id then s else shops[i]
  {
    seq(|shops|, i requires 0 <= i < |shops| => if shops[i].id == s.id then s else shops[i])
  }

  /** A shop may be saved: its settings pass the enum validators, its domain is present and no other shop holds it. */
  predicate CanSave(shops: seq<Shop>, s: Shop) {
    && ValidSettings(s.settings)
    && NormalizeDomain(s.shopDomain) != ""
    && (exists i :: 0 <= i < |shops| && shops[i].id == s.id)
    && forall i :: 0 <= i < |shops| && shops[i].id != s.id ==> shops[i].shopDomain != NormalizeDomain(s.shopDomain)
  }

  class Database {
    var shops: seq<Shop>
    var localizations: map<string, LocalizationRecord>

    constructor (shops: seq<Shop>, localizations: map<string, LocalizationRecord>)
      ensures this.shops == shops && this.localizations == localizations
    {
      this.shops := shops;
      this.localizations := localizations;
    }

    /** `Localization.findOne({ shopId })`: a fresh in-memory document, or null. */
    method FindLocalization(shopId: string) returns (doc: Localization?)
      ensures doc == null <==> shopId !in localizations
      ensures doc != null ==> fresh(doc) && doc.Record() == localizations[shopId]
    {
      if shopId in localizations {
        doc := new Localization(localizations[shopId]);
      } else {
        doc := null;
      }
    }

    /** `localization.save()`: the document's state becomes the stored record for its shop. */
    method SaveLocalization(doc: Localization)
      modifies this`localizations
      ensures localizations == old(localizations)[doc.shopId := doc.Record()]
    {
      localizations := localizations[doc.shopId := doc.Record()];
    }

    /**
     * `shop.save()`: validates, applies the domain setters and replaces the stored
     * document; a rejected save (the route's 500) writes nothing. The element
     * setters of the list fields run when a handler assigns them (`CastSettings`),
     * so the document arrives here with its list entries already trimmed.
     */
    method SaveShop(s: Shop) returns (ok: bool, saved: Shop)
      modifies this`shops
      ensures ok <==> CanSave(old(shops), s)
      ensures saved == s.(shopDomain := NormalizeDomain(s.shopDomain))
      ensures shops == if ok then ReplaceShop(old(shops), saved) else old(shops)
    {
      saved := s.(shopDomain := NormalizeDomain(s.shopDomain));
      ok := CanSave(shops, s);
      if ok {
        shops := ReplaceShop(shops, saved);
      }
    }
  }
}

=== FILE: storefront.dfy ===
/**
 * The storefront script (theme-app-extension/assets/variant-expander.js): which
 * pages it runs on, the configuration it fetches over its built-in defaults,
 * the expander button it adds to each product card, the variant cards it
 * builds, and the set of products currently expanded.
 *
 * The page's path, the fetched configuration, the product cards and the
 * product JSON are parameters; the DOM is reduced to the cards' links and
 * buttons.
 */
module Storefront {
  import opened Common
  import opened Strings
  import PublicRoutes

  // ---------------------------------------------------------------------------
  // Pages

  /** `isCollectionPage()`: the path has `/collections/` and no `/products/`. */
  function IsCollectionPage(path: string): (b: bool)
    ensures b <==> (exists i: nat :: OccursAt(path, "/collections/", i)) && !(exists i: nat :: OccursAt(path, "/products/", i))
  {
    Includes(path, "/collections/") && !Includes(path, "/products/")
  }

  /**
   * The collection handle read from the path: the segment after the first
   * `/collections/`, up to the next `/` (or the end of the path).
   */
  function CollectionHandle(path: string): (h: Option<string>)
    ensures h.None? <==> !Includes(path, "/collections/")
    ensures h.Some? ==>
      var rest := path[IndexOf(path, "/collections/").value + 13..];
      && h.value <= rest && !Includes(h.value, "/")
      && (|h.value| == |rest| || OccursAt(rest, "/", |h.value|) || OccursAt(rest, "/collections/", |h.value|))
  {
    SegmentAfter(path, "/collections/", "/")
  }

  /**
   * `isCollectionEnabled()`: every collection when the list is empty, otherwise
   * only a collection whose handle is listed.
   */
  function IsCollectionEnabled(path: string, enabled: seq<string>): (b: bool)
    ensures enabled == [] ==> b
    ensures enabled != [] ==> (b <==> CollectionHandle(path).Some? && CollectionHandle(path).value in enabled)
  {
    if |enabled| == 0 then true
    else
      match CollectionHandle(path)
      case None => false
      case Some(h) => h in enabled
  }

  // ---------------------------------------------------------------------------
  // Configuration

  /** The fields of `config` the script reads. */
  datatype ClientConfig = ClientConfig(
    buttonText: string,
    collapseButtonText: string,
    displayImages: bool,
    showPrice: bool,
    showInventory: bool,
    cardStyle: string,
    enabledCollections: seq<string>)

  /** The script's built-in configuration. */
  const InitialConfig := ClientConfig("Show all variants", "Hide variants", true, true, false, "standard", [])

  /** The same fields of the fetched `data.config`; `None` is a key the JSON does not carry. */
  datatype FetchedConfig = FetchedConfig(
    buttonText: Option<string>,
    collapseButtonText: Option<string>,
    displayImages: Option<bool>,
    showPrice: Option<bool>,
    showInventory: Option<bool>,
    cardStyle: Option<string>,
    enabledCollections: Option<seq<string>>)

  /** `{ ...config, ...data.config }`: each key the server sends replaces the local one. */
  function Overlay(c: ClientConfig, f: FetchedConfig): (r: ClientConfig)
    ensures f.buttonText.Some? ==> r.buttonText == f.buttonText.value
    ensures f.buttonText.None? ==> r.buttonText == c.buttonText
    ensures f.collapseButtonText.Some? ==> r.collapseButtonText == f.collapseButtonText.value
    ensures f.collapseButtonText.None? ==> r.collapseButtonText == c.collapseButtonText
    ensures f.displayImages.Some? ==> r.displayImages == f.displayImages.value
    ensures f.displayImages.None? ==> r.displayImages == c.displayImages
    ensures f.showPrice.Some? ==> r.showPrice == f.showPrice.value
    ensures f.showPrice.None? ==> r.showPrice == c.showPrice
    ensures f.showInventory.Some? ==> r.showInventory == f.showInventory.value
    ensures f.showInventory.None? ==> r.showInventory == c.showInventory
    ensures f.cardStyle.Some? ==> r.cardStyle == f.cardStyle.value
    ensures f.cardStyle.None? ==> r.cardStyle == c.cardStyle
    ensures f.enabledCollections.Some? ==> r.enabledCollections == f.enabledCollections.value
    ensures f.enabledCollections.None? ==> r.enabledCollections == c.enabledCollections
  {
    ClientConfig(
      f.buttonText.GetOr(c.buttonText),
      f.collapseButtonText.GetOr(c.collapseButtonText),
      f.displayImages.GetOr(c.displayImages),
      f.showPrice.GetOr(c.showPrice),
      f.showInventory.GetOr(c.showInventory),
      f.cardStyle.GetOr(c.cardStyle),
      f.enabledCollections.GetOr(c.enabledCollections))
  }

  /** A response without keys leaves the configuration as it is. */
  lemma OverlayNothing(c: ClientConfig)
    ensures Overlay(c, FetchedConfig(None, None, None, None, None, None, None)) == c
  {
  }

  /** Applying the same response twice is the same as applying it once. */
  lemma OverlayIdempotent(c: ClientConfig, f: FetchedConfig)
    ensures Overlay(Overlay(c, f), f) == Overlay(c, f)
  {
  }

  /** The JSON of the configuration endpoint's `config`: keys whose value is `undefined` are not sent. */
  function FromPublic(pc: PublicRoutes.PublicConfig): FetchedConfig {
    FetchedConfig(pc.buttonText, pc.collapseButtonText, pc.displayImages, pc.showPrice, pc.showInventory,
                  pc.cardStyle, Some(pc.enabledCollections))
  }

  /**
   * After a successful fetch the script's list is exactly the one the endpoint
   * served, while a button text the shop does not store keeps the built-in one.
   */
  lemma FetchedCollectionsServed(c: ClientConfig, pc: PublicRoutes.PublicConfig)
    ensures Overlay(c, FromPublic(pc)).enabledCollections == pc.enabledCollections
    ensures pc.buttonText.None? ==> Overlay(c, FromPublic(pc)).buttonText == c.buttonText
  {
  }

  // ---------------------------------------------------------------------------
  // Product cards and their expander buttons

  datatype ExpanderButton = ExpanderButton(productHandle: string, text: string)

  /** A product card on the collection page: the `href`s of its links, in document order, and its expander button. */
  datatype Card = Card(links: seq<string>, button: Option<ExpanderButton>)

  /** `card.querySelector('a[href*="/products/"]')`: the first link whose `href` contains `/products/`. */
  function ProductLink(links: seq<string>): (r: Option<string>)
    ensures r.Some? ==> r.value in links && Includes(r.value, "/products/")
    ensures r.Some? ==> exists i :: 0 <= i < |links| && links[i] == r.value && forall j :: 0 <= j < i ==> !Includes(links[j], "/products/")
    ensures r.None? ==> forall i :: 0 <= i < |links| ==> !Includes(links[i], "/products/")
  {
    if links == [] then None
    else if Includes(links[0], "/products/") then Some(links[0])
    else
      var r := ProductLink(links[1..]);
      assert r.Some? ==> exists i :: 0 <= i < |links| && links[i] == r.value && forall j :: 0 <= j < i ==> !Includes(links[j], "/products/") by {
        if r.Some? {
          var i :| 0 <= i < |links[1..]| && links[1..][i] == r.value && forall j :: 0 <= j < i ==> !Includes(links[1..][j], "/products/");
          assert links[i + 1] == r.value;
          forall j | 0 <= j < i + 1
            ensures !Includes(links[j], "/products/")
          {
            if j > 0 { assert links[j] == links[1..][j - 1]; }
          }
        }
      }
      r
  }

  /**
   * `productHref.split('/products/')[1]?.split('?')[0]`: the text after the first
   * `/products/`, up to the query string, a second `/products/` or the end.
   */
  function ProductHandle(href: string): (h: Option<string>)
    ensures h.None? <==> !Includes(href, "/products/")
    ensures h.Some? ==>
      var rest := href[IndexOf(href, "/products/").value + 10..];
      && h.value <= rest && !Includes(h.value, "?")
      && (|h.value| == |rest| || OccursAt(rest, "?", |h.value|) || OccursAt(rest, "/products/", |h.value|))
  {
    SegmentAfter(href, "/products/", "?")
  }

  /** The handle a card's button would carry; `None` when the card has no product link or the handle is empty. */
  function CardHandle(card: Card): (h: Option<string>)
    ensures h.Some? ==> h.value != ""
    ensures ProductLink(card.links).None? ==> h.None?
    ensures ProductLink(card.links).Some? ==>
      var handle := ProductHandle(ProductLink(card.links).value);
      (Truthy(handle) ==> h == handle) && (!Truthy(handle) ==> h.None?)
  {
    match ProductLink(card.links)
    case None => None
    case Some(href) =>
      var handle := ProductHandle(href);
      if Truthy(handle) then handle else None
  }

  /** One card after `addExpanderButtons`. */
  function WithButton(card: Card, text: string): (r: Card)
    ensures r.links == card.links
    ensures card.button.Some? ==> r == card
    ensures CardHandle(card).None? ==> r == card
    ensures card.button.None? && CardHandle(card).Some? ==> r.button == Some(ExpanderButton(CardHandle(card).value, text))
  {
    if card.button.Some? then card
    else
      match CardHandle(card)
      case None => card
      case Some(h) => card.(button := Some(ExpanderButton(h, text)))
  }

  /** The `forEach` callback of `addExpanderButtons`: the checks in the order the script makes them. */
  method AddButtonTo(card: Card, text: string) returns (r: Card)
    ensures r == WithButton(card, text)
  {
    r := card;
    var link := ProductLink(card.links);
    if link.None? {
      return;
    }
    var handle := ProductHandle(link.value);
    if !Truthy(handle) {
      return;
    }
    if card.button.Some? {
      return;
    }
    r := card.(button := Some(ExpanderButton(handle.value, text)));
  }

  /** Running `addExpanderButtons` again adds nothing: a card never gets a second button. */
  lemma WithButtonTwice(card: Card, text: string, later: string)
    ensures WithButton(WithButton(card, text), later) == WithButton(card, text)
  {
  }

  // ---------------------------------------------------------------------------
  // Variant cards

  /** A product image; `variantIds` is absent on images not tied to variants. */
  datatype Image = Image(src: Option<string>, variantIds: Option<seq<int>>)

  datatype Variant = Variant(id: int, title: string, available: bool, featuredImage: Option<Image>)

  /** The product JSON `/products/<handle>.js` returns, reduced to what the cards use. */
  datatype Product = Product(images: seq<Image>, variants: seq<Variant>)

  /** `product.images.find(image => image.variant_ids && image.variant_ids.includes(variant.id))`. */
  function ImageOfVariant(images: seq<Image>, id: int): (r: Option<Image>)
    ensures r.Some? ==> r.value in images && r.value.variantIds.Some? && id in r.value.variantIds.value
    ensures r.None? ==> forall i :: 0 <= i < |images| ==> images[i].variantIds.None? || id !in images[i].variantIds.value
    ensures r.Some? ==> exists i :: (0 <= i < |images| && images[i] == r.value
      && forall j :: 0 <= j < i ==> images[j].variantIds.None? || id !in images[j].variantIds.value)
  {
    if images == [] then None
    else if images[0].variantIds.Some? && id in images[0].variantIds.value then Some(images[0])
    else
      var r := ImageOfVariant(images[1..], id);
      assert r.Some? ==> exists i :: (0 <= i < |images| && images[i] == r.value
        && forall j :: 0 <= j < i ==> images[j].variantIds.None? || id !in images[j].variantIds.value)
      by {
        if r.Some? {
          var i :| 0 <= i < |images[1..]| && images[1..][i] == r.value
            && forall j :: 0 <= j < i ==> images[1..][j].variantIds.None? || id !in images[1..][j].variantIds.value;
          assert images[i + 1] == r.value;
          assert forall j :: 1 <= j < i + 1 ==> images[j] == images[1..][j - 1];
        }
      }
      r
  }

  /**
   * `getVariantImage(product, variant)`: the variant's featured image, else the
   * first image listing the variant, else the first image's `src` when truthy,
   * else none.
   */
  function VariantImage(product: Product, variant: Variant): (r: Option<string>)
    ensures variant.featuredImage.Some? ==> r == variant.featuredImage.value.src
    ensures variant.featuredImage.None? && ImageOfVariant(product.images, variant.id).Some? ==>
      r == ImageOfVariant(product.images, variant.id).value.src
    ensures variant.featuredImage.None? && ImageOfVariant(product.images, variant.id).None? ==>
      (r.Some? <==> |product.images| > 0 && Truthy(product.images[0].src))
    ensures r.Some? && variant.featuredImage.None? ==> exists i :: 0 <= i < |product.images| && product.images[i].src == r
  {
    if variant.featuredImage.Some? then variant.featuredImage.value.src
    else
      match ImageOfVariant(product.images, variant.id)
      case Some(image) => image.src
      case None =>
        if |product.images| > 0 && Truthy(product.images[0].src) then product.images[0].src else None
  }

  /** The "Add to Cart" button of a variant card. */
  datatype AddButton = AddButton(variantId: int, text: string, disabled: bool)

  function AddButtonFor(v: Variant): (b: AddButton)
    ensures b.disabled <==> !v.available
    ensures b.text == (if v.available then "Add to Cart" else "Sold Out")
    ensures b.variantId == v.id
  {
    AddButton(v.id, if v.available then "Add to Cart" else "Sold Out", !v.available)
  }

  /** What a variant card shows; the price text and the image URL rewrite are not modelled. */
  datatype VariantCard = VariantCard(
    className: string,
    image: Option<string>,
    title: string,
    showsPrice: bool,
    inventory: Option<string>,
    addButton: AddButton)

  /** `createVariantCard(product, variant)` under the current configuration. */
  function CreateVariantCard(c: ClientConfig, product: Product, variant: Variant): (card: VariantCard)
    ensures card.className == "variant-card variant-" + c.cardStyle
    ensures card.image.Some? <==> c.displayImages && Truthy(VariantImage(product, variant))
    ensures card.image.Some? ==> card.image == VariantImage(product, variant)
    ensures card.title == variant.title && card.showsPrice == c.showPrice
    ensures card.inventory.Some? <==> c.showInventory
    ensures card.inventory.Some? ==> card.inventory.value == (if variant.available then "Available" else "Sold out")
    ensures card.addButton == AddButtonFor(variant)
  {
    var image := VariantImage(product, variant);
    VariantCard(
      "variant-card variant-" + c.cardStyle,
      if c.displayImages && Truthy(image) then image else None,
      variant.title,
      c.showPrice,
      if c.showInventory then Some(if variant.available then "Available" else "Sold out") else None,
      AddButtonFor(variant))
  }

  // ---------------------------------------------------------------------------
  // Expanding and collapsing

  /**
   * The expanded set after a click on the button of `handle`: an expanded product
   * collapses when its container is found; any other expands when its product
   * JSON arrives.
   */
  function ClickStep(expanded: set<string>, handle: string, fetchOk: bool, containerFound: bool): (r: set<string>)
    ensures forall h :: h != handle ==> (h in r <==> h in expanded)
    ensures handle in expanded ==> (handle in r <==> !containerFound)
    ensures handle !in expanded ==> (handle in r <==> fetchOk)
  {
    if handle in expanded then (if containerFound then expanded - {handle} else expanded)
    else (if fetchOk then expanded + {handle} else expanded)
  }

  /** Expanding and then collapsing a product restores the expanded set. */
  lemma ExpandThenCollapse(expanded: set<string>, handle: string, found: bool)
    requires handle !in expanded
    ensures ClickStep(ClickStep(expanded, handle, true, found), handle, found, true) == expanded
  {
  }

  /** A failed expansion or a missing container changes nothing. */
  lemma FailedClickKeeps(expanded: set<string>, handle: string)
    ensures ClickStep(expanded, handle, false, false) == expanded
  {
  }

  /** The running script: its configuration and the handles of the products shown expanded. */
  class Expander {
    var config: ClientConfig
    var expanded: set<string>

    constructor ()
      ensures config == InitialConfig && expanded == {}
    {
      config := InitialConfig;
      expanded := {};
    }

    /** `fetchConfig()`: `fetched` is `None` when the request fails or the reply has no `config`. */
    method FetchConfig(fetched: Option<FetchedConfig>)
      modifies this`config
      ensures fetched.Some? ==> config == Overlay(old(config), fetched.value)
      ensures fetched.None? ==> config == old(config)
    {
      if fetched.Some? {
        config := Overlay(config, fetched.value);
      }
    }

    /** `addExpanderButtons()` over the page's product cards. */
    method AddExpanderButtons(cards: array<Card>)
      modifies cards
      ensures forall i :: 0 <= i < cards.Length ==> cards[i] == WithButton(old(cards[i]), config.buttonText)
    {
      var text := config.buttonText;
      var i := 0;
      while i < cards.Length
        invariant 0 <= i <= cards.Length
        invariant forall k :: 0 <= k < i ==> cards[k] == WithButton(old(cards[k]), text)
        invariant forall k :: i <= k < cards.Length ==> cards[k] == old(cards[k])
      {
        cards[i] := AddButtonTo(cards[i], text);
        i := i + 1;
      }
    }

    /** `init()`: only on an enabled collection page does the script add its buttons. */
    method Init(path: string, fetched: Option<FetchedConfig>, cards: array<Card>) returns (active: bool)
      modifies this`config, cards
      ensures !IsCollectionPage(path) ==> config == old(config)
      ensures IsCollectionPage(path) ==> config == (if fetched.Some? then Overlay(old(config), fetched.value) else old(config))
      ensures active <==> IsCollectionPage(path) && IsCollectionEnabled(path, config.enabledCollections)
      ensures active ==> forall i :: 0 <= i < cards.Length ==> cards[i] == WithButton(old(cards[i]), config.buttonText)
      ensures !active ==> cards[..] == old(cards[..])
    {
      if !IsCollectionPage(path) {
        return false;
      }
      FetchConfig(fetched);
      if !IsCollectionEnabled(path, config.enabledCollections) {
        return false;
      }
      AddExpanderButtons(cards);
      active := true;
    }

    /**
     * A click on the expander button of `handle`. `fetched` is the product JSON
     * (`None` when the request fails), `containerFound` whether the button's
     * parent holds the product's variant container. Returns the button's new text
     * (`None`: unchanged) and the variant cards an expansion inserts.
     */
    method OnExpanderClick(handle: string, fetched: Option<Product>, containerFound: bool)
      returns (buttonText: Option<string>, variantCards: seq<VariantCard>)
      modifies this`expanded
      ensures expanded == ClickStep(old(expanded), handle, fetched.Some?, containerFound)
      ensures handle in old(expanded) ==> variantCards == [] && buttonText == (if containerFound then Some(config.buttonText) else None)
      ensures handle !in old(expanded) && fetched.None? ==> variantCards == [] && buttonText == Some(config.buttonText)
      ensures handle !in old(expanded) && fetched.Some? ==>
        && buttonText == Some(config.collapseButtonText)
        && |variantCards| == |fetched.value.variants|
        && forall i :: 0 <= i < |variantCards| ==>
             variantCards[i] == CreateVariantCard(config, fetched.value, fetched.value.variants[i])
    {
      variantCards := [];
      if handle in expanded {
        buttonText := None;
        if containerFound {
          buttonText := Some(config.buttonText);
          expanded := expanded - {handle};
        }
      } else if fetched.None? {
        buttonText := Some(config.buttonText);
      } else {
        var product := fetched.value;
        var i := 0;
        while i < |product.variants|
          invariant 0 <= i <= |product.variants|
          invariant |variantCards| == i
          invariant forall k :: 0 <= k < i ==> variantCards[k] == CreateVariantCard(config, product, product.variants[k])
        {
          variantCards := variantCards + [CreateVariantCard(config, product, product.variants[i])];
          i := i + 1;
        }
        buttonText := Some(config.collapseButtonText);
        expanded := expanded + {handle};
      }
    }
  }
}

=== FILE: strings.dfy ===
/**
 * The JavaScript string operations the core relies on, over `seq<char>`:
 * `includes`, `indexOf`, `split` with a non-empty separator, `trim`, an ASCII
 * `toLowerCase`, and the code-point order `Array.prototype.sort` uses by default.
 */
module Strings {
  import opened Common

  /** `sub` occurs in `s` at index `i`. */
  predicate OccursAt(s: string, sub: string, i: nat) {
    i + |sub| <= |s| && s[i..i + |sub|] == sub
  }

  /** The first index at or after `i` where `sub` occurs in `s`. */
  function IndexFrom(s: string, sub: string, i: nat): (r: Option<nat>)
    requires i <= |s|
    decreases |s| - i
    ensures r.Some? ==> i <= r.value <= |s| && OccursAt(s, sub, r.value)
    ensures r.Some? ==> forall j: nat :: i <= j < r.value ==> !OccursAt(s, sub, j)
    ensures r.None? ==> forall j: nat :: i <= j ==> !OccursAt(s, sub, j)
  {
    if OccursAt(s, sub, i) then Some(i)
    else if i == |s| then None
    else IndexFrom(s, sub, i + 1)
  }

  /** `s.indexOf(sub)`, with `None` for -1. */
  function IndexOf(s: string, sub: string): (r: Option<nat>)
    ensures r.Some? ==> OccursAt(s, sub, r.value) && forall j: nat :: j < r.value ==> !OccursAt(s, sub, j)
    ensures r.None? ==> forall j: nat :: !OccursAt(s, sub, j)
  {
    IndexFrom(s, sub, 0)
  }

  /** `s.includes(sub)`. */
  function Includes(s: string, sub: string): (b: bool)
    ensures b <==> exists j: nat :: OccursAt(s, sub, j)
  {
    IndexOf(s, sub).Some?
  }

  /** `s.split(sep)` for a non-empty separator: the pieces between the occurrences of `sep`. */
  function Split(s: string, sep: string): (parts: seq<string>)
    requires |sep| > 0
    decreases |s|
    ensures |parts| >= 1
  {
    match IndexOf(s, sep)
    case None => [s]
    case Some(i) => [s[..i]] + Split(s[i + |sep|..], sep)
  }

  /** `parts.join(sep)`. */
  function Join(parts: seq<string>, sep: string): string
    requires |parts| >= 1
    decreases |parts|
  {
    if |parts| == 1 then parts[0] else parts[0] + sep + Join(parts[1..], sep)
  }

  /** Joining a piece in front of at least one other piece puts one separator between them. */
  lemma JoinCons(x: string, parts: seq<string>, sep: string)
    requires |parts| >= 1
    ensures Join([x] + parts, sep) == x + sep + Join(parts, sep)
  {
    assert ([x] + parts)[1..] == parts;
  }

  /** Joining the pieces of a split with the same separator gives back the string. */
  lemma {:induction false} SplitJoin(s: string, sep: string)
    requires |sep| > 0
    ensures Join(Split(s, sep), sep) == s
    decreases |s|
  {
    var first := IndexOf(s, sep);
    if first.Some? {
      var i := first.value;
      var rest := s[i + |sep|..];
      SplitJoin(rest, sep);
      JoinAround(s, i, sep, Split(rest, sep));
    }
  }

  /** Cutting out one occurrence of `sep` and gluing the two sides back with `sep` is the identity. */
  lemma Around(s: string, i: nat, sep: string)
    requires i + |sep| <= |s| && s[i..i + |sep|] == sep
    ensures s[..i] + sep + s[i + |sep|..] == s
  {
    assert s[..i] + s[i..i + |sep|] == s[..i + |sep|];
    assert s[..i + |sep|] + s[i + |sep|..] == s;
  }

  /** A piece, the separator, and pieces that join to the rest, join to the whole string. */
  lemma JoinAround(s: string, i: nat, sep: string, parts: seq<string>)
    requires i + |sep| <= |s| && s[i..i + |sep|] == sep && |parts| >= 1
    requires Join(parts, sep) == s[i + |sep|..]
    ensures Join([s[..i]] + parts, sep) == s
  {
    JoinCons(s[..i], parts, sep);
    Around(s, i, sep);
  }

  /** No piece of a split contains the separator. */
  lemma {:induction false} SplitPiecesFree(s: string, sep: string)
    requires |sep| > 0
    ensures forall k :: 0 <= k < |Split(s, sep)| ==> !Includes(Split(s, sep)[k], sep)
    decreases |s|
  {
    match IndexOf(s, sep)
    case None =>
    case Some(i) =>
      var rest := s[i + |sep|..];
      SplitPiecesFree(rest, sep);
      forall j: nat | OccursAt(s[..i], sep, j)
        ensures false
      {
        assert s[..i][j..j + |sep|] == s[j..j + |sep|];
        assert OccursAt(s, sep, j);
      }
  }

  /**
   * The first piece of a split is the prefix of `s` that ends where `sep` first
   * occurs, or all of `s` when it does not occur.
   */
  lemma SplitHead(s: string, sep: string)
    requires |sep| > 0
    ensures var h := Split(s, sep)[0];
      && h <= s
      && (IndexOf(s, sep).None? ==> h == s)
      && (IndexOf(s, sep).Some? ==> |h| == IndexOf(s, sep).value)
  {
  }

  /** The second piece of a split starts right after the first occurrence of `sep`. */
  lemma SplitSecond(s: string, sep: string)
    requires |sep| > 0
    requires IndexOf(s, sep).Some?
    ensures |Split(s, sep)| >= 2
    ensures Split(s, sep)[1] == Split(s[IndexOf(s, sep).value + |sep|..], sep)[0]
  {
  }

  /**
   * `s.split(marker)[1]?.split(stop)[0]`: the text after the first `marker` up to
   * the next `stop` or `marker`; `None` (`undefined`) when `marker` does not occur.
   */
  function SegmentAfter(s: string, marker: string, stop: string): (r: Option<string>)
    requires |marker| > 0 && |stop| > 0
    ensures r.None? <==> !Includes(s, marker)
    ensures r.Some? ==>
      var rest := s[IndexOf(s, marker).value + |marker|..];
      && r.value <= rest
      && !Includes(r.value, stop) && !Includes(r.value, marker)
      && (|r.value| == |rest| || OccursAt(rest, stop, |r.value|) || OccursAt(rest, marker, |r.value|))
  {
    var parts := Split(s, marker);
    if |parts| < 2 then
      SplitHead(s, marker);
      None
    else
      SplitSecond(s, marker);
      var rest := s[IndexOf(s, marker).value + |marker|..];
      var piece := parts[1];
      SplitHead(rest, marker);
      var h := Split(piece, stop)[0];
      SplitHead(piece, stop);
      SplitPiecesFree(piece, stop);
      assert Split(piece, stop)[0] == h;
      SegmentEnds(rest, piece, h, marker, stop);
      SplitPiecesFree(rest, marker);
      PrefixExcludes(h, piece, marker);
      Some(h)
  }

  /** A prefix of a string without `sub` has no `sub` either. */
  lemma PrefixExcludes(h: string, s: string, sub: string)
    requires h <= s && !Includes(s, sub)
    ensures !Includes(h, sub)
  {
    forall j: nat | OccursAt(h, sub, j)
      ensures false
    {
      assert s[j..j + |sub|] == h[j..j + |sub|];
      assert OccursAt(s, sub, j);
    }
  }

  /** Where a prefix of a prefix of `rest` stops: at the end, at `stop`, or at `marker`. */
  lemma SegmentEnds(rest: string, piece: string, h: string, marker: string, stop: string)
    requires |marker| > 0 && |stop| > 0
    requires piece == Split(rest, marker)[0] && h == Split(piece, stop)[0]
    ensures h <= rest
    ensures |h| == |rest| || OccursAt(rest, stop, |h|) || OccursAt(rest, marker, |h|)
  {
    SplitHead(rest, marker);
    SplitHead(piece, stop);
    if |h| < |piece| {
      var j := |h|;
      assert OccursAt(piece, stop, j);
      assert rest[j..j + |stop|] == piece[j..j + |stop|];
    } else if |h| < |rest| {
      assert |h| == |piece|;
      assert OccursAt(rest, marker, |piece|);
    }
  }

  /**
   * JavaScript's white space and line terminators, as `String.prototype.trim` removes
   * them: tab through carriage return, space, no-break space, ogham space mark, the
   * en quad through hair space, line and paragraph separators, narrow no-break
   * space, medium mathematical space, ideographic space and the byte order mark.
   */
  predicate IsWhitespace(c: char) {
    || '\t' <= c <= '\r'
    || c == ' ' || c == '\U{00A0}' || c == '\U{1680}'
    || '\U{2000}' <= c <= '\U{200A}'
    || c == '\U{2028}' || c == '\U{2029}' || c == '\U{202F}' || c == '\U{205F}'
    || c == '\U{3000}' || c == '\U{FEFF}'
  }

  /** `s.trimStart()`: the suffix left after dropping leading white space (see `TrimStartFacts`). */
  function TrimStart(s: string): (r: string)
    ensures |r| <= |s|
  {
    if |s| > 0 && IsWhitespace(s[0]) then TrimStart(s[1..]) else s
  }

  /** `trimStart` drops exactly the leading white space: a suffix that starts with anything else. */
  lemma {:induction false} TrimStartFacts(s: string)
    ensures TrimStart(s) == s[|s| - |TrimStart(s)|..]
    ensures TrimStart(s) == [] || !IsWhitespace(TrimStart(s)[0])
    ensures forall k :: 0 <= k < |s| - |TrimStart(s)| ==> IsWhitespace(s[k])
  {
    if |s| > 0 && IsWhitespace(s[0]) {
      TrimStartFacts(s[1..]);
      forall k | 0 < k < |s| - |TrimStart(s)|
        ensures IsWhitespace(s[k])
      {
        assert s[k] == s[1..][k - 1];
      }
    }
  }

  /** `s.trimEnd()`: the prefix left after dropping trailing white space (see `TrimEndFacts`). */
  function TrimEnd(s: string): (r: string)
    ensures |r| <= |s|
  {
    if |s| > 0 && IsWhitespace(s[|s| - 1]) then TrimEnd(s[..|s| - 1]) else s
  }

  /** `trimEnd` drops exactly the trailing white space: a prefix that ends with anything else. */
  lemma {:induction false} TrimEndFacts(s: string)
    ensures TrimEnd(s) <= s
    ensures TrimEnd(s) == [] || !IsWhitespace(TrimEnd(s)[|TrimEnd(s)| - 1])
    ensures forall k :: |TrimEnd(s)| <= k < |s| ==> IsWhitespace(s[k])
  {
    if |s| > 0 && IsWhitespace(s[|s| - 1]) {
      TrimEndFacts(s[..|s| - 1]);
      forall k | |TrimEnd(s)| <= k < |s| - 1
        ensures IsWhitespace(s[k])
      {
        assert s[k] == s[..|s| - 1][k];
      }
    }
  }

  /**
   * `r` is `s` with white space dropped at both ends: the infix of `s` starting at
   * `i`, with only white space before it and after it.
   */
  predicate IsTrimOf(s: string, r: string, i: nat) {
    && i + |r| <= |s| && r == s[i..i + |r|]
    && (forall k :: 0 <= k < i ==> IsWhitespace(s[k]))
    && (forall k :: i + |r| <= k < |s| ==> IsWhitespace(s[k]))
  }

  /** `s.trim()`: `trimEnd` after `trimStart` (see `TrimFacts`). */
  function Trim(s: string): (r: string)
    ensures |r| <= |s|
  {
    TrimEnd(TrimStart(s))
  }

  /**
   * The two halves of `trim` together remove exactly the white space at both ends:
   * what is left is the infix of `s` after its leading white space (what `trimStart`
   * drops) with only white space after it; it starts and ends with a character that
   * is not white space, and it is empty exactly when `s` is all white space.
   */
  lemma TrimFacts(s: string)
    ensures IsTrimOf(s, Trim(s), |s| - |TrimStart(s)|)
    ensures Trim(s) == [] || (!IsWhitespace(Trim(s)[0]) && !IsWhitespace(Trim(s)[|Trim(s)| - 1]))
    ensures Trim(s) == [] <==> forall k :: 0 <= k < |s| ==> IsWhitespace(s[k])
  {
    var t := TrimStart(s);
    var r := TrimEnd(t);
    var d := |s| - |t|;
    TrimStartFacts(s);
    TrimEndFacts(t);
    TrimInfix(s, t, r, d);
    if r == [] {
      assert t == [];
    } else {
      assert r[0] == t[0];
    }
  }

  /** The infix half of `TrimFacts`. */
  lemma TrimInfix(s: string, t: string, r: string, d: nat)
    requires d <= |s| && t == s[d..] && r <= t
    requires forall k :: 0 <= k < d ==> IsWhitespace(s[k])
    requires forall k :: |r| <= k < |t| ==> IsWhitespace(t[k])
    ensures IsTrimOf(s, r, d)
  {
    assert r == s[d..d + |r|];
    forall k | d + |r| <= k < |s|
      ensures IsWhitespace(s[k])
    {
      assert s[k] == t[k - d];
    }
  }

  /** The trimmed string has nothing left to trim. */
  lemma TrimIdempotent(s: string)
    ensures Trim(Trim(s)) == Trim(s)
  {
    TrimFacts(s);
    TrimOfTrimmed(Trim(s));
  }

  /** A string that starts and ends with a character that is not white space is its own trim. */
  lemma TrimOfTrimmed(s: string)
    requires s == [] || (!IsWhitespace(s[0]) && !IsWhitespace(s[|s| - 1]))
    ensures Trim(s) == s
  {
    assert TrimStart(s) == s;
    assert TrimEnd(s) == s;
  }

  /** A leading space before a trimmed string is all that `trim` removes. */
  lemma TrimLeadingSpace(s: string)
    requires s != [] && !IsWhitespace(s[0]) && !IsWhitespace(s[|s| - 1])
    ensures Trim([' '] + s) == s
  {
    assert ([' '] + s)[1..] == s;
    assert TrimStart(s) == s;
    assert TrimStart([' '] + s) == s;
    assert TrimEnd(s) == s;
  }

  /**
   * Each string of a list, trimmed: what Mongoose's element setter makes of a list
   * assigned to or pushed onto an array of `{ type: String, trim: true }`.
   */
  function TrimAll(xs: seq<string>): (r: seq<string>)
    ensures |r| == |xs|
    ensures forall k :: 0 <= k < |xs| ==> r[k] == Trim(xs[k])
  {
    seq(|xs|, k requires 0 <= k < |xs| => Trim(xs[k]))
  }

  /** No element of the list has white space to trim. */
  predicate Trimmed(xs: seq<string>) {
    forall k :: 0 <= k < |xs| ==> Trim(xs[k]) == xs[k]
  }

  /** A trimmed list is what the element setter leaves, and trimming it again changes nothing. */
  lemma TrimAllTrimmed(xs: seq<string>)
    ensures Trimmed(TrimAll(xs))
    ensures Trimmed(xs) ==> TrimAll(xs) == xs
  {
    forall k | 0 <= k < |xs|
      ensures Trim(TrimAll(xs)[k]) == TrimAll(xs)[k]
    {
      TrimIdempotent(xs[k]);
    }
  }

  /** ASCII case folding of one character. */
  function LowerChar(c: char): char {
    if 'A' <= c <= 'Z' then (c as int + 32) as char else c
  }

  /** Folding a character never makes or unmakes white space. */
  lemma LowerCharWhitespace(c: char)
    ensures IsWhitespace(LowerChar(c)) <==> IsWhitespace(c)
  {
    if 'A' <= c <= 'Z' {
      assert 'a' <= LowerChar(c) <= 'z';
    }
  }

  /** `s.toLowerCase()`, folding ASCII letters only. */
  function ToLower(s: string): (r: string)
    ensures |r| == |s|
    ensures forall k :: 0 <= k < |s| ==> r[k] == LowerChar(s[k])
    ensures forall k :: 0 <= k < |r| ==> !('A' <= r[k] <= 'Z')
  {
    seq(|s|, k requires 0 <= k < |s| => LowerChar(s[k]))
  }

  /** Folding twice folds no further. */
  lemma ToLowerIdempotent(s: string)
    ensures ToLower(ToLower(s)) == ToLower(s)
  {
  }

  /** `s.toLowerCase().includes(q.toLowerCase())`. */
  function IncludesIgnoringCase(s: string, q: string): (b: bool)
    ensures b <==> exists j: nat :: OccursAt(ToLower(s), ToLower(q), j)
  {
    Includes(ToLower(s), ToLower(q))
  }

  /** Every string contains the empty string, so an empty query matches everything. */
  lemma EmptyQueryMatches(s: string)
    ensures IncludesIgnoringCase(s, "")
  {
    assert OccursAt(ToLower(s), ToLower(""), 0);
  }

  /** The order of the default `sort()`: lexicographic by character, a proper prefix first. */
  predicate Less(a: string, b: string)
    decreases |a|
  {
    if |b| == 0 then false
    else if |a| == 0 then true
    else if a[0] != b[0] then a[0] < b[0]
    else Less(a[1..], b[1..])
  }

  lemma {:induction false} LessIrreflexive(a: string)
    ensures !Less(a, a)
    decreases |a|
  {
    if |a| > 0 {
      LessIrreflexive(a[1..]);
    }
  }

  lemma {:induction false} LessTransitive(a: string, b: string, c: string)
    requires Less(a, b) && Less(b, c)
    ensures Less(a, c)
    decreases |a|
  {
    if |a| > 0 && a[0] == b[0] && b[0] == c[0] {
      LessTransitive(a[1..], b[1..], c[1..]);
    }
  }

  lemma {:induction false} LessTotal(a: string, b: string)
    requires a != b
    ensures Less(a, b) || Less(b, a)
    decreases |a|
  {
    if |a| > 0 && |b| > 0 && a[0] == b[0] {
      assert a == [a[0]] + a[1..] && b == [b[0]] + b[1..];
      LessTotal(a[1..], b[1..]);
    }
  }

  lemma {:induction false} LessAsymmetric(a: string, b: string)
    requires Less(a, b)
    ensures !Less(b, a)
    decreases |a|
  {
    if |a| > 0 && a[0] == b[0] {
      LessAsymmetric(a[1..], b[1..]);
    }
  }
}

=== FILE: translation_service.dfy ===
/**
 * The translation service (server/src/services/translation.js): the static
 * four-locale bundle, the lookups over it, creating a shop's Localization
 * document, reading a shop's translations with every fallback, and writing them.
 */
module TranslationService {
  import opened Common
  import opened ShopModel
  import opened LocalizationModel
  import opened Store

  const English: Table := map[
    "button.show_variants" := "Show all variants",
    "button.hide_variants" := "Hide variants",
    "button.add_to_cart" := "Add to Cart",
    "button.sold_out" := "Sold Out",
    "button.adding" := "Adding...",
    "button.added" := "Added!",
    "button.select_options" := "Select Options",
    "button.select" := "Select",
    "status.available" := "Available",
    "status.unavailable" := "Sold out",
    "dropdown.select_variant" := "Select a variant",
    "modal.select_options" := "Select Options",
    "modal.close" := "Close"]

  const French: Table := map[
    "button.show_variants" := "Afficher toutes les variantes",
    "button.hide_variants" := "Masquer les variantes",
    "button.add_to_cart" := "Ajouter au panier",
    "button.sold_out" := "Épuisé",
    "button.adding" := "Ajout en cours...",
    "button.added" := "Ajouté !",
    "button.select_options" := "Choisir les options",
    "button.select" := "Sélectionner",
    "status.available" := "Disponible",
    "status.unavailable" := "Épuisé",
    "dropdown.select_variant" := "Sélectionner une variante",
    "modal.select_options" := "Choisir les options",
    "modal.close" := "Fermer"]

  const German: Table := map[
    "button.show_variants" := "Alle Varianten anzeigen",
    "button.hide_variants" := "Varianten ausblenden",
    "button.add_to_cart" := "In den Warenkorb",
    "button.sold_out" := "Ausverkauft",
    "button.adding" := "Wird hinzugefügt...",
    "button.added" := "Hinzugefügt!",
    "button.select_options" := "Optionen wählen",
    "button.select" := "Auswählen",
    "status.available" := "Verfügbar",
    "status.unavailable" := "Ausverkauft",
    "dropdown.select_variant" := "Variante auswählen",
    "modal.select_options" := "Optionen wählen",
    "modal.close" := "Schließen"]

  const Spanish: Table := map[
    "button.show_variants" := "Mostrar todas las variantes",
    "button.hide_variants" := "Ocultar variantes",
    "button.add_to_cart" := "Añadir al carrito",
    "button.sold_out" := "Agotado",
    "button.adding" := "Añadiendo...",
    "button.added" := "¡Añadido!",
    "button.select_options" := "Seleccionar opciones",
    "button.select" := "Seleccionar",
    "status.available" := "Disponible",
    "status.unavailable" := "Agotado",
    "dropdown.select_variant" := "Seleccionar una variante",
    "modal.select_options" := "Seleccionar opciones",
    "modal.close" := "Cerrar"]

  /** The keys every built-in table defines. */
  const TranslationKeys: set<string> := English.Keys

  /** `defaultTranslations`: locale code to its built-in table. */
  const Bundle: map<string, Table> := map["en" := English, "fr" := French, "de" := German, "es" := Spanish]

  /** Every built-in table defines exactly the same keys. */
  lemma BundleUniformKeys()
    ensures Bundle.Keys == {"en", "fr", "de", "es"}
    ensures forall l :: l in Bundle ==> Bundle[l].Keys == TranslationKeys
  {
    assert French.Keys == TranslationKeys;
    assert German.Keys == TranslationKeys;
    assert Spanish.Keys == TranslationKeys;
  }

  /** `getDefaultTranslations(locale)`: the locale's built-in table, English for any other code. */
  function DefaultTranslations(locale: string): (t: Table)
    ensures locale in Bundle ==> t == Bundle[locale]
    ensures locale !in Bundle ==> t == English
    ensures t.Keys == TranslationKeys
  {
    BundleUniformKeys();
    if locale in Bundle then Bundle[locale] else Bundle["en"]
  }

  /** The English table is the one an unknown locale falls back to and the one a new document is seeded with. */
  lemma DefaultEnglish()
    ensures DefaultTranslations("en") == English
  {
    assert "en" in Bundle;
  }

  /** One entry of `getSupportedLocales()`. */
  datatype LocaleInfo = LocaleInfo(code: string, name: string)

  /** `getSupportedLocales()`: the bundle's locales with their own names, English first. */
  function SupportedLocales(): (r: seq<LocaleInfo>)
    ensures |r| == 4 && r[0].code == "en" && r[1].code == "fr" && r[2].code == "de" && r[3].code == "es"
    ensures forall l :: l in Bundle <==> exists i :: 0 <= i < |r| && r[i].code == l
  {
    BundleUniformKeys();
    [LocaleInfo("en", "English"), LocaleInfo("fr", "Français"), LocaleInfo("de", "Deutsch"), LocaleInfo("es", "Español")]
  }

  /** The document `initializeShopLocalization` creates: English only, seeded with the English table. */
  function InitialRecord(shopId: string, shopDomain: string): (rec: LocalizationRecord)
    ensures Consistent(rec)
    ensures rec.shopId == shopId && rec.defaultLocale == "en" && rec.supportedLocales == ["en"]
    ensures rec.translations.Keys == {"en"} && rec.translations["en"] == English
  {
    EnglishOnlyConsistent(shopId, NormalizeDomain(shopDomain), English);
    LocalizationRecord(shopId, NormalizeDomain(shopDomain), "en", ["en"], map["en" := English])
  }

  /**
   * `getShopTranslations(shopDomain, locale)` over the stored collections: an
   * unknown shop (the throw caught at the end), a shop without a document, and a
   * document whose lookup gives the plain `{}` (whose missing `forEach` throws
   * into the same catch) all give the built-in table for the locale.
   */
  function ShopTranslations(shops: seq<Shop>, locs: map<string, LocalizationRecord>, domain: string, locale: string): (t: Table)
    ensures FindShopByDomain(shops, domain).None? ==> t == DefaultTranslations(locale)
    ensures var shop := FindShopByDomain(shops, domain);
      shop.Some? ==>
        if shop.value.id !in locs then t == DefaultTranslations(locale)
        else
          var rec := locs[shop.value.id];
          if locale in rec.translations then t == rec.translations[locale]
          else if rec.defaultLocale in rec.translations then t == rec.translations[rec.defaultLocale]
          else t == DefaultTranslations(locale)
  {
    match FindShopByDomain(shops, domain)
    case None => DefaultTranslations(locale)
    case Some(shop) =>
      if shop.id !in locs then DefaultTranslations(locale)
      else
        match locs[shop.id].GetTranslations(locale)
        case Found(table) => table
        case PlainEmpty => DefaultTranslations(locale)
  }

  /** Whatever the store holds, a shop's translations are a stored table of its own or a built-in table. */
  lemma ShopTranslationsSource(shops: seq<Shop>, locs: map<string, LocalizationRecord>, domain: string, locale: string)
    ensures var t := ShopTranslations(shops, locs, domain, locale);
      || t == DefaultTranslations(locale)
      || exists s, l :: s in locs && l in locs[s].translations && t == locs[s].translations[l]
  {
    var shop := FindShopByDomain(shops, domain);
    if shop.Some? && shop.value.id in locs {
      var rec := locs[shop.value.id];
      match rec.GetTranslations(locale)
      case Found(table) =>
        if locale in rec.translations {
          assert shop.value.id in locs && locale in locs[shop.value.id].translations;
        } else {
          assert shop.value.id in locs && rec.defaultLocale in locs[shop.value.id].translations;
        }
      case PlainEmpty =>
    }
  }

  /** Every stored document is filed under its own shop's id. */
  predicate Keyed(locs: map<string, LocalizationRecord>) {
    forall id :: id in locs ==> locs[id].shopId == id
  }

  /**
   * `getShopTranslations`: looks the shop and its document up, then copies the
   * found table entry by entry into a plain object.
   */
  method GetShopTranslations(db: Database, domain: string, locale: string) returns (t: Table)
    ensures t == ShopTranslations(db.shops, db.localizations, domain, locale)
  {
    var shop := FindShopByDomain(db.shops, domain);
    if shop.None? {
      return DefaultTranslations(locale);
    }
    var doc := db.FindLocalization(shop.value.id);
    if doc == null {
      return DefaultTranslations(locale);
    }
    var found := doc.Record().GetTranslations(locale);
    if found.PlainEmpty? {
      return DefaultTranslations(locale);
    }
    var table := found.table;
    t := map[];
    var pending := table.Keys;
    while pending != {}
      invariant pending <= table.Keys
      invariant t.Keys == table.Keys - pending
      invariant forall k :: k in t ==> t[k] == table[k]
      decreases pending
    {
      var key :| key in pending;
      t := t[key := table[key]];
      pending := pending - {key};
    }
  }

  /**
   * `initializeShopLocalization(shopId, shopDomain)`: returns the shop's document,
   * creating and saving the initial one only when none exists.
   */
  method InitializeShopLocalization(db: Database, shopId: string, shopDomain: string) returns (doc: Localization)
    modifies db`localizations
    ensures fresh(doc)
    ensures shopId in old(db.localizations) ==>
      db.localizations == old(db.localizations) && doc.Record() == old(db.localizations)[shopId]
    ensures shopId !in old(db.localizations) ==>
      db.localizations == old(db.localizations)[shopId := InitialRecord(shopId, shopDomain)]
      && doc.Record() == InitialRecord(shopId, shopDomain)
  {
    var existing := db.FindLocalization(shopId);
    if existing != null {
      return existing;
    }
    doc := new Localization(InitialRecord(shopId, shopDomain));
    db.SaveLocalization(doc);
  }

  /**
   * The document `updateShopTranslations` starts from: the shop's stored document,
   * or the initial one when it has none; `None` when neither the document nor the
   * shop exists (the thrown error).
   */
  function BaseRecord(shops: seq<Shop>, locs: map<string, LocalizationRecord>, shopId: string): (r: Option<LocalizationRecord>)
    ensures r.None? <==> shopId !in locs && FindShopById(shops, shopId).None?
    ensures shopId in locs ==> r == Some(locs[shopId])
    ensures shopId !in locs && r.Some? ==> r.value.shopId == shopId
  {
    if shopId in locs then Some(locs[shopId])
    else match FindShopById(shops, shopId)
      case None => None
      case Some(shop) => Some(InitialRecord(shopId, shop.shopDomain))
  }

  /** The document `updateShopTranslations` writes: the base document after `setTranslations`. */
  function UpdatedRecord(shops: seq<Shop>, locs: map<string, LocalizationRecord>, shopId: string, locale: string, entries: Table): (r: Option<LocalizationRecord>)
    ensures r.None? <==> shopId !in locs && FindShopById(shops, shopId).None?
    ensures shopId in locs ==> r == Some(WithTranslations(locs[shopId], locale, entries))
  {
    match BaseRecord(shops, locs, shopId)
    case None => None
    case Some(base) => Some(WithTranslations(base, locale, entries))
  }

  /**
   * The first half of `updateShopTranslations`: find the shop's document, or
   * create and save the initial one when the shop exists.
   */
  method OpenForUpdate(db: Database, shopId: string) returns (doc: Localization?)
    modifies db`localizations
    ensures var base := BaseRecord(old(db.shops), old(db.localizations), shopId);
      && (doc == null <==> base.None?)
      && (doc == null ==> db.localizations == old(db.localizations))
      && (doc != null ==> fresh(doc) && doc.Record() == base.value && db.localizations == old(db.localizations)[shopId := base.value])
  {
    doc := db.FindLocalization(shopId);
    if doc == null {
      var shop := FindShopById(db.shops, shopId);
      if shop.Some? {
        doc := InitializeShopLocalization(db, shopId, shop.value.shopDomain);
      }
    }
  }

  /** `updateShopTranslations(shopId, locale, entries)`; `ok` is false where the source throws. */
  method UpdateShopTranslations(db: Database, shopId: string, locale: string, entries: Table) returns (ok: bool)
    requires Keyed(db.localizations)
    modifies db`localizations
    ensures Keyed(db.localizations)
    ensures var r := UpdatedRecord(old(db.shops), old(db.localizations), shopId, locale, entries);
      ok == r.Some? && db.localizations == if ok then old(db.localizations)[shopId := r.value] else old(db.localizations)
  {
    var doc := OpenForUpdate(db, shopId);
    if doc == null {
      return false;
    }
    ghost var base := doc.Record();
    ghost var after := WithTranslations(base, locale, entries);
    assert UpdatedRecord(old(db.shops), old(db.localizations), shopId, locale, entries) == Some(after);
    WriteTranslations(db, doc, locale, entries);
    Refile(old(db.localizations), shopId, base, after);
    KeyedUpdate(old(db.localizations), shopId, after);
    ok := true;
  }

  /** The second half of `updateShopTranslations`: `setTranslations` on the open document, then `save()`. */
  method WriteTranslations(db: Database, doc: Localization, locale: string, entries: Table)
    modifies doc, db`localizations
    ensures doc.Record() == WithTranslations(old(doc.Record()), locale, entries)
    ensures db.localizations == old(db.localizations)[old(doc.shopId) := doc.Record()]
  {
    doc.SetTranslations(locale, entries);
    db.SaveLocalization(doc);
  }

  /**
   * Two `updateShopTranslations` calls for one shop and locale: the second, run on
   * the store the first left, writes the locale's table that one call with the
   * combined entries would, the later entries winning; the whole document agrees
   * when the locale has no surrounding white space.
   */
  lemma UpdateTwice(shops: seq<Shop>, locs: map<string, LocalizationRecord>, shopId: string, locale: string, p: Table, q: Table)
    ensures var first := UpdatedRecord(shops, locs, shopId, locale, p);
      var once := UpdatedRecord(shops, locs, shopId, locale, MergeTable(p, q));
      first.Some? ==>
        var second := UpdatedRecord(shops, locs[shopId := first.value], shopId, locale, q);
        && second.Some? && once.Some?
        && second.value.translations == once.value.translations
        && (Strings.Trim(locale) == locale ==> second == once)
  {
    var base := BaseRecord(shops, locs, shopId);
    if base.Some? {
      WithTranslationsTwice(base.value, locale, p, q);
    }
  }

  /** Filing a document again under the same id replaces the copy filed first. */
  lemma Refile<K, V>(m: map<K, V>, k: K, a: V, b: V)
    ensures m[k := a][k := b] == m[k := b]
  {
  }

  /** Filing a document under its own shop's id keeps the store keyed. */
  lemma KeyedUpdate(locs: map<string, LocalizationRecord>, shopId: string, rec: LocalizationRecord)
    requires Keyed(locs) && rec.shopId == shopId
    ensures Keyed(locs[shopId := rec])
  {
  }

  /**
   * Writing translations for a locale without surrounding white space into a
   * consistent document, or into a new one, leaves a consistent document.
   */
  lemma UpdatedRecordConsistent(shops: seq<Shop>, locs: map<string, LocalizationRecord>, shopId: string, locale: string, entries: Table)
    requires shopId in locs ==> Consistent(locs[shopId])
    requires Strings.Trim(locale) == locale
    ensures var r := UpdatedRecord(shops, locs, shopId, locale, entries);
      r.Some? ==> Consistent(r.value) && locale in r.value.supportedLocales
  {
    if shopId in locs {
      WithTranslationsConsistent(locs[shopId], locale, entries);
    } else if FindShopById(shops, shopId).Some? {
      WithTranslationsConsistent(InitialRecord(shopId, FindShopById(shops, shopId).value.shopDomain), locale, entries);
    }
  }
}

=== FILE: variant_options_page.dfy ===
/**
 * The console's variant-options page (web/src/pages/VariantOptions.jsx): the
 * global display defaults, the per-product and per-collection overrides with
 * their create-or-patch editing rule, the values the editors show, the option
 * types collected from the product list, and the dirty/save/reset bookkeeping.
 *
 * The page's React state is the class's fields; the server's responses are
 * parameters of the methods that receive them.
 */
module VariantOptionsPage {
  import opened Common
  import opened Strings
  import opened ListOps
  import opened ShopModel

  const PerPage: nat := 10
  const LoadFailed := "Failed to load variant option settings. Please try refreshing the page."
  const SaveFailed := "Failed to save variant option settings. Please try again."

  /** `commonOptionTypes`: the choices offered when a product's own option names are unknown. */
  const CommonOptionTypes: seq<string> := ["Color", "Size", "Material", "Style", "Title"]

  /** `globalSettings`. */
  datatype Global = Global(defaultDisplayMode: string, defaultPrimaryOption: string)

  /** The field an override editor changes. */
  datatype Field = DisplayModeField | PrimaryOptionField

  /** A product as the products-with-options listing gives it: its option names in order. */
  datatype ProductInfo = ProductInfo(id: string, title: string, tags: Option<string>, options: seq<string>)

  /** A collection as the collections listing gives it. */
  datatype CollectionInfo = CollectionInfo(id: string, title: string, handle: string)

  // ---------------------------------------------------------------------------
  // Loading

  /** The global settings read from a stored `optionSettings`, falsy values replaced by `all-variants` / `Color`. */
  function LoadGlobal(o: OptionSettings): (g: Global)
    ensures g.defaultDisplayMode == OrElse(o.defaultDisplayMode, "all-variants")
    ensures g.defaultPrimaryOption == OrElse(o.defaultPrimaryOption, "Color")
    ensures g.defaultDisplayMode != "" && g.defaultPrimaryOption != ""
  {
    Global(OrElse(o.defaultDisplayMode, "all-variants"), OrElse(o.defaultPrimaryOption, "Color"))
  }

  /** A stored document with the schema's defaults loads as the page's initial global settings. */
  lemma LoadDefaults()
    ensures LoadGlobal(DefaultOptionSettings()) == Global("all-variants", "Color")
  {
  }

  /**
   * `productOptionTypes` after the products arrive: each product with at least
   * one option, by id, a later product with the same id replacing an earlier one.
   */
  function OptionTypesOf(products: seq<ProductInfo>): (m: map<string, seq<string>>)
    ensures forall id :: id in m ==> |m[id]| > 0
    decreases |products|
  {
    if products == [] then map[]
    else
      var m := OptionTypesOf(products[..|products| - 1]);
      var p := products[|products| - 1];
      if |p.options| > 0 then m[p.id := p.options] else m
  }

  /**
   * A product id has option types exactly when some product with that id has
   * options, and they are the options of the last such product.
   */
  lemma {:induction false} OptionTypesOfSpec(products: seq<ProductInfo>, id: string)
    ensures id in OptionTypesOf(products) <==> exists i :: 0 <= i < |products| && products[i].id == id && |products[i].options| > 0
    ensures id in OptionTypesOf(products) ==> exists i :: (0 <= i < |products| && products[i].id == id
      && products[i].options == OptionTypesOf(products)[id]
      && forall j :: i < j < |products| && products[j].id == id ==> |products[j].options| == 0)
    decreases |products|
  {
    if products != [] {
      var n := |products| - 1;
      var init := products[..n];
      OptionTypesOfSpec(init, id);
      assert forall i :: 0 <= i < n ==> products[i] == init[i];
      var p := products[n];
      if !(p.id == id && |p.options| > 0) {
        if id in OptionTypesOf(products) {
          var i :| 0 <= i < n && init[i].id == id && init[i].options == OptionTypesOf(init)[id]
            && forall j :: i < j < n && init[j].id == id ==> |init[j].options| == 0;
          assert products[i].options == OptionTypesOf(products)[id];
        }
      }
    }
  }

  /** The loop that fills `productOptionTypes`. */
  method CollectOptionTypes(products: seq<ProductInfo>) returns (optionTypes: map<string, seq<string>>)
    ensures optionTypes == OptionTypesOf(products)
  {
    optionTypes := map[];
    var i := 0;
    while i < |products|
      invariant 0 <= i <= |products|
      invariant optionTypes == OptionTypesOf(products[..i])
    {
      var product := products[i];
      assert products[..i + 1][..i] == products[..i];
      if |product.options| > 0 {
        optionTypes := optionTypes[product.id := product.options];
      }
      i := i + 1;
    }
    assert products[..i] == products;
  }

  // ---------------------------------------------------------------------------
  // Editing overrides

  /**
   * `handleProductOptionChange` / `handleCollectionOptionChange`: an id without an
   * override gets a new one whose other field takes its default
   * (`primary-option` / `Color`); an existing override has only the named field
   * replaced. Other ids are untouched.
   */
  function ChangeOverride(opts: map<string, OptionOverride>, id: string, field: Field, value: string): (r: map<string, OptionOverride>)
    ensures r.Keys == opts.Keys + {id}
    ensures forall other :: other in opts && other != id ==> r[other] == opts[other]
    ensures id !in opts && field == DisplayModeField ==> r[id] == OptionOverride(Some(value), Some("Color"))
    ensures id !in opts && field == PrimaryOptionField ==> r[id] == OptionOverride(Some("primary-option"), Some(value))
    ensures id in opts && field == DisplayModeField ==> r[id] == opts[id].(displayMode := Some(value))
    ensures id in opts && field == PrimaryOptionField ==> r[id] == opts[id].(primaryOption := Some(value))
  {
    if id !in opts then
      opts[id := OptionOverride(
        Some(if field == DisplayModeField then value else "primary-option"),
        Some(if field == PrimaryOptionField then value else "Color"))]
    else if field == DisplayModeField then opts[id := opts[id].(displayMode := Some(value))]
    else opts[id := opts[id].(primaryOption := Some(value))]
  }

  /** A new override is the schema's default override with the edited field set. */
  lemma NewOverrideFromDefaults(opts: map<string, OptionOverride>, id: string, field: Field, value: string)
    requires id !in opts
    ensures field == DisplayModeField ==> ChangeOverride(opts, id, field, value)[id] == DefaultOverride().(displayMode := Some(value))
    ensures field == PrimaryOptionField ==> ChangeOverride(opts, id, field, value)[id] == DefaultOverride().(primaryOption := Some(value))
  {
  }

  /** Editing the same field twice keeps only the second value. */
  lemma ChangeOverrideTwice(opts: map<string, OptionOverride>, id: string, field: Field, v1: string, v2: string)
    ensures ChangeOverride(ChangeOverride(opts, id, field, v1), id, field, v2) == ChangeOverride(opts, id, field, v2)
  {
  }

  /** Edits of different ids commute. */
  lemma ChangeOverrideCommutes(opts: map<string, OptionOverride>, a: string, fa: Field, va: string, b: string, fb: Field, vb: string)
    requires a != b
    ensures ChangeOverride(ChangeOverride(opts, a, fa, va), b, fb, vb) == ChangeOverride(ChangeOverride(opts, b, fb, vb), a, fa, va)
  {
  }

  // ---------------------------------------------------------------------------
  // What the editors show

  /** `(opts[id] || {}).displayMode || globalSettings.defaultDisplayMode`. */
  function EffectiveMode(opts: map<string, OptionOverride>, id: string, g: Global): (m: string)
    ensures id in opts && Truthy(opts[id].displayMode) ==> m == opts[id].displayMode.value
    ensures id !in opts || !Truthy(opts[id].displayMode) ==> m == g.defaultDisplayMode
  {
    if id in opts then OrElse(opts[id].displayMode, g.defaultDisplayMode) else g.defaultDisplayMode
  }

  /** `(opts[id] || {}).primaryOption || globalSettings.defaultPrimaryOption`. */
  function EffectivePrimary(opts: map<string, OptionOverride>, id: string, g: Global): (p: string)
    ensures id in opts && Truthy(opts[id].primaryOption) ==> p == opts[id].primaryOption.value
    ensures id !in opts || !Truthy(opts[id].primaryOption) ==> p == g.defaultPrimaryOption
  {
    if id in opts then OrElse(opts[id].primaryOption, g.defaultPrimaryOption) else g.defaultPrimaryOption
  }

  /** The condition under which the primary-option selector is rendered. */
  predicate ShowsPrimarySelector(opts: map<string, OptionOverride>, id: string, g: Global) {
    var mode := if id in opts then opts[id].displayMode else None;
    || mode == Some("primary-option")
    || (mode.None? && g.defaultDisplayMode == "primary-option")
    || mode == Some("grouped-options")
    || (mode.None? && g.defaultDisplayMode == "grouped-options")
  }

  /**
   * The selector is shown exactly when the displayed mode is `primary-option` or
   * `grouped-options`, as long as no override holds the empty string as its mode.
   */
  lemma SelectorFollowsEffectiveMode(opts: map<string, OptionOverride>, id: string, g: Global)
    requires id in opts ==> opts[id].displayMode != Some("")
    ensures ShowsPrimarySelector(opts, id, g) <==>
      EffectiveMode(opts, id, g) == "primary-option" || EffectiveMode(opts, id, g) == "grouped-options"
  {
  }

  /** `getPrimaryOptionChoices(productId)`: the product's own option names, or the common ones. */
  function PrimaryOptionChoices(optionTypes: map<string, seq<string>>, id: string): (choices: seq<string>)
    ensures id in optionTypes && |optionTypes[id]| > 0 ==> choices == optionTypes[id]
    ensures id !in optionTypes || |optionTypes[id]| == 0 ==> choices == CommonOptionTypes
    ensures |choices| > 0
  {
    if id in optionTypes && |optionTypes[id]| > 0 then optionTypes[id] else CommonOptionTypes
  }

  /** `hasOptions`: the product has more than one option type, so its editor can open. */
  predicate HasOptions(optionTypes: map<string, seq<string>>, id: string) {
    id in optionTypes && |optionTypes[id]| > 1
  }

  /** The products tab search: the title, or the tags when present, contain the query. */
  predicate ProductMatches(p: ProductInfo, query: string) {
    IncludesIgnoringCase(p.title, query) || (p.tags.Some? && p.tags.value != "" && IncludesIgnoringCase(p.tags.value, query))
  }

  function FilterProducts(products: seq<ProductInfo>, query: string): (r: seq<ProductInfo>)
    ensures forall p :: p in r <==> p in products && ProductMatches(p, query)
  {
    Filter(products, (p: ProductInfo) => ProductMatches(p, query))
  }

  function FilterCollections(collections: seq<CollectionInfo>, query: string): (r: seq<CollectionInfo>)
    ensures forall c :: c in r <==> c in collections && IncludesIgnoringCase(c.title, query)
  {
    Filter(collections, (c: CollectionInfo) => IncludesIgnoringCase(c.title, query))
  }

  /**
   * The products tab's current page: the run of ten matches that starts after the
   * earlier pages' matches, shorter only on the last page.
   */
  function ProductPage(products: seq<ProductInfo>, query: string, page: nat): (r: seq<ProductInfo>)
    requires page >= 1
    ensures |r| <= PerPage
    ensures forall p :: p in r ==> p in products && ProductMatches(p, query)
    ensures forall k :: 0 <= k < |r| ==>
      && (page - 1) * PerPage + k < |FilterProducts(products, query)|
      && r[k] == FilterProducts(products, query)[(page - 1) * PerPage + k]
    ensures var n := |FilterProducts(products, query)| - (page - 1) * PerPage;
      |r| == if n <= 0 then 0 else if n < PerPage then n else PerPage
  {
    var items := FilterProducts(products, query);
    var r := Paginate(items, page, PerPage);
    assert forall k :: 0 <= k < |r| ==> r[k] in items;
    r
  }

  // ---------------------------------------------------------------------------
  // The page

  class Page {
    var global: Global
    var originalGlobal: Option<Global>
    var productOptions: map<string, OptionOverride>
    var originalProductOptions: map<string, OptionOverride>
    var collectionOptions: map<string, OptionOverride>
    var originalCollectionOptions: map<string, OptionOverride>
    var productOptionTypes: map<string, seq<string>>
    var expandedProducts: seq<string>
    var expandedCollections: seq<string>
    var error: Option<string>

    /** The page as first rendered. */
    constructor ()
      ensures global == Global("all-variants", "Color") && originalGlobal.None?
      ensures productOptions == map[] && originalProductOptions == map[]
      ensures collectionOptions == map[] && originalCollectionOptions == map[]
      ensures productOptionTypes == map[] && expandedProducts == [] && expandedCollections == [] && error.None?
    {
      global := Global("all-variants", "Color");
      originalGlobal := None;
      productOptions, originalProductOptions := map[], map[];
      collectionOptions, originalCollectionOptions := map[], map[];
      productOptionTypes := map[];
      expandedProducts, expandedCollections := [], [];
      error := None;
    }

    /** The dirty flag the page reports: only once settings were loaded, and then iff anything differs. */
    predicate IsDirty()
      reads this
    {
      originalGlobal.Some? &&
      (global != originalGlobal.value || productOptions != originalProductOptions || collectionOptions != originalCollectionOptions)
    }

    /**
     * The load effect: `settings` is the stored `optionSettings` when the settings
     * reply carries `success`; `products` is the products-with-options listing, `None`
     * when the reply has no `products`, whose `forEach` then throws into the catch
     * after the settings were already applied.
     */
    method Load(settings: Option<OptionSettings>, products: Option<seq<ProductInfo>>)
      modifies this
      ensures settings.Some? ==>
        && global == LoadGlobal(settings.value) && originalGlobal == Some(global)
        && productOptions == settings.value.productSpecificOptions.GetOr(map[]) && originalProductOptions == productOptions
        && collectionOptions == settings.value.collectionSpecificOptions.GetOr(map[]) && originalCollectionOptions == collectionOptions
      ensures settings.None? ==>
        && global == old(global) && originalGlobal == old(originalGlobal)
        && productOptions == old(productOptions) && originalProductOptions == old(originalProductOptions)
        && collectionOptions == old(collectionOptions) && originalCollectionOptions == old(originalCollectionOptions)
      ensures products.Some? ==> productOptionTypes == OptionTypesOf(products.value) && error.None?
      ensures products.None? ==> productOptionTypes == old(productOptionTypes) && error == Some(LoadFailed)
      ensures expandedProducts == old(expandedProducts) && expandedCollections == old(expandedCollections)
      ensures settings.Some? ==> !IsDirty()
    {
      if settings.Some? {
        global := LoadGlobal(settings.value);
        originalGlobal := Some(global);
        productOptions := settings.value.productSpecificOptions.GetOr(map[]);
        originalProductOptions := productOptions;
        collectionOptions := settings.value.collectionSpecificOptions.GetOr(map[]);
        originalCollectionOptions := collectionOptions;
      }
      if products.None? {
        error := Some(LoadFailed);
        return;
      }
      productOptionTypes := CollectOptionTypes(products.value);
      error := None;
    }

    /** `handleGlobalSettingChange(value, field)`. */
    method ChangeGlobal(field: Field, value: string)
      modifies this`global
      ensures field == DisplayModeField ==> global == old(global).(defaultDisplayMode := value)
      ensures field == PrimaryOptionField ==> global == old(global).(defaultPrimaryOption := value)
    {
      if field == DisplayModeField {
        global := global.(defaultDisplayMode := value);
      } else {
        global := global.(defaultPrimaryOption := value);
      }
    }

    /** `handleProductOptionChange(productId, field, value)`. */
    method ChangeProductOption(id: string, field: Field, value: string)
      modifies this`productOptions
      ensures productOptions == ChangeOverride(old(productOptions), id, field, value)
    {
      var updated := productOptions;
      if id !in updated {
        updated := updated[id := OptionOverride(
          Some(if field == DisplayModeField then value else "primary-option"),
          Some(if field == PrimaryOptionField then value else "Color"))];
      } else if field == DisplayModeField {
        updated := updated[id := updated[id].(displayMode := Some(value))];
      } else {
        updated := updated[id := updated[id].(primaryOption := Some(value))];
      }
      productOptions := updated;
    }

    /** `handleCollectionOptionChange(collectionId, field, value)`. */
    method ChangeCollectionOption(id: string, field: Field, value: string)
      modifies this`collectionOptions
      ensures collectionOptions == ChangeOverride(old(collectionOptions), id, field, value)
    {
      var updated := collectionOptions;
      if id !in updated {
        updated := updated[id := OptionOverride(
          Some(if field == DisplayModeField then value else "primary-option"),
          Some(if field == PrimaryOptionField then value else "Color"))];
      } else if field == DisplayModeField {
        updated := updated[id := updated[id].(displayMode := Some(value))];
      } else {
        updated := updated[id := updated[id].(primaryOption := Some(value))];
      }
      collectionOptions := updated;
    }

    /** `toggleProductExpand(productId)`. */
    method ToggleProductExpand(id: string)
      modifies this`expandedProducts
      ensures expandedProducts == Toggle(old(expandedProducts), id)
    {
      if id in expandedProducts {
        expandedProducts := RemoveAll(expandedProducts, id);
      } else {
        expandedProducts := expandedProducts + [id];
      }
    }

    /** `toggleCollectionExpand(collectionId)`. */
    method ToggleCollectionExpand(id: string)
      modifies this`expandedCollections
      ensures expandedCollections == Toggle(old(expandedCollections), id)
    {
      if id in expandedCollections {
        expandedCollections := RemoveAll(expandedCollections, id);
      } else {
        expandedCollections := expandedCollections + [id];
      }
    }

    /** The product's editor is open: expanded in the list and with more than one option type. */
    predicate EditorOpen(id: string)
      reads this
    {
      id in expandedProducts && HasOptions(productOptionTypes, id)
    }

    /** `handleSave`: `success` is the server's answer; a failed save keeps the originals and sets the error. */
    method Save(success: bool)
      modifies this`originalGlobal, this`originalProductOptions, this`originalCollectionOptions, this`error
      ensures success ==> (originalGlobal == Some(global) && originalProductOptions == productOptions
        && originalCollectionOptions == collectionOptions && error.None?)
      ensures success ==> !IsDirty()
      ensures !success ==> (originalGlobal == old(originalGlobal) && originalProductOptions == old(originalProductOptions)
        && originalCollectionOptions == old(originalCollectionOptions) && error == Some(SaveFailed))
    {
      if success {
        originalGlobal := Some(global);
        originalProductOptions := productOptions;
        originalCollectionOptions := collectionOptions;
        error := None;
      } else {
        error := Some(SaveFailed);
      }
    }

    /** `handleReset`: the current values go back to the originals once settings were loaded. */
    method Reset()
      modifies this`global, this`productOptions, this`collectionOptions
      ensures originalGlobal.Some? ==> global == originalGlobal.value
      ensures originalGlobal.None? ==> global == old(global)
      ensures productOptions == originalProductOptions && collectionOptions == originalCollectionOptions
      ensures !IsDirty()
    {
      if originalGlobal.Some? {
        global := originalGlobal.value;
      }
      productOptions := originalProductOptions;
      collectionOptions := originalCollectionOptions;
    }
  }
}
